=== FILE: README.md ===
# LINEMOD RGB-D recognizer of the Point Cloud Library, modelled in Dafny

This project models the core of PCL's `recognition` module: the part that
sits around the LINEMOD template matcher. It covers:

- **Quantized maps and their spreading** (`QuantizedMap`, `spreadQuantizedMap`).
  Spreading ORs every input cell into an s x s block, in two separable
  passes. Both the scalar loops and the 32-lane AVX2 loops are modelled.
- **The `LineRGBD` recognizer state.** This covers the constructor, the
  threshold setters, `resizeTemplates`, `addTemplate` and the template
  accessors. It also covers loading templates from an LTM file: a tar
  archive of `.pcd` point clouds and `.sqmmt` LINEMOD templates read block
  by block. Loaded clouds are re-centred on their centroid, and each gets an
  axis-aligned bounding box relative to that centroid.
- **The post-match pipeline of `detect`:**
  1. `convertDetectionsTo3D` turns each 2D match into a 3D detection. The
     template box is moved to the mean of the finite scene points under the
     match.
  2. `refineDetectionsAlongDepth` builds a 1000-bin depth histogram and its
     prefix sums. It picks the first window, as deep as the box, that holds
     the most points.
  3. `removeOverlappingDetections` clusters detections by a quantized key in
     an ordered map. It merges each cluster into one detection, with
     response-weighted centres and the best member's extents.
  4. `sortDetections` orders the detections by decreasing response.
  5. `computeBoundingBoxIntersectionVolume` computes the volume where two
     boxes overlap.

Modelling choices:

- Floats are `real`; a point carries one finiteness flag per coordinate.
- C truncation toward zero is `Records.Trunc`, and the `size_t` conversion
  of a signed value is `Records.ToSize`, reduction modulo 2^64.
- Organized clouds are row-major sequences.
- The file is a sequence of 512-byte blocks. The PCD reader and the template
  deserializer are parameters.
- `std::map` is a sorted sequence of buckets. `Clustering.Members` is its
  reference definition.
- `std::sort` is a stable insertion sort by decreasing response.
- Every operation has a reference definition or an invariant, and lemmas
  connect the two:
  - the spreading loops compute `Spreading.SpreadReference`;
  - the histogram loops compute `DepthRefinement.CountBins`;
  - the best-window loop returns the unique first maximum
    (`DepthRefinement.FirstBest`);
  - the bucket sequence agrees with `Clustering.Members` key by key.

Where the code and its documentation disagree, the model follows the code:

- `line_rgbd.h:119` says loading "overrides old templates", but the code
  appends to them.
- An entry that is neither `.pcd` nor `.sqmmt` does not advance the read
  offset past its body. The next header is therefore read from the first
  block of that body.

## Model

| member | source | states |
|---|---|---|
| QuantizedMaps.Empty | recognition/src/quantizable_modality.cpp:57-60 | the default map is valid, 0 x 0 and holds no data |
| QuantizedMaps.CopyOf | recognition/src/quantizable_modality.cpp:63-67 | the copy constructor yields a map equal to the original in size and every cell |
| QuantizedMaps.Sized | recognition/src/quantizable_modality.cpp:70-73 | a map built for w x h is valid, has that size and every cell is zero |
| QuantizedMaps.Resize | recognition/src/quantizable_modality.cpp:81-88 | resize keeps the first min(old, new) raw cells, zero-fills the rest and takes the new size |
| QuantizedMaps.CellwiseEqual | recognition/src/quantizable_modality.cpp:57-88 | two valid maps of the same size that agree on every (x, y) are equal |
| Spreading.RowOrIsLeastCover | recognition/src/quantizable_modality.cpp:125-130 | the OR over a run of a row includes every cell of the run and is included in any value that includes them all |
| Spreading.ColOrIsLeastCover | recognition/src/quantizable_modality.cpp:154-159 | the same least-cover property for a run of a column |
| Spreading.RowWindowOr | recognition/src/quantizable_modality.cpp:125-130 | the inner scalar loop computes the OR of s consecutive cells of a row |
| Spreading.ColWindowOr | recognition/src/quantizable_modality.cpp:154-159 | the inner scalar loop computes the OR of s cells going down a column |
| Spreading.HorizontalPass | recognition/src/quantizable_modality.cpp:100-134 | the first pass yields exactly the reference scratch map: row ORs stored half a window to the right, zero elsewhere |
| Spreading.VerticalPass | recognition/src/quantizable_modality.cpp:136-163 | the second pass writes the column ORs of the scratch map half a window down and leaves every other cell of the resized output as it was |
| Spreading.Spread | recognition/src/quantizable_modality.cpp:91-164 | spreadQuantizedMap produces exactly the reference spread map and the input's size |
| Spreading.SpreadIsBlockOr | recognition/src/quantizable_modality.cpp:109-163 | a written output cell is the least value including every input cell of its s x s block, which starts half a window up and to the left |
| Spreading.SpreadLeftBandIsZero | recognition/src/quantizable_modality.cpp:100-163 | the left band of half a window is read from the never-written zero columns of the scratch map, so written cells there are zero |
| Spreading.SpreadUnwrittenCellsKeepResizedOutput | recognition/src/quantizable_modality.cpp:101-162 | cells the loops never reach keep the resized output's old content; maps no larger than s + 1 are not spread at all |
| Spreading.SpreadWindowOneCopiesInput | recognition/src/quantizable_modality.cpp:98-163 | with a window of one, every written cell equals the input cell |
| Spreading.HorizontalBlock | recognition/src/quantizable_modality.cpp:113-121 | one AVX2 step yields the 32 row ORs starting at its column, all inside the scalar bound |
| Spreading.VerticalBlock | recognition/src/quantizable_modality.cpp:140-149 | one AVX2 step yields the 32 column ORs starting at its column |
| Spreading.HorizontalPassAvx2 | recognition/src/quantizable_modality.cpp:109-134 | the 32-lane loop followed by the scalar tail gives the same scratch map as the scalar pass |
| Spreading.HorizontalRowAvx2 | recognition/src/quantizable_modality.cpp:110-133 | one row of the 32-lane loop and its scalar tail writes exactly that row of the reference scratch map |
| Spreading.VerticalPassAvx2 | recognition/src/quantizable_modality.cpp:136-163 | the 32-lane loop followed by the scalar tail gives the same output cells as the scalar pass |
| Spreading.VerticalRowAvx2 | recognition/src/quantizable_modality.cpp:137-162 | one row of the 32-lane loop and its scalar tail writes exactly the column ORs of that output row |
| Spreading.SpreadAvx2 | recognition/src/quantizable_modality.cpp:91-164 | the AVX2 build of spreadQuantizedMap produces the same map as the scalar build |
| Records.Trunc | recognition/include/pcl/recognition/impl/linemod/line_rgbd.hpp:935-936 | the float-to-int conversion lands within one of its argument, on the side of zero |
| Records.ToSize | recognition/include/pcl/recognition/impl/linemod/line_rgbd.hpp:863-866 | the size_t conversion is the identity on representable values and adds 2^64 to small negatives |
| Records.DefaultBoundingBox | recognition/include/pcl/recognition/linemod/line_rgbd.h:52 | a default-constructed box has its corner at the origin and no extent along any axis |
| Records.DefaultDetection | recognition/include/pcl/recognition/linemod/line_rgbd.h:81 | a default-constructed detection has zero ids and response, the default box (zero corner, no extent) and an all-zero region |
| Recognizer.Fresh | recognition/include/pcl/recognition/linemod/line_rgbd.h:98-112 | the constructor sets the volume threshold to 1, all clustering thresholds to 0, and starts with no templates |
| Recognizer.SetIntersectionVolumeThreshold | recognition/include/pcl/recognition/linemod/line_rgbd.h:153-157 | sets the volume threshold and changes nothing else |
| Recognizer.SetClusteringThresholds | recognition/include/pcl/recognition/linemod/line_rgbd.h:165-171 | sets the three clustering thresholds and changes nothing else |
| Recognizer.ResizeSeq | recognition/include/pcl/recognition/linemod/line_rgbd.h:312-314 | std::vector::resize keeps the first n elements and pads with the default value |
| Recognizer.ResizeTemplates | recognition/include/pcl/recognition/linemod/line_rgbd.h:309-316 | all four template collections get length n, keep their prefixes, are padded with defaults, and the thresholds are unchanged |
| Recognizer.ResizedTemplatesAreBlank | recognition/include/pcl/recognition/linemod/line_rgbd.h:309-316 | read through the accessors after a resize that grows the collections: an old id sees its old cloud, box and object id; a new id sees an empty cloud, a box at the origin with no extent and object id 0 |
| Recognizer.Recenter | recognition/include/pcl/recognition/impl/linemod/line_rgbd.hpp:386-451 | a cloud with a finite point gets the box ComputeAabb gives and the cloud shifted by its mean, whose coordinate sums are then zero |
| Recognizer.RecenterIdempotent | recognition/include/pcl/recognition/impl/linemod/line_rgbd.hpp:161-226 | re-centring an already re-centred cloud changes neither the cloud nor its box |
| Recognizer.RecenteredMeanIsOrigin | recognition/include/pcl/recognition/impl/linemod/line_rgbd.hpp:340-358 | after subtracting the mean, the mean of the finite points is the origin |
| Recognizer.AddTemplate | recognition/include/pcl/recognition/impl/linemod/line_rgbd.hpp:374-454 | one cloud, box, object id and signature are appended; the new cloud and box are the re-centred input and earlier templates are unchanged |
| Recognizer.AddedTemplateIsLast | recognition/include/pcl/recognition/linemod/line_rgbd.h:290-306 | after addTemplate the accessors return the new cloud, box and object id at the last id and the old values at every earlier id |
| Recognizer.TemplateCloud | recognition/include/pcl/recognition/linemod/line_rgbd.h:291-294 | getTemplateCloud returns the stored cloud of that template id; Recognizer.AddedTemplateIsLast and Recognizer.ResizedTemplatesAreBlank say what it reads after an add or a resize |
| Recognizer.TemplateBBox | recognition/include/pcl/recognition/linemod/line_rgbd.h:297-300 | getTemplateBBox returns the stored box of that template id, read at the same index as the cloud |
| Recognizer.TemplateObjectId | recognition/include/pcl/recognition/linemod/line_rgbd.h:303-306 | getTemplateObjectID returns the stored object id of that template id, read at the same index as the cloud |
| Recognizer.RecenterAll | recognition/include/pcl/recognition/impl/linemod/line_rgbd.hpp:161-226 | the box loop re-centres each cloud independently and in order |
| Geometry.Min | recognition/include/pcl/recognition/impl/linemod/line_rgbd.hpp:298-317 | the running minimum is a lower bound attained by some finite point |
| Geometry.Max | recognition/include/pcl/recognition/impl/linemod/line_rgbd.hpp:298-317 | the running maximum is an upper bound attained by some finite point |
| Geometry.Mean | recognition/include/pcl/recognition/impl/linemod/line_rgbd.hpp:319-328 | the mean times the number of finite points is their coordinate sum on every axis |
| Geometry.MeanOfSingleFinite | recognition/include/pcl/recognition/impl/linemod/line_rgbd.hpp:305-328 | a cloud with exactly one finite point has that point as its mean |
| Geometry.ComputeAabb | recognition/include/pcl/recognition/impl/linemod/line_rgbd.hpp:286-337 | with a finite point the box has non-negative extents, contains every finite point relative to the mean and touches the extremes on every axis; without one there is no box |
| Geometry.BoxOfFaces | recognition/include/pcl/recognition/impl/linemod/line_rgbd.hpp:330-336 | the box corner plus the mean is the minimum and the extent is max minus min |
| Geometry.Shift | recognition/include/pcl/recognition/impl/linemod/line_rgbd.hpp:347-356 | finite points are moved by minus the centre; any point with a non-finite coordinate is left as is |
| Geometry.SubtractMean | recognition/include/pcl/recognition/impl/linemod/line_rgbd.hpp:340-358 | every point is shifted independently and the cloud length is kept |
| Geometry.SumAfterShift | recognition/include/pcl/recognition/impl/linemod/line_rgbd.hpp:340-358 | shifting keeps the number of finite points and lowers each coordinate sum by count times the shift |
| Geometry.RecenteredMeanIsZero | recognition/include/pcl/recognition/impl/linemod/line_rgbd.hpp:340-358 | subtracting the mean makes every coordinate sum zero |
| Geometry.MeanAfterShift | recognition/include/pcl/recognition/impl/linemod/line_rgbd.hpp:340-358 | the mean of a shifted cloud is the old mean minus the shift |
| Geometry.ExtremaAfterShift | recognition/include/pcl/recognition/impl/linemod/line_rgbd.hpp:298-358 | shifting a cloud moves its smallest and largest finite coordinate by minus the shift |
| Geometry.MinAfterShift | recognition/include/pcl/recognition/impl/linemod/line_rgbd.hpp:298-358 | shifting a cloud moves its smallest finite coordinate by minus the shift |
| Geometry.MaxAfterShift | recognition/include/pcl/recognition/impl/linemod/line_rgbd.hpp:298-358 | shifting a cloud moves its largest finite coordinate by minus the shift |
| Geometry.AabbTranslationInvariant | recognition/include/pcl/recognition/impl/linemod/line_rgbd.hpp:286-358 | shifting a cloud leaves its box unchanged, because the box is relative to the mean |
| Geometry.IntersectionVolume | recognition/include/pcl/recognition/impl/linemod/line_rgbd.hpp:956-992 | the volume is zero exactly when the boxes fail to overlap on some axis, and otherwise the product of the three overlaps |
| Geometry.IntersectionVolumeSymmetric | recognition/include/pcl/recognition/impl/linemod/line_rgbd.hpp:956-992 | the intersection volume does not depend on the order of the boxes |
| Geometry.IntersectionVolumeAtMostVolume | recognition/include/pcl/recognition/impl/linemod/line_rgbd.hpp:956-992 | for a box with non-negative extents, the intersection is at most its volume, so the threshold ratio is at most 1 |
| TemplateLoader.ReadBlock | recognition/include/pcl/recognition/impl/linemod/line_rgbd.hpp:65-67 | a 512-byte read fails on an I/O error, returns end of file past the last block, and otherwise returns that block |
| TemplateLoader.ReadLtmHeader | recognition/include/pcl/recognition/impl/linemod/line_rgbd.hpp:61-83 | the buffer is overwritten only by a successful read; a header is accepted exactly when the read did not fail and the buffer holds a regular, non-empty ustar entry |
| TemplateLoader.Padded | recognition/include/pcl/recognition/impl/linemod/line_rgbd.hpp:122 | an entry body is rounded up to the next block boundary, and a whole extra block is added when its size is already a multiple of 512 |
| TemplateLoader.Lower | recognition/include/pcl/recognition/impl/linemod/line_rgbd.hpp:110 | lower-casing maps every character and keeps the length |
| TemplateLoader.Find | recognition/include/pcl/recognition/impl/linemod/line_rgbd.hpp:113-124 | std::string::find returns the first occurrence, or none when the pattern never occurs |
| TemplateLoader.HasExtensionIsFirstOccurrenceAtEnd | recognition/include/pcl/recognition/impl/linemod/line_rgbd.hpp:113-125 | the extension test accepts a name exactly when the first occurrence of the extension ends the name |
| TemplateLoader.Classify | recognition/include/pcl/recognition/impl/linemod/line_rgbd.hpp:108-125 | an entry is geometry when the first ".pcd" in its lower-cased name ends it, otherwise a signature when the same holds for ".sqmmt", otherwise unknown |
| TemplateLoader.RepeatedExtensionIsSkipped | recognition/include/pcl/recognition/impl/linemod/line_rgbd.hpp:113-114 | "chair.pcd.pcd" is not loaded, because the first ".pcd" is not at the end |
| TemplateLoader.UpperCaseExtensionIsGeometry | recognition/include/pcl/recognition/impl/linemod/line_rgbd.hpp:110-114 | "Chair.PCD" is loaded as a cloud, because the name is lower-cased first |
| TemplateLoader.SqmmtNameIsSignature | recognition/include/pcl/recognition/impl/linemod/line_rgbd.hpp:124-125 | "chair.sqmmt" is loaded as a template signature |
| TemplateLoader.ExtendsTransitive | recognition/include/pcl/recognition/impl/linemod/line_rgbd.hpp:103-156 | the "only appends" relation between loader states composes |
| TemplateLoader.Seek | recognition/include/pcl/recognition/impl/linemod/line_rgbd.hpp:154-155 | the seek ends the load exactly when the offset no longer fits a non-negative int |
| TemplateLoader.Step | recognition/include/pcl/recognition/impl/linemod/line_rgbd.hpp:103-156 | one loop iteration only appends to the collections, and when the loop goes on the offset has strictly grown and still fits an int |
| TemplateLoader.Scan | recognition/include/pcl/recognition/impl/linemod/line_rgbd.hpp:103-156 | the whole loop only appends to the loaded clouds, signatures and object ids |
| TemplateLoader.StepAppends | recognition/include/pcl/recognition/impl/linemod/line_rgbd.hpp:113-152 | a geometry entry appends one parsed cloud, a signature entry one deserialized template and its object id, and an unknown entry nothing |
| TemplateLoader.Start | recognition/include/pcl/recognition/impl/linemod/line_rgbd.hpp:93-102 | the loop starts at offset 0 with the header buffer as it was and the recognizer's current clouds, signatures and object ids, so a load appends to what is present |
| TemplateLoader.WithCloud | recognition/include/pcl/recognition/impl/linemod/line_rgbd.hpp:113-122 | a geometry entry sets the next offset and header and appends exactly one cloud; signatures and object ids are unchanged, so the state extends the old one |
| TemplateLoader.WithSignature | recognition/include/pcl/recognition/impl/linemod/line_rgbd.hpp:124-152 | a signature entry sets the next offset and header and appends one signature with the argument object id; the clouds are unchanged, so the state extends the old one |
| TemplateLoader.StepCursor | recognition/include/pcl/recognition/impl/linemod/line_rgbd.hpp:105-149 | the next offset is one header block plus the padded body for a known entry and one header block alone for an unknown entry |
| TemplateLoader.StepKeepsBlockAlignment | recognition/include/pcl/recognition/impl/linemod/line_rgbd.hpp:105-154 | every offset the loop seeks to is a multiple of 512 |
| TemplateLoader.RejectedHeaderEndsLoad | recognition/include/pcl/recognition/impl/linemod/line_rgbd.hpp:103 | when the header is rejected, the loop stops with nothing appended |
| TemplateLoader.EndOfFileReusesStaleHeader | recognition/include/pcl/recognition/impl/linemod/line_rgbd.hpp:65-103 | a read at end of file returns zero bytes, not -1, so the previous header is examined again |
| TemplateLoader.UnknownEntryBodyIsReadAsHeader | recognition/include/pcl/recognition/impl/linemod/line_rgbd.hpp:105-156 | after an unknown entry, the next header is read from the first block of its body |
| TemplateLoader.LoadTemplates | recognition/include/pcl/recognition/impl/linemod/line_rgbd.hpp:86-229 | loading fails, with nothing changed, exactly when the file cannot be opened; a successful load leaves one box per cloud and keeps all four thresholds (how the collections grow is stated by TemplateLoader.LoadAppends) |
| TemplateLoader.Installed | recognition/include/pcl/recognition/impl/linemod/line_rgbd.hpp:161-226 | after the loop every collected cloud is stored re-centred with its recomputed box, and the loaded signatures and object ids are installed |
| TemplateLoader.LoadAppends | recognition/include/pcl/recognition/impl/linemod/line_rgbd.hpp:86-229 | a successful load re-centres every cloud, old and new, keeps the old signatures as a prefix and adds the argument object id once per new signature |
| TemplateLoader.CloudsOf | recognition/include/pcl/recognition/impl/linemod/line_rgbd.hpp:213-225 | the stored clouds are the re-centred clouds, in order |
| TemplateLoader.BoxesOf | recognition/include/pcl/recognition/impl/linemod/line_rgbd.hpp:162-211 | the stored boxes are the computed boxes, in order |
| TemplateLoader.LoadKeepsCenteredTemplates | recognition/include/pcl/recognition/impl/linemod/line_rgbd.hpp:161-226 | templates already re-centred before the load keep their cloud and box |
| Projection.RowPoints | recognition/include/pcl/recognition/impl/linemod/line_rgbd.hpp:514-518 | the inner loop visits the scene points of one row of the window, left to right |
| Projection.SingleFiniteRows | recognition/include/pcl/recognition/impl/linemod/line_rgbd.hpp:514-528 | when one finite point lies in the window, the rows count one finite point and sum to its coordinates |
| Projection.SingleFiniteRow | recognition/include/pcl/recognition/impl/linemod/line_rgbd.hpp:514-528 | one row of the window counts the single finite point when it is that point's row and nothing otherwise |
| Projection.PointRow | recognition/include/pcl/recognition/impl/linemod/line_rgbd.hpp:514-528 | a window row whose only finite point is at column px counts one point and sums to that point's coordinates |
| Projection.EmptyRow | recognition/include/pcl/recognition/impl/linemod/line_rgbd.hpp:514-528 | a window row without a finite point counts nothing and sums to zero on every axis |
| Projection.Scaled | recognition/include/pcl/recognition/impl/linemod/line_rgbd.hpp:502-503 | the scaled region size is the product truncated to a whole number of pixels |
| Projection.End | recognition/include/pcl/recognition/impl/linemod/line_rgbd.hpp:495-498 | truncating start plus scaled size equals start plus the truncated scaled size |
| Projection.ProjectionWindow | recognition/include/pcl/recognition/impl/linemod/line_rgbd.hpp:493-498 | the window starts at the match clamped to zero, spans the scaled template, is cut at the scene border and fits in the scene |
| Projection.Project | recognition/include/pcl/recognition/impl/linemod/line_rgbd.hpp:477-539 | a detection gets the match's template, object, index and score; its region is the match corner with the scaled size; its box is the template box with the corner moved by the window mean |
| Projection.ConvertDetectionsTo3D | recognition/include/pcl/recognition/impl/linemod/line_rgbd.hpp:468-542 | one detection per match, in order, numbered by position |
| Projection.SinglePointMean | recognition/include/pcl/recognition/impl/linemod/line_rgbd.hpp:510-532 | with a single finite scene point in the window, the window has a finite point and the mean the source computes is exactly that point |
| Projection.SinglePointPlacesTemplateBox | recognition/include/pcl/recognition/impl/linemod/line_rgbd.hpp:510-539 | with a single finite scene point in the window, the detection's box is the template box moved by exactly that point |
| DepthRefinement.RefinementWindow | recognition/include/pcl/recognition/impl/linemod/line_rgbd.hpp:621-626 | the refinement window starts at the region clamped to zero and ends at the size_t value of corner plus size, cut at the scene border |
| DepthRefinement.Depths | recognition/include/pcl/recognition/impl/linemod/line_rgbd.hpp:631-643 | every point with a finite z gives a sample, whatever x and y are; every sample is such a depth; there are no more samples than points |
| DepthRefinement.DepthsCount | recognition/include/pcl/recognition/impl/linemod/line_rgbd.hpp:648-660 | each depth occurs among the samples exactly as often as there are points with that finite z, so the histogram counts every such point once |
| DepthRefinement.DepthsStep | recognition/include/pcl/recognition/impl/linemod/line_rgbd.hpp:648-660 | visiting one more point adds one sample at depth z exactly when that point has a finite z equal to z |
| DepthRefinement.FiniteAtStep | recognition/include/pcl/recognition/impl/linemod/line_rgbd.hpp:648-660 | visiting one more point adds one to the count of finite points at depth z exactly when that point has finite z equal to z |
| DepthRefinement.MinOf | recognition/include/pcl/recognition/impl/linemod/line_rgbd.hpp:629-643 | the minimum depth is a sample and at most every sample |
| DepthRefinement.MaxOf | recognition/include/pcl/recognition/impl/linemod/line_rgbd.hpp:629-643 | the maximum depth is a sample and at least every sample |
| DepthRefinement.StepSize | recognition/include/pcl/recognition/impl/linemod/line_rgbd.hpp:645-646 | 999 steps span the depth range exactly, and the step is positive |
| DepthRefinement.BinInRange | recognition/include/pcl/recognition/impl/linemod/line_rgbd.hpp:646-657 | every sample between the minimum and the maximum falls in one of the 1000 bins, and the maximum falls in the last one |
| DepthRefinement.Histogram | recognition/include/pcl/recognition/impl/linemod/line_rgbd.hpp:647-660 | each of the 1000 bins counts exactly the samples whose bin index is that bin |
| DepthRefinement.HistogramRange | recognition/include/pcl/recognition/impl/linemod/line_rgbd.hpp:647-660 | the sum of a run of histogram bins is the number of samples in those bins |
| DepthRefinement.Integral | recognition/include/pcl/recognition/impl/linemod/line_rgbd.hpp:662-668 | entry b of the integral is the sum of bins 0..b |
| DepthRefinement.FirstMax | recognition/include/pcl/recognition/impl/linemod/line_rgbd.hpp:672-683 | the first maximum is at least every entry and strictly above every earlier entry |
| DepthRefinement.FirstBestIndex | recognition/include/pcl/recognition/impl/linemod/line_rgbd.hpp:672-683 | the reference choice is the first strictly best positive window, or 0 when none is positive |
| DepthRefinement.DifferencesAreWindowCounts | recognition/include/pcl/recognition/impl/linemod/line_rgbd.hpp:676 | each integral difference counts the samples in bins j+1 .. j+range, so it is never negative |
| DepthRefinement.Differences | recognition/include/pcl/recognition/impl/linemod/line_rgbd.hpp:674-676 | the scanned integral differences: one per start bin j with j + range < 1000, none when the range reaches 1000 |
| DepthRefinement.WindowCounts | recognition/include/pcl/recognition/impl/linemod/line_rgbd.hpp:674-676 | the reference the differences are proved equal to: for each scanned start j, the number of samples in bins j+1 .. j+range, with the same length as the scan |
| DepthRefinement.DifferenceIsWindowCount | recognition/include/pcl/recognition/impl/linemod/line_rgbd.hpp:676 | one integral difference counts the samples in bins j+1 .. j+range |
| DepthRefinement.BestWindow | recognition/include/pcl/recognition/impl/linemod/line_rgbd.hpp:672-683 | the scan with a strict > returns the first window holding the most points, or 0 when every window is empty |
| DepthRefinement.DepthRange | recognition/include/pcl/recognition/impl/linemod/line_rgbd.hpp:670 | the depth range in bins is the floor of depth over step: range times step is at most the box depth, and one more step exceeds it |
| DepthRefinement.BinStart | recognition/include/pcl/recognition/impl/linemod/line_rgbd.hpp:685 | the depth of a bin start lies between the minimum and maximum sample |
| DepthRefinement.WindowStart | recognition/include/pcl/recognition/impl/linemod/line_rgbd.hpp:645-685 | the chosen depth lies within the depth range of the samples |
| DepthRefinement.RefinedDepth | recognition/include/pcl/recognition/impl/linemod/line_rgbd.hpp:621-687 | the refined depth lies within the depth range of the samples under the detection |
| DepthRefinement.Refined | recognition/include/pcl/recognition/impl/linemod/line_rgbd.hpp:685-687 | refinement changes only the box corner's z coordinate |
| DepthRefinement.FindWindowStart | recognition/include/pcl/recognition/impl/linemod/line_rgbd.hpp:645-685 | histogram, integral and window scan together yield the reference window start |
| DepthRefinement.RefineDetection | recognition/include/pcl/recognition/impl/linemod/line_rgbd.hpp:618-687 | one iteration of the detection loop computes the reference refined detection |
| DepthRefinement.RefineDetectionsAlongDepth | recognition/include/pcl/recognition/impl/linemod/line_rgbd.hpp:610-689 | every detection is refined independently, in place and in order |
| Clustering.LessIsStrictTotalOrder | recognition/include/pcl/recognition/impl/linemod/line_rgbd.hpp:857-858 | std::tuple's lexicographic comparison on the key is a strict total order |
| Clustering.LessFromIsStrictTotalOrder | recognition/include/pcl/recognition/impl/linemod/line_rgbd.hpp:857-858 | the comparison from any field on is irreflexive, transitive and total up to agreement on the remaining fields |
| Clustering.QuantizeIsCell | recognition/include/pcl/recognition/impl/linemod/line_rgbd.hpp:863-866 | the unsigned division by the threshold picks the cell of width t holding the value |
| Clustering.KeyOf | recognition/include/pcl/recognition/impl/linemod/line_rgbd.hpp:861-869 | the key holds the object id; each of the corner and size, converted to size_t, lies in the key's cell of width t; the template id takes part only when templates are kept apart |
| Clustering.LookupAt | recognition/include/pcl/recognition/impl/linemod/line_rgbd.hpp:857-872 | in an ascending bucket sequence, looking up a stored key finds that bucket's members |
| Clustering.InsertOrdered | recognition/include/pcl/recognition/impl/linemod/line_rgbd.hpp:871 | `clusters[key].push_back` keeps the keys ascending |
| Clustering.InsertKeys | recognition/include/pcl/recognition/impl/linemod/line_rgbd.hpp:871 | `clusters[key].push_back` adds exactly the new key to the map's keys |
| Clustering.InsertKeepsMembers | recognition/include/pcl/recognition/impl/linemod/line_rgbd.hpp:871 | an insert keeps every bucket non-empty and stores only in-range indices |
| Clustering.Insert | recognition/include/pcl/recognition/impl/linemod/line_rgbd.hpp:871 | `clusters[key].push_back(id)` on the sorted bucket sequence: the map keeps every entry and gains at most one |
| Clustering.InsertSize | recognition/include/pcl/recognition/impl/linemod/line_rgbd.hpp:871 | an insert adds a bucket exactly when the key is new |
| Clustering.LookupAfterInsert | recognition/include/pcl/recognition/impl/linemod/line_rgbd.hpp:871 | after an insert, the key's members gain the id at the end and every other key is unchanged |
| Clustering.ClusterKeys | recognition/include/pcl/recognition/impl/linemod/line_rgbd.hpp:857-869 | one key per detection, in input order, each the key of that detection |
| Clustering.MembersSpec | recognition/include/pcl/recognition/impl/linemod/line_rgbd.hpp:857-872 | the reference cluster of a key is every detection index with that key, once each, in increasing order |
| Clustering.Members | recognition/include/pcl/recognition/impl/linemod/line_rgbd.hpp:859-872 | the reference cluster of a key, built over the first n indices in input order; its own contract keeps every member below n, and Clustering.MembersSpec states that it holds exactly the indices with that key, increasing |
| Clustering.MembersHaveKey | recognition/include/pcl/recognition/impl/linemod/line_rgbd.hpp:857-872 | every index in a reference cluster has the cluster's key |
| Clustering.MembersIncreasing | recognition/include/pcl/recognition/impl/linemod/line_rgbd.hpp:857-872 | a reference cluster lists its indices in strictly increasing order |
| Clustering.MembersComplete | recognition/include/pcl/recognition/impl/linemod/line_rgbd.hpp:857-872 | every index with the key is in the reference cluster |
| Clustering.BucketsOrdered | recognition/include/pcl/recognition/impl/linemod/line_rgbd.hpp:857-872 | the map built by the key loop is ascending, has one bucket per key that occurs and no more buckets than detections |
| Clustering.Buckets | recognition/include/pcl/recognition/impl/linemod/line_rgbd.hpp:857-872 | the std::map built by inserting every detection's key in input order; it never has more entries than detections inserted |
| Clustering.BucketsAscending | recognition/include/pcl/recognition/impl/linemod/line_rgbd.hpp:857-872 | the map built by the key loop iterates in strictly ascending key order |
| Clustering.BucketsKeys | recognition/include/pcl/recognition/impl/linemod/line_rgbd.hpp:857-872 | the built map's keys are exactly the keys of the detections inserted |
| Clustering.BucketsWellFormed | recognition/include/pcl/recognition/impl/linemod/line_rgbd.hpp:857-872 | every bucket of the built map is non-empty and holds only indices of inserted detections |
| Clustering.BucketsHoldMembers | recognition/include/pcl/recognition/impl/linemod/line_rgbd.hpp:857-872 | for every key, the built map holds exactly the reference cluster |
| Clustering.BestMember | recognition/include/pcl/recognition/impl/linemod/line_rgbd.hpp:884-901 | a non-empty cluster's best id is a valid detection index |
| Clustering.BestMemberIsFirstHighest | recognition/include/pcl/recognition/impl/linemod/line_rgbd.hpp:884-901 | the best member is the first member with the highest positive response, and the best response is that response |
| Clustering.WeightSumPositive | recognition/include/pcl/recognition/impl/linemod/line_rgbd.hpp:895-911 | the weight sum of a non-empty cluster of positive responses is positive |
| Clustering.AverageCenter | recognition/include/pcl/recognition/impl/linemod/line_rgbd.hpp:903-923 | the averaged centre times the weight sum is the response-weighted sum of the centres |
| Clustering.AverageCorner | recognition/include/pcl/recognition/impl/linemod/line_rgbd.hpp:913-923 | the averaged region corner times the weight sum is the response-weighted sum of the corners |
| Clustering.Merge | recognition/include/pcl/recognition/impl/linemod/line_rgbd.hpp:876-940 | the merged detection takes ids, response and extents from the best member; its box centre is the weighted average centre and its region corner the truncated weighted average corner |
| Clustering.UniformAverages | recognition/include/pcl/recognition/impl/linemod/line_rgbd.hpp:903-923 | when all members share box and corner, the weighted averages are that centre and corner |
| Clustering.UniformClusterReproducesMember | recognition/include/pcl/recognition/impl/linemod/line_rgbd.hpp:876-940 | merging a cluster whose members share box and region reproduces the best member, renumbered |
| Clustering.SingleMemberCluster | recognition/include/pcl/recognition/impl/linemod/line_rgbd.hpp:876-940 | a one-member cluster merges to that detection, renumbered |
| Clustering.RemoveOverlapping | recognition/include/pcl/recognition/impl/linemod/line_rgbd.hpp:780-944 | a zero threshold leaves the detections unchanged; otherwise there is one merged detection per bucket, in key order, numbered by position, never more than the input |
| Clustering.BucketsMergeable | recognition/include/pcl/recognition/impl/linemod/line_rgbd.hpp:876-901 | every bucket of the map is a non-empty list of valid indices of positive response, so it can be merged |
| Clustering.MergeAll | recognition/include/pcl/recognition/impl/linemod/line_rgbd.hpp:874-941 | the merge loop: one merged detection per map entry, in map order, numbered by its position |
| Clustering.MergedObjectIsKeyObject | recognition/include/pcl/recognition/impl/linemod/line_rgbd.hpp:862-919 | a cluster merges to a detection of the object its key names |
| Clustering.OneOutputPerKey | recognition/include/pcl/recognition/impl/linemod/line_rgbd.hpp:857-943 | the outputs correspond one-to-one with the distinct keys, in strictly ascending key order; each merges exactly the reference cluster and carries its key's object |
| DetectionSort.InsertByResponse | recognition/include/pcl/recognition/impl/linemod/line_rgbd.hpp:947-953 | inserting into a sorted sequence keeps it sorted by decreasing response and adds exactly one element |
| DetectionSort.Sort | recognition/include/pcl/recognition/impl/linemod/line_rgbd.hpp:947-953 | the result is ordered by non-increasing response and is a permutation of the input |
| DetectionSort.InsertSmallestGoesLast | recognition/include/pcl/recognition/impl/linemod/line_rgbd.hpp:947-953 | an element no stronger than any sorted element is placed last |
| DetectionSort.SortKeepsSorted | recognition/include/pcl/recognition/impl/linemod/line_rgbd.hpp:947-953 | an input already in non-increasing order is returned unchanged |
| DetectionSort.SortIdempotent | recognition/include/pcl/recognition/impl/linemod/line_rgbd.hpp:947-953 | sorting twice is sorting once |
| Pipeline.Refine3D | recognition/include/pcl/recognition/impl/linemod/line_rgbd.hpp:556-559 | each match becomes its projected and then depth-refined detection, with the match's score and its position as id |
| Pipeline.Detect | recognition/include/pcl/recognition/impl/linemod/line_rgbd.hpp:545-566 | detect returns the clustered refined detections in non-increasing response order, never more than there were matches, and all of them when the 3D threshold is 0 |
| Pipeline.Detectable | recognition/include/pcl/recognition/impl/linemod/line_rgbd.hpp:545-566 | what detect assumes of its input: every match's window holds a finite point, every projected detection can be depth-refined, and scores are positive when 3D clustering is on |
| Pipeline.FreshRecognizerKeepsEveryDetection | recognition/include/pcl/recognition/linemod/line_rgbd.h:98-102 | with the default 3D threshold of 0, detect keeps every refined detection, and returns them unchanged when they are already ordered by response |

## Left out

- POSIX file I/O is left out. The file is a sequence of 512-byte blocks, each a header, an I/O error or opaque data; a failed `open` is `None`.
- The PCD reader and the `.sqmmt` deserializer are function parameters. They are foreign code outside this core.
- `getFileSize` decodes the octal size field of a tar header, in `pcl/io/tar.h`, which is not part of this model. The model uses the decoded size directly as the field `TarHeader.size`. That field is an unbounded `nat`. The source keeps the size in an `unsigned int` (`line_rgbd.hpp:129`), which cannot hold 2^32 or more. The model does not enforce that bound.
- The LINEMOD engine is left out: `detectTemplates`, its 2D overlap removal and sort, `createTemplate` and `getTemplate`. The 2D matches are an input. A template's region is a function `regionOf` of its signature.
- The modalities, `createAndAddTemplate` and `detectSemiScaleInvariant` are left out. They only call into the engine.
- `applyProjectiveDepthICPOnDetections` (RANSAC and ICP) is left out. It is commented out of `detect` and relies on Eigen and random sampling.
- The OpenMP `parallel for` in the depth refinement is modelled sequentially. Its iterations are independent.
- IEEE 754 floats are `real`, with no rounding, overflow or NaN. Non-finite coordinates are explicit flags.
- DepthRefinement.BinInRange relies on exact arithmetic. With float rounding, the bin index of the maximum depth could reach 1000 and write past the histogram.
- Recognizer.Recenter gives a cloud without a finite point the default box and leaves it unshifted. In that case the source divides a zero sum by a zero count, so the centre is NaN (`line_rgbd.hpp:426-428`). The extents are `-FLT_MAX - FLT_MAX`, which overflows to `-inf` (`line_rgbd.hpp:430-432`). The corners computed from them are NaN (`line_rgbd.hpp:434-436`). The points are all non-finite and stay as they were.
- Geometry.ComputeAabb returns `None` without a finite point. In that case the source's centre is 0/0, which is NaN (`line_rgbd.hpp:326-328`). Its extents are `-inf` (`line_rgbd.hpp:330-332`) and its corners are NaN (`line_rgbd.hpp:334-336`).
- Projection.Project requires its window to hold a finite point. Without one, the source computes `1.0f / 0`, which is `+inf`. It then multiplies the zero sums by that, so the box is moved by NaN (`line_rgbd.hpp:529-532`).
- DepthRefinement.Refined requires the window's finite depths to span a non-empty range and the box depth to be non-negative. The source behaves as follows when these fail:
  - With no finite depth, the step is `(-FLT_MAX - FLT_MAX) / 999`, which is `-inf` (`line_rgbd.hpp:646`). The refined z is then `0 * -inf + FLT_MAX`, which is NaN (`line_rgbd.hpp:685`).
  - When every finite depth is the same, the step is 0. Each bin index is then 0/0, which is NaN, and the depth range is a division by zero. Both are cast to `size_t` (`line_rgbd.hpp:656`, `line_rgbd.hpp:670`), which is undefined behaviour.
  - With a negative box depth, `depth / step_size` is negative. Casting it to `size_t` at `line_rgbd.hpp:670` is undefined behaviour once the quotient is -1 or below.
- Clustering.RemoveOverlapping requires every response to be positive when clustering is on. This is stronger than the source needs.
  - A cluster whose responses are all zero has a zero weight sum, and the source computes `1.0f / weight_sum` with a zero sum there (`line_rgbd.hpp:923`).
  - A cluster that mixes zero and positive responses has a positive weight sum. The source merges it without trouble, but the model does not cover it.
- Spreading.ColIndexMax and Spreading.RowIndexMax are unbounded integers. The source computes `width - spreading_size - 1` and `height - spreading_size - 1` as `size_t` and stores them in a `const int` (`quantizable_modality.cpp:103-105`). For a map with at least 2^31 + s + 1 columns or rows, that value does not fit and wraps. The model does not reproduce the wrap.
- The loader's `TarHeader.name` is the entry name up to its first NUL. The source builds `chunk_name` from the C string at the 100-byte name field (`line_rgbd.hpp:108`). A name of exactly 100 characters has no NUL, so the source's string runs on into the following header fields. A `.pcd` name of that length then no longer ends in `.pcd` and is classified as neither kind there. The model takes the 100 characters alone.
- Projection.ProjectionWindow does not model the `size_t` cast of a negative truncated end. Scale and region size are required non-negative, which makes it unreachable.
- TemplateLoader.Step adds the header block and the padded size to the cursor without wrap-around.
  - In the source the cursor is an `int` (`line_rgbd.hpp:94`) and the size is 32-bit unsigned. So the sum at `line_rgbd.hpp:122` and `line_rgbd.hpp:149` is taken modulo 2^32 and read back as a signed value.
  - The `lseek` at `line_rgbd.hpp:154` fails only when that signed value is negative.
  - The model ends the load as soon as the unreduced cursor exceeds 2^31 - 1. The model and the source agree while the unreduced cursor stays below 2^32.
  - Beyond 2^32 the source's cursor can wrap to a non-negative offset, and the loop goes on from there. For example, take a first entry `a.pcd` of size 2^32 - 1024. It brings the cursor back to exactly 0. The source then reads the same header again and appends one cloud per pass, without end. The model appends one cloud and stops.
  - The model's `Scan` terminates because the cursor never shrinks. A loop that never ends is outside what it models.
- The loader models only whole 512-byte blocks. A truncated final block is not modelled.
- The `.sqmmt` body is read by `::read` from the current file position. The model reads it from the block after the header, which is where the file position stands whenever that entry's header was read from a fresh block.
- DepthRefinement.Differences is computed in `int`. DepthRefinement.DifferencesAreWindowCounts shows that it is never negative, so the `size_t` wrap of the source cannot happen.
- The `int` overflow of `region.x + region.width` is not modelled. The sum is unbounded before `ToSize` reduces it.
- The commented-out clustering code at `line_rgbd.hpp:797-855` is not part of the program.
- DetectionSort.Sort picks the stable order among equal responses. `std::sort` may order ties differently; the contract fixes only the order by response and the multiset.
- Buffers, `std::vector` capacity and the `linemod_` template storage are not modelled beyond the signature sequence.

=== FILE: clustering.dfy ===
/**
  `removeOverlappingDetections`: detections are grouped by a key made of
  the object id, the region quantized by the translation threshold and,
  optionally, the template id; the groups are visited in ascending key
  order (a `std::map`) and each becomes one detection: the fields of its
  first highest-response member, with box centre and region corner
  averaged over the members weighted by response.
*/
module Clustering {
  import opened Records
  import opened Geometry

  /** The clustering key, compared lexicographically as a `std::tuple`. */
  datatype Key = Key(objectId: nat, x: nat, y: nat, width: nat, height: nat, templateId: nat) {
    /** The i-th field of the tuple. */
    function Field(i: nat): nat
      requires i < 6
    {
      match i
      case 0 => objectId
      case 1 => x
      case 2 => y
      case 3 => width
      case 4 => height
      case _ => templateId
    }
  }

  /** Lexicographic order on the fields from i on: the first differing
      field decides. */
  predicate LessFrom(a: Key, b: Key, i: nat)
    requires i <= 6
    decreases 6 - i
  {
    i < 6 && (a.Field(i) < b.Field(i) || (a.Field(i) == b.Field(i) && LessFrom(a, b, i + 1)))
  }

  predicate Less(a: Key, b: Key) {
    LessFrom(a, b, 0)
  }

  /** Keys that agree on the fields from i on agree on every field there. */
  predicate SameFrom(a: Key, b: Key, i: nat)
    requires i <= 6
  {
    forall j | i <= j < 6 :: a.Field(j) == b.Field(j)
  }

  /** Lexicographic order from field i is a strict total order. */
  lemma {:induction false} LessFromIsStrictTotalOrder(a: Key, b: Key, c: Key, i: nat)
    requires i <= 6
    ensures !LessFrom(a, a, i)
    ensures LessFrom(a, b, i) && LessFrom(b, c, i) ==> LessFrom(a, c, i)
    ensures SameFrom(a, b, i) || LessFrom(a, b, i) || LessFrom(b, a, i)
    decreases 6 - i
  {
    if i < 6 {
      LessFromIsStrictTotalOrder(a, b, c, i + 1);
      if a.Field(i) == b.Field(i) && SameFrom(a, b, i + 1) {
        assert SameFrom(a, b, i);
      }
    }
  }

  /** The key order is a strict total order. */
  lemma LessIsStrictTotalOrder(a: Key, b: Key, c: Key)
    ensures !Less(a, a)
    ensures Less(a, b) && Less(b, c) ==> Less(a, c)
    ensures a == b || Less(a, b) || Less(b, a)
  {
    LessFromIsStrictTotalOrder(a, b, c, 0);
    if SameFrom(a, b, 0) {
      assert a.Field(0) == b.Field(0) && a.Field(1) == b.Field(1) && a.Field(2) == b.Field(2);
      assert a.Field(3) == b.Field(3) && a.Field(4) == b.Field(4) && a.Field(5) == b.Field(5);
    }
  }

  /** Integer division by the threshold. */
  function Quantize(v: nat, t: nat): nat
    requires t > 0
  {
    v / t
  }

  /** The quantized value names the cell of width t holding v. */
  lemma QuantizeIsCell(v: nat, t: nat)
    requires t > 0
    ensures Quantize(v, t) * t <= v < Quantize(v, t) * t + t
  {
    assert v == (v / t) * t + v % t;
  }

  /** The key of a detection: its region fields are converted to `size_t`
      before the division by the threshold t; the template id takes part
      only when templates are kept apart. */
  function KeyOf(d: Detection, t: nat, separate: bool): (k: Key)
    requires t > 0
    ensures k.objectId == d.objectId
    ensures k.x * t <= ToSize(d.region.x) < k.x * t + t
    ensures k.y * t <= ToSize(d.region.y) < k.y * t + t
    ensures k.width * t <= ToSize(d.region.width) < k.width * t + t
    ensures k.height * t <= ToSize(d.region.height) < k.height * t + t
    ensures k.templateId == (if separate then d.templateId else 0)
  {
    QuantizeIsCell(ToSize(d.region.x), t);
    QuantizeIsCell(ToSize(d.region.y), t);
    QuantizeIsCell(ToSize(d.region.width), t);
    QuantizeIsCell(ToSize(d.region.height), t);
    Key(d.objectId, Quantize(ToSize(d.region.x), t), Quantize(ToSize(d.region.y), t),
        Quantize(ToSize(d.region.width), t), Quantize(ToSize(d.region.height), t),
        if separate then d.templateId else 0)
  }

  /** One entry of the map: a key and the indices of its detections. */
  datatype Bucket = Bucket(key: Key, members: seq<nat>)

  /** The map's entries in iteration order: strictly ascending keys. */
  predicate Ascending(bs: seq<Bucket>) {
    forall i, j | 0 <= i < j < |bs| :: Less(bs[i].key, bs[j].key)
  }

  predicate NonEmpty(bs: seq<Bucket>) {
    forall i | 0 <= i < |bs| :: |bs[i].members| > 0
  }

  /** Every index stored in the map is below n. */
  predicate MembersBelow(bs: seq<Bucket>, n: nat) {
    forall i, j | 0 <= i < |bs| && 0 <= j < |bs[i].members| :: bs[i].members[j] < n
  }

  function Keys(bs: seq<Bucket>): set<Key> {
    set i | 0 <= i < |bs| :: bs[i].key
  }

  /** `clusters[key]` read without inserting: the members of key k, or
      nothing. */
  function Lookup(bs: seq<Bucket>, k: Key): seq<nat>
    decreases |bs|
  {
    if |bs| == 0 then []
    else if bs[0].key == k then bs[0].members
    else Lookup(bs[1..], k)
  }

  /** In an ascending map the entry at position i is the one its key finds. */
  lemma {:induction false} LookupAt(bs: seq<Bucket>, i: nat)
    requires Ascending(bs) && i < |bs|
    ensures Lookup(bs, bs[i].key) == bs[i].members
    decreases i
  {
    if i > 0 {
      LessIsStrictTotalOrder(bs[0].key, bs[i].key, bs[i].key);
      LookupAt(bs[1..], i - 1);
    }
  }

  /** A key that no entry holds finds nothing. */
  lemma {:induction false} LookupAbsent(bs: seq<Bucket>, k: Key)
    requires k !in Keys(bs)
    ensures Lookup(bs, k) == []
    decreases |bs|
  {
    if |bs| > 0 {
      assert bs[0].key in Keys(bs);
      assert Keys(bs[1..]) <= Keys(bs) by {
        forall j | 0 <= j < |bs| - 1
          ensures bs[1..][j].key in Keys(bs)
        {
          assert bs[1..][j] == bs[j + 1];
        }
      }
      LookupAbsent(bs[1..], k);
    }
  }

  lemma KeysCons(b: Bucket, bs: seq<Bucket>)
    ensures Keys([b] + bs) == {b.key} + Keys(bs)
  {
    var r := [b] + bs;
    assert r[0] == b;
    forall key | key in Keys(r)
      ensures key in {b.key} + Keys(bs)
    {
      var j :| 0 <= j < |r| && r[j].key == key;
      if j > 0 {
        assert r[j] == bs[j - 1];
        assert bs[j - 1].key == key;
      }
    }
    forall key | key in Keys(bs)
      ensures key in Keys(r)
    {
      var j :| 0 <= j < |bs| && bs[j].key == key;
      assert r[j + 1] == bs[j];
      assert r[j + 1].key == key;
    }
  }

  /** `clusters[key].push_back(id)`: the entry of k gets id appended, and is
      created in its ordered place when missing. */
  function Insert(bs: seq<Bucket>, k: Key, id: nat): (r: seq<Bucket>)
    ensures |bs| <= |r| <= |bs| + 1
    decreases |bs|
  {
    if |bs| == 0 then [Bucket(k, [id])]
    else if bs[0].key == k then [bs[0].(members := bs[0].members + [id])] + bs[1..]
    else if Less(k, bs[0].key) then [Bucket(k, [id])] + bs
    else [bs[0]] + Insert(bs[1..], k, id)
  }

  /** Every entry's key is above x. */
  predicate Above(x: Key, bs: seq<Bucket>) {
    forall j | 0 <= j < |bs| :: Less(x, bs[j].key)
  }

  /** An entry whose key is below all keys of an ascending map may go first. */
  lemma PrependAscending(b: Bucket, bs: seq<Bucket>)
    requires Ascending(bs) && Above(b.key, bs)
    ensures Ascending([b] + bs)
  {
    var r := [b] + bs;
    forall i, j | 0 <= i < j < |r|
      ensures Less(r[i].key, r[j].key)
    {
      if i > 0 {
        assert r[i] == bs[i - 1] && r[j] == bs[j - 1];
      } else {
        assert r[j] == bs[j - 1];
      }
    }
  }

  /** The first key of an ascending map is below all its other keys. */
  lemma HeadBelowTail(bs: seq<Bucket>)
    requires Ascending(bs) && |bs| > 0
    ensures Above(bs[0].key, bs[1..])
  {
    forall j | 0 <= j < |bs| - 1
      ensures Less(bs[0].key, bs[1..][j].key)
    {
      assert bs[1..][j] == bs[j + 1];
    }
  }

  /** A key below the first key of an ascending map is below all its keys,
      and so is not one of them. */
  lemma BelowHead(k: Key, bs: seq<Bucket>)
    requires Ascending(bs) && |bs| > 0 && Less(k, bs[0].key)
    ensures Above(k, bs) && k !in Keys(bs)
  {
    forall j | 0 <= j < |bs|
      ensures Less(k, bs[j].key)
    {
      LessIsStrictTotalOrder(k, bs[0].key, bs[j].key);
    }
    forall j | 0 <= j < |bs|
      ensures bs[j].key != k
    {
      LessIsStrictTotalOrder(bs[j].key, bs[j].key, bs[j].key);
    }
  }

  /** A key below every key of a set is below every key of a map holding
      exactly that set. */
  lemma AboveByKeys(x: Key, bs: seq<Bucket>, keys: set<Key>)
    requires Keys(bs) == keys && forall key | key in keys :: Less(x, key)
    ensures Above(x, bs)
  {
    forall j | 0 <= j < |bs|
      ensures Less(x, bs[j].key)
    {
      assert bs[j].key in Keys(bs);
    }
  }

  /** Insertion adds exactly the key k to the keys of the map. */
  lemma {:induction false} InsertKeys(bs: seq<Bucket>, k: Key, id: nat)
    ensures Keys(Insert(bs, k, id)) == Keys(bs) + {k}
    decreases |bs|
  {
    var r := Insert(bs, k, id);
    if |bs| == 0 {
      KeysCons(Bucket(k, [id]), bs);
    } else if bs[0].key == k {
      var b := bs[0].(members := bs[0].members + [id]);
      assert r == [b] + bs[1..];
      assert bs == [bs[0]] + bs[1..];
      KeysCons(b, bs[1..]);
      KeysCons(bs[0], bs[1..]);
    } else if Less(k, bs[0].key) {
      KeysCons(Bucket(k, [id]), bs);
    } else {
      InsertKeys(bs[1..], k, id);
      assert bs == [bs[0]] + bs[1..];
      KeysCons(bs[0], bs[1..]);
      KeysCons(bs[0], Insert(bs[1..], k, id));
    }
  }

  /** Appending to the members of an entry keeps the keys in place. */
  lemma AppendKeepsAscending(bs: seq<Bucket>, id: nat)
    requires Ascending(bs) && |bs| > 0
    ensures Ascending([bs[0].(members := bs[0].members + [id])] + bs[1..])
  {
    var r := [bs[0].(members := bs[0].members + [id])] + bs[1..];
    assert forall j | 0 <= j < |bs| :: r[j].key == bs[j].key;
  }

  /** The tail of an ascending map is ascending. */
  lemma TailAscending(bs: seq<Bucket>)
    requires Ascending(bs) && |bs| > 0
    ensures Ascending(bs[1..])
  {
    var rest := bs[1..];
    forall i, j | 0 <= i < j < |rest|
      ensures Less(rest[i].key, rest[j].key)
    {
      assert rest[i] == bs[i + 1] && rest[j] == bs[j + 1];
    }
  }

  /** Insertion keeps the map ascending. */
  lemma {:induction false} InsertOrdered(bs: seq<Bucket>, k: Key, id: nat)
    requires Ascending(bs)
    ensures Ascending(Insert(bs, k, id))
    decreases |bs|
  {
    if |bs| == 0 {
    } else if bs[0].key == k {
      AppendKeepsAscending(bs, id);
    } else if Less(k, bs[0].key) {
      BelowHead(k, bs);
      PrependAscending(Bucket(k, [id]), bs);
    } else {
      var rest := bs[1..];
      var tail := Insert(rest, k, id);
      TailAscending(bs);
      InsertOrdered(rest, k, id);
      InsertKeys(rest, k, id);
      HeadAboveInserted(bs, k);
      AboveByKeys(bs[0].key, tail, Keys(rest) + {k});
      PrependAscending(bs[0], tail);
    }
  }

  /** The first key of an ascending map is below the rest of its keys and
      below any key k not at or below it. */
  lemma HeadAboveInserted(bs: seq<Bucket>, k: Key)
    requires Ascending(bs) && |bs| > 0 && bs[0].key != k && !Less(k, bs[0].key)
    ensures forall key | key in Keys(bs[1..]) + {k} :: Less(bs[0].key, key)
  {
    LessIsStrictTotalOrder(bs[0].key, k, k);
    HeadBelowTail(bs);
    forall key | key in Keys(bs[1..]) + {k}
      ensures Less(bs[0].key, key)
    {
      if key != k {
        var m :| 0 <= m < |bs[1..]| && bs[1..][m].key == key;
      }
    }
  }

  /** Insertion creates an entry exactly when the key is new. */
  lemma {:induction false} InsertSize(bs: seq<Bucket>, k: Key, id: nat)
    requires Ascending(bs)
    ensures |Insert(bs, k, id)| == |bs| + (if k in Keys(bs) then 0 else 1)
    decreases |bs|
  {
    if |bs| == 0 {
    } else if bs[0].key == k {
      assert k in Keys(bs) by { assert bs[0].key == k; }
    } else if Less(k, bs[0].key) {
      BelowHead(k, bs);
    } else {
      var rest := bs[1..];
      TailAscending(bs);
      InsertSize(rest, k, id);
      assert bs == [bs[0]] + rest;
      KeysCons(bs[0], rest);
    }
  }

  /** Insertion leaves no entry empty and stores only indices below n when
      id is below n. */
  lemma {:induction false} InsertKeepsMembers(bs: seq<Bucket>, k: Key, id: nat, n: nat)
    ensures NonEmpty(bs) ==> NonEmpty(Insert(bs, k, id))
    ensures MembersBelow(bs, n) && id < n ==> MembersBelow(Insert(bs, k, id), n)
    decreases |bs|
  {
    var r := Insert(bs, k, id);
    if |bs| > 0 && bs[0].key != k && !Less(k, bs[0].key) {
      InsertKeepsMembers(bs[1..], k, id, n);
      assert r == [bs[0]] + Insert(bs[1..], k, id);
    }
  }

  /** Inserting into the entry of k appends to it and leaves every other
      key's entry as it was. */
  lemma {:induction false} LookupAfterInsert(bs: seq<Bucket>, k: Key, id: nat, k': Key)
    requires Ascending(bs)
    ensures Lookup(Insert(bs, k, id), k') == if k' == k then Lookup(bs, k) + [id] else Lookup(bs, k')
    decreases |bs|
  {
    var r := Insert(bs, k, id);
    if |bs| == 0 {
      assert r[1..] == [];
    } else if bs[0].key == k {
      assert r[1..] == bs[1..];
    } else if Less(k, bs[0].key) {
      assert r[1..] == bs;
      if k' == k {
        BelowHead(k, bs);
        LookupAbsent(bs, k);
      }
    } else {
      assert r[1..] == Insert(bs[1..], k, id);
      LookupAfterInsert(bs[1..], k, id, k');
    }
  }

  /** The key of every detection, in input order. */
  function ClusterKeys(ds: seq<Detection>, t: nat, separate: bool): (ks: seq<Key>)
    requires t > 0
    ensures |ks| == |ds|
    ensures forall i | 0 <= i < |ds| :: ks[i] == KeyOf(ds[i], t, separate)
  {
    seq(|ds|, i requires 0 <= i < |ds| => KeyOf(ds[i], t, separate))
  }

  /** The indices below n whose key is k, in increasing order. */
  function Members(ks: seq<Key>, k: Key, n: nat): (m: seq<nat>)
    requires n <= |ks|
    ensures forall i | 0 <= i < |m| :: m[i] < n
  {
    if n == 0 then []
    else
      var prev := Members(ks, k, n - 1);
      if ks[n - 1] == k then
        var m := prev + [n - 1];
        assert forall i | 0 <= i < |prev| :: m[i] == prev[i];
        assert m[|prev|] == n - 1;
        m
      else prev
  }

  /** One step of the scan: index n-1 joins exactly when its key is k. */
  lemma MembersStep(ks: seq<Key>, k: Key, n: nat)
    requires 0 < n <= |ks|
    ensures Members(ks, k, n) == if ks[n - 1] == k then Members(ks, k, n - 1) + [n - 1] else Members(ks, k, n - 1)
  {
  }

  /** Every member has key k. */
  lemma {:induction false} MembersHaveKey(ks: seq<Key>, k: Key, n: nat)
    requires n <= |ks|
    ensures forall i | 0 <= i < |Members(ks, k, n)| :: ks[Members(ks, k, n)[i]] == k
  {
    if n > 0 {
      MembersHaveKey(ks, k, n - 1);
      MembersStep(ks, k, n);
      var prev := Members(ks, k, n - 1);
      var m := Members(ks, k, n);
      forall i | 0 <= i < |m|
        ensures ks[m[i]] == k
      {
        if i < |prev| { assert m[i] == prev[i]; }
      }
    }
  }

  /** The members are strictly increasing. */
  lemma {:induction false} MembersIncreasing(ks: seq<Key>, k: Key, n: nat)
    requires n <= |ks|
    ensures forall i, j | 0 <= i < j < |Members(ks, k, n)| :: Members(ks, k, n)[i] < Members(ks, k, n)[j]
  {
    if n > 0 {
      MembersIncreasing(ks, k, n - 1);
      MembersStep(ks, k, n);
      var prev := Members(ks, k, n - 1);
      var m := Members(ks, k, n);
      forall i, j | 0 <= i < j < |m|
        ensures m[i] < m[j]
      {
        assert m[i] == prev[i];
        if j < |prev| { assert m[j] == prev[j]; }
      }
    }
  }

  /** Every index below n with key k is a member. */
  lemma {:induction false} MembersComplete(ks: seq<Key>, k: Key, n: nat)
    requires n <= |ks|
    ensures forall i | 0 <= i < n && ks[i] == k :: i in Members(ks, k, n)
  {
    if n > 0 {
      MembersComplete(ks, k, n - 1);
      MembersStep(ks, k, n);
      var prev := Members(ks, k, n - 1);
      var m := Members(ks, k, n);
      forall i | 0 <= i < n && ks[i] == k
        ensures i in m
      {
        if i < n - 1 {
          assert i in prev;
        }
      }
    }
  }

  /** The members of k are exactly the indices below n whose key is k, each
      once and in increasing order. */
  lemma MembersSpec(ks: seq<Key>, k: Key, n: nat)
    requires n <= |ks|
    ensures var m := Members(ks, k, n);
            && (forall i | 0 <= i < |m| :: ks[m[i]] == k)
            && (forall i, j | 0 <= i < j < |m| :: m[i] < m[j])
            && (forall i | 0 <= i < n && ks[i] == k :: i in m)
  {
    MembersHaveKey(ks, k, n);
    MembersIncreasing(ks, k, n);
    MembersComplete(ks, k, n);
  }

  /** The keys among the first n. */
  function KeysOf(ks: seq<Key>, n: nat): set<Key>
    requires n <= |ks|
  {
    set i | 0 <= i < n :: ks[i]
  }

  lemma KeysOfStep(ks: seq<Key>, n: nat)
    requires 0 < n <= |ks|
    ensures KeysOf(ks, n) == KeysOf(ks, n - 1) + {ks[n - 1]}
  {
    forall key | key in KeysOf(ks, n)
      ensures key in KeysOf(ks, n - 1) + {ks[n - 1]}
    {
      var i :| 0 <= i < n && ks[i] == key;
    }
  }

  /** The first loop: the map after inserting the keys of detections
      0 .. n-1. */
  function Buckets(ks: seq<Key>, n: nat): (r: seq<Bucket>)
    requires n <= |ks|
    ensures |r| <= n
  {
    if n == 0 then [] else Insert(Buckets(ks, n - 1), ks[n - 1], n - 1)
  }

  /** The map holds no empty entry and only indices below n. */
  lemma {:induction false} BucketsWellFormed(ks: seq<Key>, n: nat)
    requires n <= |ks|
    ensures NonEmpty(Buckets(ks, n)) && MembersBelow(Buckets(ks, n), n)
  {
    if n > 0 {
      var prev := Buckets(ks, n - 1);
      BucketsWellFormed(ks, n - 1);
      InsertKeepsMembers(prev, ks[n - 1], n - 1, n);
    }
  }

  /** The map is ascending. */
  lemma {:induction false} BucketsAscending(ks: seq<Key>, n: nat)
    requires n <= |ks|
    ensures Ascending(Buckets(ks, n))
  {
    if n > 0 {
      BucketsAscending(ks, n - 1);
      InsertOrdered(Buckets(ks, n - 1), ks[n - 1], n - 1);
    }
  }

  /** The map's keys are the keys among the first n. */
  lemma {:induction false} BucketsKeys(ks: seq<Key>, n: nat)
    requires n <= |ks|
    ensures Keys(Buckets(ks, n)) == KeysOf(ks, n)
  {
    if n > 0 {
      var prev := Buckets(ks, n - 1);
      calc {
        Keys(Buckets(ks, n));
        Keys(Insert(prev, ks[n - 1], n - 1));
        { InsertKeys(prev, ks[n - 1], n - 1); }
        Keys(prev) + {ks[n - 1]};
        { BucketsKeys(ks, n - 1); }
        KeysOf(ks, n - 1) + {ks[n - 1]};
        { KeysOfStep(ks, n); }
        KeysOf(ks, n);
      }
    }
  }

  /** The map is ascending and has one entry per key among the first n, and
      so no more entries than keys inserted. */
  lemma BucketsOrdered(ks: seq<Key>, n: nat)
    requires n <= |ks|
    ensures Ascending(Buckets(ks, n))
    ensures Keys(Buckets(ks, n)) == KeysOf(ks, n)
    ensures |Buckets(ks, n)| <= n
  {
    BucketsAscending(ks, n);
    BucketsKeys(ks, n);
  }

  /** The map built by the first loop holds, for every key, exactly the
      indices with that key, in input order. */
  lemma {:induction false} BucketsHoldMembers(ks: seq<Key>, n: nat, k: Key)
    requires n <= |ks|
    ensures Lookup(Buckets(ks, n), k) == Members(ks, k, n)
  {
    if n > 0 {
      var prev := Buckets(ks, n - 1);
      BucketsAscending(ks, n - 1);
      LookupAfterInsert(prev, ks[n - 1], n - 1, k);
      BucketsHoldMembers(ks, n - 1, k);
      if ks[n - 1] == k {
        calc {
          Lookup(Buckets(ks, n), k);
          Lookup(prev, k) + [n - 1];
          Members(ks, k, n - 1) + [n - 1];
        }
      } else {
        calc {
          Lookup(Buckets(ks, n), k);
          Lookup(prev, k);
          Members(ks, k, n - 1);
        }
      }
    }
  }

  /* ---------------------------------------------------------------------- */
  /* Merging a cluster                                                        */
  /* ---------------------------------------------------------------------- */

  predicate ValidMembers(ds: seq<Detection>, members: seq<nat>) {
    forall i | 0 <= i < |members| :: members[i] < |ds|
  }

  /** The running best of the merge loop: id and response. */
  datatype Best = Best(id: nat, response: real)

  /** The merge loop's choice of representative: the running best starts at
      index 0 with response 0 and is replaced only by a strictly higher
      response. */
  function BestMember(ds: seq<Detection>, members: seq<nat>): (b: Best)
    requires ValidMembers(ds, members)
    ensures |members| > 0 ==> b.id < |ds|
    decreases |members|
  {
    if |members| == 0 then Best(0, 0.0)
    else
      var prev := BestMember(ds, members[..|members| - 1]);
      var m := members[|members| - 1];
      if ds[m].response > prev.response then Best(m, ds[m].response) else prev
  }

  /** With positive responses the representative is the first member with
      the highest response. */
  lemma {:induction false} BestMemberIsFirstHighest(ds: seq<Detection>, members: seq<nat>)
    requires ValidMembers(ds, members) && |members| > 0
    requires forall i | 0 <= i < |members| :: ds[members[i]].response > 0.0
    ensures var b := BestMember(ds, members);
            && b.response == ds[b.id].response
            && (forall i | 0 <= i < |members| :: ds[members[i]].response <= b.response)
            && exists p | 0 <= p < |members| :: members[p] == b.id
                 && forall q | 0 <= q < p :: ds[members[q]].response < b.response
    decreases |members|
  {
    var front := members[..|members| - 1];
    assert forall i | 0 <= i < |front| :: front[i] == members[i];
    var b := BestMember(ds, members);
    var m := members[|members| - 1];
    if |front| == 0 {
      assert members[0] == b.id;
    } else {
      BestMemberIsFirstHighest(ds, front);
      var prev := BestMember(ds, front);
      if ds[m].response > prev.response {
        assert members[|members| - 1] == b.id;
      } else {
        var p :| 0 <= p < |front| && front[p] == prev.id && forall q | 0 <= q < p :: ds[front[q]].response < prev.response;
        assert members[p] == b.id;
      }
    }
  }

  /** The centre of a detection's box along an axis. */
  function Center(d: Detection, a: Axis): real {
    Low(d.boundingBox, a) + Extent(d.boundingBox, a) / 2.0
  }

  /** The region corner along the image axis: x when horizontal, else y. */
  function Corner(d: Detection, horizontal: bool): int {
    if horizontal then d.region.x else d.region.y
  }

  function WeightSum(ds: seq<Detection>, members: seq<nat>): real
    requires ValidMembers(ds, members)
    decreases |members|
  {
    if |members| == 0 then 0.0
    else WeightSum(ds, members[..|members| - 1]) + ds[members[|members| - 1]].response
  }

  /** The sum of the members' box centres weighted by response. */
  function CenterSum(ds: seq<Detection>, members: seq<nat>, a: Axis): real
    requires ValidMembers(ds, members)
    decreases |members|
  {
    if |members| == 0 then 0.0
    else
      var d := ds[members[|members| - 1]];
      CenterSum(ds, members[..|members| - 1], a) + Center(d, a) * d.response
  }

  /** The sum of the members' region corners weighted by response. */
  function CornerSum(ds: seq<Detection>, members: seq<nat>, horizontal: bool): real
    requires ValidMembers(ds, members)
    decreases |members|
  {
    if |members| == 0 then 0.0
    else
      var d := ds[members[|members| - 1]];
      CornerSum(ds, members[..|members| - 1], horizontal) + Corner(d, horizontal) as real * d.response
  }

  lemma {:induction false} WeightSumPositive(ds: seq<Detection>, members: seq<nat>)
    requires ValidMembers(ds, members) && |members| > 0
    requires forall i | 0 <= i < |members| :: ds[members[i]].response > 0.0
    ensures WeightSum(ds, members) > 0.0
    decreases |members|
  {
    var front := members[..|members| - 1];
    assert forall i | 0 <= i < |front| :: front[i] == members[i];
    if |front| > 0 {
      WeightSumPositive(ds, front);
    }
  }

  /** What the merge assumes of a cluster: members exist and every response
      is positive (the weights are divided by their sum, and the running
      best starts at 0). */
  predicate Mergeable(ds: seq<Detection>, members: seq<nat>) {
    && ValidMembers(ds, members) && |members| > 0
    && forall i | 0 <= i < |members| :: ds[members[i]].response > 0.0
  }

  /** The weighted average of the members' centres along a. */
  function AverageCenter(ds: seq<Detection>, members: seq<nat>, a: Axis): (c: real)
    requires Mergeable(ds, members)
    ensures WeightSum(ds, members) * c == CenterSum(ds, members, a)
  {
    WeightSumPositive(ds, members);
    DivTimes(CenterSum(ds, members, a), WeightSum(ds, members));
    CenterSum(ds, members, a) / WeightSum(ds, members)
  }

  /** The weighted average of the members' region corners. */
  function AverageCorner(ds: seq<Detection>, members: seq<nat>, horizontal: bool): (c: real)
    requires Mergeable(ds, members)
    ensures WeightSum(ds, members) * c == CornerSum(ds, members, horizontal)
  {
    WeightSumPositive(ds, members);
    DivTimes(CornerSum(ds, members, horizontal), WeightSum(ds, members));
    CornerSum(ds, members, horizontal) / WeightSum(ds, members)
  }

  /** The detection a cluster becomes. */
  function Merge(ds: seq<Detection>, members: seq<nat>, clusterId: nat): (d: Detection)
    requires Mergeable(ds, members)
    ensures var b := BestMember(ds, members);
            && d.templateId == ds[b.id].templateId && d.objectId == ds[b.id].objectId
            && d.response == ds[b.id].response
            && d.detectionId == clusterId
            && (forall a: Axis :: Extent(d.boundingBox, a) == Extent(ds[b.id].boundingBox, a))
            && d.region.width == ds[b.id].region.width && d.region.height == ds[b.id].region.height
    ensures forall a: Axis :: Center(d, a) == AverageCenter(ds, members, a)
    ensures d.region.x == Trunc(AverageCorner(ds, members, true))
    ensures d.region.y == Trunc(AverageCorner(ds, members, false))
  {
    BestMemberIsFirstHighest(ds, members);
    var b := BestMember(ds, members);
    var best := ds[b.id];
    var box := best.boundingBox;
    Detection(
      best.templateId, best.objectId, clusterId, b.response,
      BoundingBoxXYZ(
        AverageCenter(ds, members, X) - box.width / 2.0,
        AverageCenter(ds, members, Y) - box.height / 2.0,
        AverageCenter(ds, members, Z) - box.depth / 2.0,
        box.width, box.height, box.depth),
      RegionXY(
        Trunc(AverageCorner(ds, members, true)),
        Trunc(AverageCorner(ds, members, false)),
        best.region.width, best.region.height))
  }

  /** A weighted sum of equal values is that value times the weight sum. */
  lemma {:induction false} UniformSums(ds: seq<Detection>, members: seq<nat>, box: BoundingBoxXYZ, x: int, y: int)
    requires ValidMembers(ds, members)
    requires forall i | 0 <= i < |members| ::
               ds[members[i]].boundingBox == box && ds[members[i]].region.x == x && ds[members[i]].region.y == y
    ensures forall a: Axis :: CenterSum(ds, members, a) == (Low(box, a) + Extent(box, a) / 2.0) * WeightSum(ds, members)
    ensures CornerSum(ds, members, true) == x as real * WeightSum(ds, members)
    ensures CornerSum(ds, members, false) == y as real * WeightSum(ds, members)
    decreases |members|
  {
    if |members| > 0 {
      var front := members[..|members| - 1];
      assert forall i | 0 <= i < |front| :: front[i] == members[i];
      UniformSums(ds, front, box, x, y);
      var w := ds[members[|members| - 1]].response;
      var wf := WeightSum(ds, front);
      forall a: Axis
        ensures CenterSum(ds, members, a) == (Low(box, a) + Extent(box, a) / 2.0) * WeightSum(ds, members)
      {
        Distribute(Low(box, a) + Extent(box, a) / 2.0, wf, w);
      }
      Distribute(x as real, wf, w);
      Distribute(y as real, wf, w);
    }
  }

  lemma Distribute(c: real, a: real, b: real)
    ensures c * a + c * b == c * (a + b)
  {
  }

  /** The product c * w divided back by w. */
  lemma CancelWeight(c: real, w: real, q: real)
    requires w > 0.0 && w * q == c * w
    ensures q == c
  {
  }

  /** The weighted averages of equal values are those values. */
  lemma UniformAverages(ds: seq<Detection>, members: seq<nat>, box: BoundingBoxXYZ, x: int, y: int)
    requires Mergeable(ds, members)
    requires forall i | 0 <= i < |members| ::
               ds[members[i]].boundingBox == box && ds[members[i]].region.x == x && ds[members[i]].region.y == y
    ensures forall a: Axis :: AverageCenter(ds, members, a) == Low(box, a) + Extent(box, a) / 2.0
    ensures AverageCorner(ds, members, true) == x as real && AverageCorner(ds, members, false) == y as real
  {
    UniformSums(ds, members, box, x, y);
    WeightSumPositive(ds, members);
    var w := WeightSum(ds, members);
    forall a: Axis
      ensures AverageCenter(ds, members, a) == Low(box, a) + Extent(box, a) / 2.0
    {
      CancelWeight(Low(box, a) + Extent(box, a) / 2.0, w, AverageCenter(ds, members, a));
    }
    CancelWeight(x as real, w, AverageCorner(ds, members, true));
    CancelWeight(y as real, w, AverageCorner(ds, members, false));
  }

  /** A cluster whose members share their box and region corner merges into
      its representative with the cluster's id; in particular a cluster of
      one detection reproduces it apart from `detection_id`. */
  lemma UniformClusterReproducesMember(ds: seq<Detection>, members: seq<nat>, clusterId: nat)
    requires Mergeable(ds, members)
    requires forall i | 0 <= i < |members| ::
               && ds[members[i]].boundingBox == ds[members[0]].boundingBox
               && ds[members[i]].region.x == ds[members[0]].region.x
               && ds[members[i]].region.y == ds[members[0]].region.y
    ensures Merge(ds, members, clusterId) == ds[BestMember(ds, members).id].(detectionId := clusterId)
  {
    var box := ds[members[0]].boundingBox;
    BestMemberIsFirstHighest(ds, members);
    var b := BestMember(ds, members);
    var p :| 0 <= p < |members| && members[p] == b.id;
    var best := ds[b.id];
    assert best.boundingBox == box && best.region.x == ds[members[0]].region.x && best.region.y == ds[members[0]].region.y;
    UniformAverages(ds, members, box, best.region.x, best.region.y);
    var d := Merge(ds, members, clusterId);
    assert d.boundingBox == box by {
      assert Center(d, X) == Low(box, X) + Extent(box, X) / 2.0;
      assert Center(d, Y) == Low(box, Y) + Extent(box, Y) / 2.0;
      assert Center(d, Z) == Low(box, Z) + Extent(box, Z) / 2.0;
      assert Extent(d.boundingBox, X) == box.width && Extent(d.boundingBox, Y) == box.height;
      assert Extent(d.boundingBox, Z) == box.depth;
    }
    assert d.region == best.region by {
      assert Trunc(best.region.x as real) == best.region.x;
      assert Trunc(best.region.y as real) == best.region.y;
    }
  }

  lemma SingleMemberCluster(ds: seq<Detection>, m: nat, clusterId: nat)
    requires m < |ds| && ds[m].response > 0.0
    ensures Merge(ds, [m], clusterId) == ds[m].(detectionId := clusterId)
  {
    UniformClusterReproducesMember(ds, [m], clusterId);
    BestMemberIsFirstHighest(ds, [m]);
  }

  /* ---------------------------------------------------------------------- */
  /* The whole step                                                           */
  /* ---------------------------------------------------------------------- */

  /** The source assumes every response is positive. */
  predicate PositiveResponses(ds: seq<Detection>) {
    forall i | 0 <= i < |ds| :: ds[i].response > 0.0
  }

  /** `removeOverlappingDetections`: a zero threshold leaves the detections
      alone; otherwise the i-th output is the merge of the i-th map entry, in
      ascending key order, with detection id i. */
  function RemoveOverlapping(ds: seq<Detection>, t: nat, separate: bool): (r: seq<Detection>)
    requires t == 0 || PositiveResponses(ds)
    ensures t == 0 ==> r == ds
    ensures t > 0 ==> |r| == |Buckets(ClusterKeys(ds, t, separate), |ds|)| <= |ds|
    ensures t > 0 ==> forall i | 0 <= i < |r| ::
              Mergeable(ds, Buckets(ClusterKeys(ds, t, separate), |ds|)[i].members)
    ensures t > 0 ==> forall i | 0 <= i < |r| ::
              var b := Buckets(ClusterKeys(ds, t, separate), |ds|)[i];
              && r[i] == Merge(ds, b.members, i)
              && r[i].detectionId == i
  {
    if t == 0 then ds
    else
      var ks := ClusterKeys(ds, t, separate);
      var bs := Buckets(ks, |ds|);
      BucketsWellFormed(ks, |ds|);
      BucketsMergeable(ds, bs);
      MergeAll(ds, bs)
  }

  /** The second loop: each entry merged in turn, numbered by position. */
  function MergeAll(ds: seq<Detection>, bs: seq<Bucket>): (r: seq<Detection>)
    requires forall i | 0 <= i < |bs| :: Mergeable(ds, bs[i].members)
    ensures |r| == |bs|
    ensures forall i | 0 <= i < |bs| :: r[i] == Merge(ds, bs[i].members, i) && r[i].detectionId == i
  {
    seq(|bs|, i requires 0 <= i < |bs| => Merge(ds, bs[i].members, i))
  }

  /** Every entry of a map with no empty entry and only indices of ds can
      be merged when all responses are positive. */
  lemma BucketsMergeable(ds: seq<Detection>, bs: seq<Bucket>)
    requires PositiveResponses(ds) && NonEmpty(bs) && MembersBelow(bs, |ds|)
    ensures forall i | 0 <= i < |bs| :: Mergeable(ds, bs[i].members)
  {
    forall i | 0 <= i < |bs|
      ensures Mergeable(ds, bs[i].members)
    {
      assert |bs[i].members| > 0;
      forall j | 0 <= j < |bs[i].members|
        ensures bs[i].members[j] < |ds|
      {
      }
    }
  }

  /** All members of a key share its object id, so the merge keeps it. */
  lemma MergedObjectIsKeyObject(ds: seq<Detection>, t: nat, separate: bool, k: Key, clusterId: nat)
    requires t > 0 && PositiveResponses(ds)
    requires |Members(ClusterKeys(ds, t, separate), k, |ds|)| > 0
    ensures Merge(ds, Members(ClusterKeys(ds, t, separate), k, |ds|), clusterId).objectId == k.objectId
  {
    var ks := ClusterKeys(ds, t, separate);
    var members := Members(ks, k, |ds|);
    MembersSpec(ks, k, |ds|);
    BestMemberIsFirstHighest(ds, members);
    var p :| 0 <= p < |members| && members[p] == BestMember(ds, members).id;
    assert ks[members[p]] == k;
  }

  /** With a positive threshold there is one output per distinct key, in
      ascending key order; it merges exactly the detections with that key
      and names the key's object. */
  lemma OneOutputPerKey(ds: seq<Detection>, t: nat, separate: bool)
    requires t > 0 && PositiveResponses(ds)
    ensures var ks := ClusterKeys(ds, t, separate);
            var bs := Buckets(ks, |ds|);
            var r := RemoveOverlapping(ds, t, separate);
            && Keys(bs) == (set i | 0 <= i < |ds| :: KeyOf(ds[i], t, separate))
            && (forall i, j | 0 <= i < j < |bs| :: Less(bs[i].key, bs[j].key))
            && forall i | 0 <= i < |r| ::
                 && bs[i].members == Members(ks, bs[i].key, |ds|)
                 && r[i].objectId == bs[i].key.objectId
  {
    var ks := ClusterKeys(ds, t, separate);
    var bs := Buckets(ks, |ds|);
    var r := RemoveOverlapping(ds, t, separate);
    BucketsOrdered(ks, |ds|);
    assert KeysOf(ks, |ds|) == (set i | 0 <= i < |ds| :: KeyOf(ds[i], t, separate));
    forall i | 0 <= i < |r|
      ensures bs[i].members == Members(ks, bs[i].key, |ds|)
      ensures r[i].objectId == bs[i].key.objectId
    {
      LookupAt(bs, i);
      BucketsHoldMembers(ks, |ds|, bs[i].key);
      MergedObjectIsKeyObject(ds, t, separate, bs[i].key, i);
    }
  }
}

=== FILE: depth_refinement.dfy ===
/**
  `refineDetectionsAlongDepth`: the depths of the finite scene points under
  a detection's region are put into 1000 equal bins between their minimum
  and maximum; a prefix-sum table then finds the first window of bins as
  deep as the detection's box that holds the most points, and the box's z
  corner is moved to the start of that window.
*/
module DepthRefinement {
  import opened Records
  import opened Projection

  const Bins: nat := 1000

  /** The pixel window of the refinement loops: the region clamped at zero
      on the left and top, its far edges converted to `size_t` and cut at
      the scene's border. */
  function RefinementWindow(scene: Cloud, region: RegionXY): (w: Window)
    ensures w.FitsIn(scene)
    ensures w.x0 == (if region.x < 0 then 0 else region.x) && w.y0 == (if region.y < 0 then 0 else region.y)
    ensures w.x1 == (if ToSize(region.x + region.width) < scene.width then ToSize(region.x + region.width) else scene.width)
    ensures w.y1 == (if ToSize(region.y + region.height) < scene.height then ToSize(region.y + region.height) else scene.height)
  {
    var xEnd := ToSize(region.x + region.width);
    var yEnd := ToSize(region.y + region.height);
    Window(if region.x < 0 then 0 else region.x, if xEnd < scene.width then xEnd else scene.width,
           if region.y < 0 then 0 else region.y, if yEnd < scene.height then yEnd else scene.height)
  }

  /** The depths of the points whose z is finite, in visiting order (the
      other two coordinates are not tested). */
  function Depths(pts: seq<Point>): (ds: seq<real>)
    ensures |ds| <= |pts|
    ensures forall i | 0 <= i < |pts| && pts[i].zFinite :: pts[i].z in ds
    ensures forall k | 0 <= k < |ds| :: exists i | 0 <= i < |pts| :: pts[i].zFinite && pts[i].z == ds[k]
    decreases |pts|
  {
    if |pts| == 0 then []
    else
      var rest := pts[..|pts| - 1];
      var last := pts[|pts| - 1];
      assert forall i | 0 <= i < |pts| - 1 :: pts[i] == rest[i];
      if last.zFinite then Depths(rest) + [last.z] else Depths(rest)
  }

  /** The positions of the points with a finite z equal to z. */
  function FiniteAt(pts: seq<Point>, z: real): set<nat> {
    set i: nat | i < |pts| && pts[i].zFinite && pts[i].z == z
  }

  /** Every point with a finite z contributes one sample: each depth occurs
      among the samples exactly as often as points with that finite z. */
  lemma {:induction false} DepthsCount(pts: seq<Point>, z: real)
    ensures multiset(Depths(pts))[z] == |FiniteAt(pts, z)|
    decreases |pts|
  {
    if |pts| > 0 {
      var n := |pts| - 1;
      var rest := pts[..n];
      DepthsCount(rest, z);
      FiniteAtStep(pts, z);
      DepthsStep(pts, z);
    } else {
      assert FiniteAt(pts, z) == {};
    }
  }

  /** Visiting one more point adds one sample at depth z exactly when that
      point has a finite z equal to z. */
  lemma DepthsStep(pts: seq<Point>, z: real)
    requires |pts| > 0
    ensures var n := |pts| - 1;
            multiset(Depths(pts))[z] == multiset(Depths(pts[..n]))[z] + (if pts[n].zFinite && pts[n].z == z then 1 else 0)
  {
    var n := |pts| - 1;
    if pts[n].zFinite {
      assert Depths(pts) == Depths(pts[..n]) + [pts[n].z];
      assert multiset(Depths(pts)) == multiset(Depths(pts[..n])) + multiset{pts[n].z};
    } else {
      assert Depths(pts) == Depths(pts[..n]);
    }
  }

  /** Dropping the last point removes its position from FiniteAt when it
      is a finite z equal to z, and changes nothing otherwise. */
  lemma FiniteAtStep(pts: seq<Point>, z: real)
    requires |pts| > 0
    ensures var n := |pts| - 1;
            |FiniteAt(pts, z)| == |FiniteAt(pts[..n], z)| + (if pts[n].zFinite && pts[n].z == z then 1 else 0)
  {
    var n := |pts| - 1;
    var rest := pts[..n];
    var a := FiniteAt(pts, z);
    var b := FiniteAt(rest, z);
    assert forall i: nat | i < n :: pts[i] == rest[i];
    if pts[n].zFinite && pts[n].z == z {
      assert a == b + {n};
      assert n !in b;
    } else {
      assert a == b;
    }
  }

  /** The depth samples of a detection region. */
  function Samples(scene: Cloud, region: RegionXY): seq<real>
    requires scene.Organized()
  {
    Depths(WindowPoints(scene, RefinementWindow(scene, region)))
  }

  /** The running `std::min` of the first loop. */
  function MinOf(ds: seq<real>): (m: real)
    requires |ds| > 0
    ensures m in ds && forall k | 0 <= k < |ds| :: m <= ds[k]
    decreases |ds|
  {
    if |ds| == 1 then ds[0]
    else
      var rest := ds[..|ds| - 1];
      assert forall k | 0 <= k < |ds| - 1 :: ds[k] == rest[k];
      var m := MinOf(rest);
      if ds[|ds| - 1] < m then ds[|ds| - 1] else m
  }

  /** The running `std::max` of the first loop. */
  function MaxOf(ds: seq<real>): (m: real)
    requires |ds| > 0
    ensures m in ds && forall k | 0 <= k < |ds| :: ds[k] <= m
    decreases |ds|
  {
    if |ds| == 1 then ds[0]
    else
      var rest := ds[..|ds| - 1];
      assert forall k | 0 <= k < |ds| - 1 :: ds[k] == rest[k];
      var m := MaxOf(rest);
      if m < ds[|ds| - 1] then ds[|ds| - 1] else m
  }

  /** The width of a bin: the depth range split into 999 steps. */
  function StepSize(lo: real, hi: real): (step: real)
    requires lo < hi
    ensures step > 0.0
    ensures step * (Bins - 1) as real == hi - lo
  {
    (hi - lo) / (Bins - 1) as real
  }

  /** The bin of a depth: its distance from the minimum in steps, truncated. */
  function Bin(z: real, lo: real, step: real): int
    requires step > 0.0
  {
    ((z - lo) / step).Floor
  }

  /** Every depth between the minimum and the maximum falls into one of the
      1000 bins; the maximum itself falls into the last one. */
  lemma BinInRange(z: real, lo: real, hi: real)
    requires lo <= z <= hi && lo < hi
    ensures 0 <= Bin(z, lo, StepSize(lo, hi)) < Bins
    ensures z == hi ==> Bin(z, lo, StepSize(lo, hi)) == Bins - 1
  {
    var step := StepSize(lo, hi);
    var q := (z - lo) / step;
    assert q * step == z - lo;
    if q > (Bins - 1) as real {
      assert q * step > (Bins - 1) as real * step;
    }
    if z == hi {
      assert q == (Bins - 1) as real;
    }
  }

  /** The number of samples in bin b. */
  function CountBin(ds: seq<real>, lo: real, step: real, b: int): (n: nat)
    requires step > 0.0
    ensures n <= |ds|
    decreases |ds|
  {
    if |ds| == 0 then 0
    else CountBin(ds[..|ds| - 1], lo, step, b) + (if Bin(ds[|ds| - 1], lo, step) == b then 1 else 0)
  }

  /** The number of samples whose bin lies in [a, b). */
  function CountBins(ds: seq<real>, lo: real, step: real, a: int, b: int): (n: nat)
    requires step > 0.0
    ensures n <= |ds|
    decreases |ds|
  {
    if |ds| == 0 then 0
    else CountBins(ds[..|ds| - 1], lo, step, a, b) + (if a <= Bin(ds[|ds| - 1], lo, step) < b then 1 else 0)
  }

  /** Widening a bin range by one bin at its top adds that bin's samples. */
  lemma {:induction false} CountBinsStep(ds: seq<real>, lo: real, step: real, a: int, b: int)
    requires step > 0.0 && a <= b
    ensures CountBins(ds, lo, step, a, b + 1) == CountBins(ds, lo, step, a, b) + CountBin(ds, lo, step, b)
    decreases |ds|
  {
    if |ds| > 0 {
      CountBinsStep(ds[..|ds| - 1], lo, step, a, b);
    }
  }

  /** The sum of bins[a..b). */
  function SumBins(bins: seq<nat>, a: nat, b: nat): nat
    requires a <= b <= |bins|
    decreases b - a
  {
    if a == b then 0 else SumBins(bins, a, b - 1) + bins[b - 1]
  }

  lemma {:induction false} SumBinsSplit(bins: seq<nat>, a: nat, m: nat, b: nat)
    requires a <= m <= b <= |bins|
    ensures SumBins(bins, a, b) == SumBins(bins, a, m) + SumBins(bins, m, b)
    decreases b - m
  {
    if m < b {
      SumBinsSplit(bins, a, m, b - 1);
    }
  }

  /** A histogram: bin b holds the number of samples in bin b. */
  predicate IsHistogram(bins: seq<nat>, ds: seq<real>, lo: real, step: real)
    requires step > 0.0
  {
    |bins| == Bins && forall b | 0 <= b < Bins :: bins[b] == CountBin(ds, lo, step, b)
  }

  /** Summing a histogram over [a, b) counts the samples in those bins. */
  lemma {:induction false} HistogramRange(bins: seq<nat>, ds: seq<real>, lo: real, step: real, a: nat, b: nat)
    requires step > 0.0 && IsHistogram(bins, ds, lo, step) && a <= b <= Bins
    ensures SumBins(bins, a, b) == CountBins(ds, lo, step, a, b)
    decreases b - a
  {
    if a == b {
      NoSampleInEmptyRange(ds, lo, step, a);
    } else {
      HistogramRange(bins, ds, lo, step, a, b - 1);
      CountBinsStep(ds, lo, step, a, b - 1);
    }
  }

  lemma {:induction false} NoSampleInEmptyRange(ds: seq<real>, lo: real, step: real, a: int)
    requires step > 0.0
    ensures CountBins(ds, lo, step, a, a) == 0
    decreases |ds|
  {
    if |ds| > 0 {
      NoSampleInEmptyRange(ds[..|ds| - 1], lo, step, a);
    }
  }

  /** The second loop: every sample increments its bin. */
  method Histogram(ds: seq<real>, lo: real, hi: real) returns (bins: seq<nat>)
    requires lo < hi && forall k | 0 <= k < |ds| :: lo <= ds[k] <= hi
    ensures IsHistogram(bins, ds, lo, StepSize(lo, hi))
  {
    var step := StepSize(lo, hi);
    bins := seq(Bins, _ => 0);
    var k := 0;
    while k < |ds|
      invariant k <= |ds|
      invariant IsHistogram(bins, ds[..k], lo, step)
    {
      var b := Bin(ds[k], lo, step);
      BinInRange(ds[k], lo, hi);
      assert ds[..k + 1][..k] == ds[..k];
      bins := bins[b := bins[b] + 1];
      k := k + 1;
    }
    assert ds[..k] == ds;
  }

  /** The prefix-sum table: entry b holds the samples of bins 0..b. */
  method Integral(bins: seq<nat>) returns (integral: seq<nat>)
    requires |bins| == Bins
    ensures |integral| == Bins
    ensures forall b | 0 <= b < Bins :: integral[b] == SumBins(bins, 0, b + 1)
  {
    integral := [bins[0]];
    var b := 1;
    while b < Bins
      invariant 1 <= b <= Bins && |integral| == b
      invariant forall k | 0 <= k < b :: integral[k] == SumBins(bins, 0, k + 1)
    {
      integral := integral + [bins[b] + integral[b - 1]];
      b := b + 1;
    }
  }

  /** The index is the first window holding the most points, under a strict
      comparison against a running best that starts at 0: when no window
      holds a point the index is 0. */
  predicate FirstBest(ws: seq<int>, idx: nat) {
    if exists j | 0 <= j < |ws| :: ws[j] > 0 then
      && idx < |ws|
      && (forall j | 0 <= j < |ws| :: ws[j] <= ws[idx])
      && (forall j | 0 <= j < idx :: ws[j] < ws[idx])
    else
      idx == 0
  }

  /** At most one index is the first best. */
  lemma FirstBestUnique(ws: seq<int>, i: nat, j: nat)
    requires FirstBest(ws, i) && FirstBest(ws, j)
    ensures i == j
  {
  }

  /** The first index of a largest element of a non-empty sequence. */
  function FirstMax(ws: seq<int>): (idx: nat)
    requires |ws| > 0
    ensures idx < |ws|
    ensures forall j | 0 <= j < |ws| :: ws[j] <= ws[idx]
    ensures forall j | 0 <= j < idx :: ws[j] < ws[idx]
    decreases |ws|
  {
    if |ws| == 1 then 0
    else
      var rest := ws[..|ws| - 1];
      assert forall j | 0 <= j < |ws| - 1 :: ws[j] == rest[j];
      var k := FirstMax(rest);
      if ws[k] < ws[|ws| - 1] then |ws| - 1 else k
  }

  /** A reference for the window search: the first largest window if it is
      positive, 0 otherwise. */
  function FirstBestIndex(ws: seq<int>): (idx: nat)
    ensures FirstBest(ws, idx)
    ensures idx == 0 || idx < |ws|
  {
    if |ws| == 0 then 0
    else
      var k := FirstMax(ws);
      if ws[k] > 0 then k else 0
  }

  /** The differences the search loop compares: integral[j + r] -
      integral[j] for every j with j + r < 1000. */
  function Differences(integral: seq<nat>, r: nat): (ws: seq<int>)
    requires |integral| == Bins
    ensures |ws| == (if r < Bins then Bins - r else 0)
  {
    if r < Bins then seq(Bins - r, j requires 0 <= j < Bins - r => integral[j + r] as int - integral[j] as int) else []
  }

  /** For every j with j + r < 1000, the number of samples in bins j+1 .. j+r. */
  function WindowCounts(ds: seq<real>, lo: real, step: real, r: nat): (ws: seq<int>)
    requires step > 0.0
    ensures |ws| == (if r < Bins then Bins - r else 0)
  {
    if r < Bins then seq(Bins - r, j requires 0 <= j < Bins - r => CountBins(ds, lo, step, j + 1, j + r + 1)) else []
  }

  /** A prefix-sum difference counts the samples of bins j+1 .. j+r, and is
      never negative, so the `size_t` subtraction does not wrap. */
  lemma DifferencesAreWindowCounts(bins: seq<nat>, integral: seq<nat>, ds: seq<real>, lo: real, step: real, r: nat)
    requires step > 0.0 && IsHistogram(bins, ds, lo, step)
    requires |integral| == Bins && forall b | 0 <= b < Bins :: integral[b] == SumBins(bins, 0, b + 1)
    ensures Differences(integral, r) == WindowCounts(ds, lo, step, r)
  {
    if r < Bins {
      forall j | 0 <= j < Bins - r
        ensures integral[j + r] as int - integral[j] as int == CountBins(ds, lo, step, j + 1, j + r + 1)
      {
        DifferenceIsWindowCount(bins, integral, ds, lo, step, j, r);
      }
    }
  }

  /** One prefix-sum difference: bins j+1 .. j+r. */
  lemma DifferenceIsWindowCount(bins: seq<nat>, integral: seq<nat>, ds: seq<real>, lo: real, step: real, j: nat, r: nat)
    requires step > 0.0 && IsHistogram(bins, ds, lo, step)
    requires |integral| == Bins && forall b | 0 <= b < Bins :: integral[b] == SumBins(bins, 0, b + 1)
    requires j + r < Bins
    ensures integral[j + r] as int - integral[j] as int == CountBins(ds, lo, step, j + 1, j + r + 1)
  {
    SumBinsSplit(bins, 0, j + 1, j + r + 1);
    HistogramRange(bins, ds, lo, step, j + 1, j + r + 1);
  }

  /** The search loop: a strict `>` against the running maximum, started at
      0 with index 0. */
  method BestWindow(integral: seq<nat>, r: nat) returns (idx: nat)
    requires |integral| == Bins
    ensures FirstBest(Differences(integral, r), idx)
    ensures idx < Bins
  {
    var ws := Differences(integral, r);
    var best: int := 0;
    idx := 0;
    var i := 0;
    while i + r < Bins
      invariant i <= |ws| || (i == 0 && |ws| == 0)
      invariant forall j | 0 <= j < i :: ws[j] <= best
      invariant best >= 0
      invariant best == 0 ==> idx == 0
      invariant best > 0 ==> idx < i && ws[idx] == best && forall j | 0 <= j < idx :: ws[j] < best
    {
      var count := integral[i + r] as int - integral[i] as int;
      if count > best {
        best := count;
        idx := i;
      }
      i := i + 1;
    }
  }

  /** What the source assumes of a detection: some finite depth under its
      region, a depth range that is not a single value (the step is
      divided by), and a box depth that is not negative (it is truncated to
      a `size_t`). */
  predicate Refinable(scene: Cloud, d: Detection) {
    && scene.Organized()
    && |Samples(scene, d.region)| > 0
    && MinOf(Samples(scene, d.region)) < MaxOf(Samples(scene, d.region))
    && d.boundingBox.depth >= 0.0
  }

  /** The number of bins the box depth spans. */
  function DepthRange(depth: real, step: real): (r: nat)
    requires depth >= 0.0 && step > 0.0
    ensures r as real * step <= depth < (r + 1) as real * step
  {
    var q := depth / step;
    assert q >= 0.0 && q * step == depth;
    assert q < (q.Floor + 1) as real;
    assert depth < (q.Floor + 1) as real * step by {
      assert ((q.Floor + 1) as real - q) * step > 0.0;
    }
    q.Floor
  }

  /** The start of the first fullest window of bins as deep as the box,
      over the depth samples ds. */
  function WindowStart(ds: seq<real>, depth: real): (z: real)
    requires |ds| > 0 && MinOf(ds) < MaxOf(ds) && depth >= 0.0
    ensures MinOf(ds) <= z <= MaxOf(ds)
  {
    var lo := MinOf(ds);
    var hi := MaxOf(ds);
    var step := StepSize(lo, hi);
    var ws := WindowCounts(ds, lo, step, DepthRange(depth, step));
    BinStart(lo, hi, FirstBestIndex(ws))
  }

  /** The refined z corner of a detection. */
  function RefinedDepth(scene: Cloud, d: Detection): (z: real)
    requires Refinable(scene, d)
    ensures MinOf(Samples(scene, d.region)) <= z <= MaxOf(Samples(scene, d.region))
  {
    WindowStart(Samples(scene, d.region), d.boundingBox.depth)
  }

  /** The depth at which bin idx starts; it lies between the minimum and the
      maximum. */
  function BinStart(lo: real, hi: real, idx: nat): (z: real)
    requires lo < hi && idx < Bins
    ensures lo <= z <= hi
  {
    var step := StepSize(lo, hi);
    assert idx as real * step <= (Bins - 1) as real * step;
    lo + idx as real * step
  }

  /** The refined detection: only the z corner of the box changes. */
  function Refined(scene: Cloud, d: Detection): (d': Detection)
    requires Refinable(scene, d)
    ensures d'.templateId == d.templateId && d'.objectId == d.objectId && d'.detectionId == d.detectionId
    ensures d'.response == d.response && d'.region == d.region
    ensures d'.boundingBox.x == d.boundingBox.x && d'.boundingBox.y == d.boundingBox.y
    ensures d'.boundingBox.width == d.boundingBox.width && d'.boundingBox.height == d.boundingBox.height
    ensures d'.boundingBox.depth == d.boundingBox.depth
    ensures d'.boundingBox.z == RefinedDepth(scene, d)
  {
    d.(boundingBox := d.boundingBox.(z := RefinedDepth(scene, d)))
  }

  /** The body of the refinement loop on the samples of one detection:
      histogram, prefix sums, window search, new z. */
  method FindWindowStart(ds: seq<real>, depth: real) returns (z: real)
    requires |ds| > 0 && MinOf(ds) < MaxOf(ds) && depth >= 0.0
    ensures z == WindowStart(ds, depth)
  {
    var lo := MinOf(ds);
    var hi := MaxOf(ds);
    var step := StepSize(lo, hi);
    var bins := Histogram(ds, lo, hi);
    var integral := Integral(bins);
    var r := DepthRange(depth, step);
    var idx := BestWindow(integral, r);
    DifferencesAreWindowCounts(bins, integral, ds, lo, step, r);
    FirstBestUnique(WindowCounts(ds, lo, step, r), idx, FirstBestIndex(WindowCounts(ds, lo, step, r)));
    z := BinStart(lo, hi, idx);
  }

  /** One iteration of the detection loop. */
  method RefineDetection(scene: Cloud, d: Detection) returns (d': Detection)
    requires Refinable(scene, d)
    ensures d' == Refined(scene, d)
  {
    var z := FindWindowStart(Samples(scene, d.region), d.boundingBox.depth);
    d' := d.(boundingBox := d.boundingBox.(z := z));
  }

  /** `refineDetectionsAlongDepth`: every detection is refined on its own. */
  method RefineDetectionsAlongDepth(scene: Cloud, detections: seq<Detection>) returns (refined: seq<Detection>)
    requires forall i | 0 <= i < |detections| :: Refinable(scene, detections[i])
    ensures |refined| == |detections|
    ensures forall i | 0 <= i < |detections| :: refined[i] == Refined(scene, detections[i])
  {
    refined := [];
    var i := 0;
    while i < |detections|
      invariant i <= |detections| && |refined| == i
      invariant forall k | 0 <= k < i :: refined[k] == Refined(scene, detections[k])
    {
      var d := RefineDetection(scene, detections[i]);
      var next := refined + [d];
      forall k | 0 <= k <= i
        ensures next[k] == Refined(scene, detections[k])
      {
        if k < i {
          assert next[k] == refined[k];
        }
      }
      refined := next;
      i := i + 1;
    }
  }
}

=== FILE: detection_sort.dfy ===
/**
  `sortDetections`: detections ordered by decreasing response.  `std::sort`
  does not promise an order among equal responses; the model fixes one, the
  stable one, which keeps input order among them.
*/
module DetectionSort {
  import opened Records

  predicate NonIncreasing(ds: seq<Detection>) {
    forall i, j | 0 <= i < j < |ds| :: ds[i].response >= ds[j].response
  }

  /** Places d after every detection whose response is not below its own. */
  function InsertByResponse(d: Detection, sorted: seq<Detection>): (r: seq<Detection>)
    requires NonIncreasing(sorted)
    ensures NonIncreasing(r)
    ensures multiset(r) == multiset(sorted) + multiset{d}
    decreases |sorted|
  {
    if |sorted| == 0 then [d]
    else if sorted[0].response < d.response then [d] + sorted
    else
      var rest := InsertByResponse(d, sorted[1..]);
      assert sorted == [sorted[0]] + sorted[1..];
      BoundedByHead(sorted[0], rest, sorted[1..], d);
      [sorted[0]] + rest
  }

  /** A permutation of a tail and one more detection, none stronger than the
      head, may follow the head. */
  lemma BoundedByHead(head: Detection, rest: seq<Detection>, tail: seq<Detection>, d: Detection)
    requires NonIncreasing(rest)
    requires multiset(rest) == multiset(tail) + multiset{d}
    requires d.response <= head.response
    requires forall k | 0 <= k < |tail| :: tail[k].response <= head.response
    ensures NonIncreasing([head] + rest)
  {
    forall k | 0 <= k < |rest|
      ensures rest[k].response <= head.response
    {
      assert rest[k] in multiset(rest);
      assert rest[k] == d || rest[k] in multiset(tail);
    }
  }

  /** Insertion sort over the input order. */
  function Sort(ds: seq<Detection>): (r: seq<Detection>)
    ensures NonIncreasing(r)
    ensures multiset(r) == multiset(ds)
    decreases |ds|
  {
    if |ds| == 0 then []
    else
      var front := ds[..|ds| - 1];
      assert ds == front + [ds[|ds| - 1]];
      InsertByResponse(ds[|ds| - 1], Sort(front))
  }

  /** A detection whose response is at most every other one goes last. */
  lemma {:induction false} InsertSmallestGoesLast(d: Detection, sorted: seq<Detection>)
    requires NonIncreasing(sorted)
    requires forall k | 0 <= k < |sorted| :: d.response <= sorted[k].response
    ensures InsertByResponse(d, sorted) == sorted + [d]
    decreases |sorted|
  {
    if |sorted| > 0 {
      InsertSmallestGoesLast(d, sorted[1..]);
      assert [sorted[0]] + (sorted[1..] + [d]) == sorted + [d];
    }
  }

  /** Sorting keeps an already sorted sequence as it is, so sorting twice is
      sorting once. */
  lemma {:induction false} SortKeepsSorted(ds: seq<Detection>)
    requires NonIncreasing(ds)
    ensures Sort(ds) == ds
    decreases |ds|
  {
    if |ds| > 0 {
      var front := ds[..|ds| - 1];
      SortKeepsSorted(front);
      InsertSmallestGoesLast(ds[|ds| - 1], front);
      assert front + [ds[|ds| - 1]] == ds;
    }
  }

  lemma SortIdempotent(ds: seq<Detection>)
    ensures Sort(Sort(ds)) == Sort(ds)
  {
    SortKeepsSorted(Sort(ds));
  }
}

=== FILE: geometry.dfy ===
/**
  The geometry utilities of `line_rgbd.hpp`: the axis-aligned bounding box of
  the finite points of a cloud stored relative to their mean (`computeAABB`),
  re-centering a cloud on a point (`subtractMean`), and the volume of the
  intersection of two boxes (`computeBoundingBoxIntersectionVolume`).

  The source divides by the number of finite points without checking it; in
  the model `ComputeAabb` returns None exactly when that number is zero.
*/
module Geometry {
  import opened Records
  import opened Wrappers

  /** Number of finite points in c. */
  function FiniteCount(c: seq<Point>): nat {
    if |c| == 0 then 0
    else FiniteCount(c[..|c| - 1]) + (if c[|c| - 1].finite then 1 else 0)
  }

  predicate HasFinite(c: seq<Point>) {
    exists i | 0 <= i < |c| :: c[i].finite
  }

  /** Sum of the coordinates of the finite points of c along axis a. */
  function Sum(c: seq<Point>, a: Axis): real {
    if |c| == 0 then 0.0
    else Sum(c[..|c| - 1], a) + (if c[|c| - 1].finite then Coord(c[|c| - 1], a) else 0.0)
  }

  lemma {:induction false} FiniteCountPositive(c: seq<Point>)
    ensures FiniteCount(c) > 0 <==> HasFinite(c)
  {
    if |c| > 0 {
      var rest := c[..|c| - 1];
      FiniteCountPositive(rest);
      if HasFinite(rest) {
        var i :| 0 <= i < |rest| && rest[i].finite;
        assert c[i].finite;
      }
      if HasFinite(c) && !c[|c| - 1].finite {
        var i :| 0 <= i < |c| && c[i].finite;
        assert rest[i].finite;
      }
    }
  }

  /** The smallest coordinate along a of a finite point of c (the running
      `std::min` of the source, started at the first finite point). */
  function Min(c: seq<Point>, a: Axis): (m: real)
    requires HasFinite(c)
    ensures forall i | 0 <= i < |c| && c[i].finite :: m <= Coord(c[i], a)
    ensures exists i | 0 <= i < |c| && c[i].finite :: m == Coord(c[i], a)
    decreases |c|
  {
    var rest := c[..|c| - 1];
    var last := c[|c| - 1];
    if !HasFinite(rest) then
      assert forall i | 0 <= i < |c| - 1 :: c[i] == rest[i];
      Coord(last, a)
    else if !last.finite then
      assert forall i | 0 <= i < |c| - 1 :: c[i] == rest[i];
      Min(rest, a)
    else
      assert forall i | 0 <= i < |c| - 1 :: c[i] == rest[i];
      if Coord(last, a) < Min(rest, a) then Coord(last, a) else Min(rest, a)
  }

  /** The largest coordinate along a of a finite point of c. */
  function Max(c: seq<Point>, a: Axis): (m: real)
    requires HasFinite(c)
    ensures forall i | 0 <= i < |c| && c[i].finite :: Coord(c[i], a) <= m
    ensures exists i | 0 <= i < |c| && c[i].finite :: m == Coord(c[i], a)
    decreases |c|
  {
    var rest := c[..|c| - 1];
    var last := c[|c| - 1];
    if !HasFinite(rest) then
      assert forall i | 0 <= i < |c| - 1 :: c[i] == rest[i];
      Coord(last, a)
    else if !last.finite then
      assert forall i | 0 <= i < |c| - 1 :: c[i] == rest[i];
      Max(rest, a)
    else
      assert forall i | 0 <= i < |c| - 1 :: c[i] == rest[i];
      if Max(rest, a) < Coord(last, a) then Coord(last, a) else Max(rest, a)
  }

  /** The mean of the finite points of c: count copies of it add up to the
      sum of those points. */
  function Mean(c: seq<Point>): (m: Point)
    requires HasFinite(c)
    ensures m.finite
    ensures forall a: Axis :: Times(FiniteCount(c), Coord(m, a)) == Sum(c, a)
  {
    FiniteCountPositive(c);
    var n := FiniteCount(c) as real;
    var m := FinitePoint(Sum(c, X) / n, Sum(c, Y) / n, Sum(c, Z) / n);
    forall a: Axis
      ensures Times(FiniteCount(c), Coord(m, a)) == Sum(c, a)
    {
      TimesIsProduct(FiniteCount(c), Coord(m, a));
      DivTimes(Sum(c, a), n);
    }
    m
  }

  lemma DivTimes(s: real, n: real)
    requires n > 0.0
    ensures n * (s / n) == s
  {
  }

  /** The mean of a cloud with a single finite point is that point. */
  lemma MeanOfSingleFinite(c: seq<Point>, k: nat)
    requires k < |c| && c[k].finite
    requires forall j | 0 <= j < |c| && j != k :: !c[j].finite
    ensures HasFinite(c)
    ensures Mean(c) == FinitePoint(c[k].x, c[k].y, c[k].z)
  {
    SingleFiniteSums(c, k);
    var m := Mean(c);
    forall a: Axis
      ensures Coord(m, a) == Coord(c[k], a)
    {
      assert Times(1, Coord(m, a)) == Coord(m, a);
    }
    assert Coord(m, X) == c[k].x && Coord(m, Y) == c[k].y && Coord(m, Z) == c[k].z;
  }

  lemma {:induction false} SingleFiniteSums(c: seq<Point>, k: nat)
    requires k < |c| && c[k].finite
    requires forall j | 0 <= j < |c| && j != k :: !c[j].finite
    ensures FiniteCount(c) == 1
    ensures forall a: Axis :: Sum(c, a) == Coord(c[k], a)
  {
    var rest := c[..|c| - 1];
    if k == |c| - 1 {
      NoFinitePoints(rest);
    } else {
      SingleFiniteSums(rest, k);
    }
  }

  lemma {:induction false} NoFinitePoints(c: seq<Point>)
    requires forall j | 0 <= j < |c| :: !c[j].finite
    ensures FiniteCount(c) == 0
    ensures forall a: Axis :: Sum(c, a) == 0.0
  {
    if |c| > 0 {
      NoFinitePoints(c[..|c| - 1]);
    }
  }

  /** Counting and summing distribute over concatenation. */
  lemma {:induction false} ConcatCounts(a: seq<Point>, b: seq<Point>)
    ensures FiniteCount(a + b) == FiniteCount(a) + FiniteCount(b)
    ensures forall ax: Axis :: Sum(a + b, ax) == Sum(a, ax) + Sum(b, ax)
  {
    if |b| > 0 {
      var b' := b[..|b| - 1];
      assert (a + b)[..|a + b| - 1] == a + b';
      ConcatCounts(a, b');
    }
    else {
      assert a + b == a;
    }
  }

  /** A cloud whose finite points sum, along each axis, to the coordinates of
      p, and which has exactly one of them, has mean p. */
  lemma MeanFromSums(c: seq<Point>, p: Point)
    requires FiniteCount(c) == 1 && p.finite
    requires forall a: Axis :: Sum(c, a) == Coord(p, a)
    requires HasFinite(c)
    ensures Mean(c) == FinitePoint(p.x, p.y, p.z)
  {
    var m := Mean(c);
    forall a: Axis
      ensures Coord(m, a) == Coord(p, a)
    {
      assert Times(1, Coord(m, a)) == Coord(m, a);
    }
    assert Coord(m, X) == p.x && Coord(m, Y) == p.y && Coord(m, Z) == p.z;
  }

  /** A box together with the mean it is stored relative to. */
  datatype Aabb = Aabb(box: BoundingBoxXYZ, mean: Point)

  /** Every finite point of c lies inside the box once the box is moved by
      the mean, along axis a. */
  predicate Encloses(c: seq<Point>, b: BoundingBoxXYZ, mean: Point, a: Axis) {
    forall i | 0 <= i < |c| && c[i].finite ::
      Low(b, a) + Coord(mean, a) <= Coord(c[i], a) <= Low(b, a) + Coord(mean, a) + Extent(b, a)
  }

  /** Both faces of the moved box along axis a touch a finite point of c. */
  predicate Tight(c: seq<Point>, b: BoundingBoxXYZ, mean: Point, a: Axis) {
    && (exists i | 0 <= i < |c| && c[i].finite :: Coord(c[i], a) == Low(b, a) + Coord(mean, a))
    && (exists i | 0 <= i < |c| && c[i].finite :: Coord(c[i], a) == Low(b, a) + Coord(mean, a) + Extent(b, a))
  }

  /** `computeAABB`: the extents are max - min over the finite points and the
      corner is min - mean, computed as the source writes it,
      (min + extent / 2) - mean - extent / 2.  None when the cloud has no
      finite point, where the source divides zero by zero. */
  function ComputeAabb(c: seq<Point>): (r: Option<Aabb>)
    ensures r.Some? <==> HasFinite(c)
    ensures r.Some? ==> r.value.mean == Mean(c)
    ensures r.Some? ==> forall a: Axis :: Extent(r.value.box, a) >= 0.0
    ensures r.Some? ==> forall a: Axis :: Encloses(c, r.value.box, r.value.mean, a)
    ensures r.Some? ==> forall a: Axis :: Tight(c, r.value.box, r.value.mean, a)
  {
    if !HasFinite(c) then None
    else
      var mean := Mean(c);
      var box := BoxOf(c);
      forall a: Axis
        ensures Extent(box, a) >= 0.0 && Encloses(c, box, mean, a) && Tight(c, box, mean, a)
      {
        BoxOfFaces(c, a);
      }
      Some(Aabb(box, mean))
  }

  /** The box of `computeAABB`, written the way the source computes it. */
  function BoxOf(c: seq<Point>): BoundingBoxXYZ
    requires HasFinite(c)
  {
    var mean := Mean(c);
    var w := Max(c, X) - Min(c, X);
    var h := Max(c, Y) - Min(c, Y);
    var d := Max(c, Z) - Min(c, Z);
    BoundingBoxXYZ(
      (Min(c, X) + w / 2.0) - mean.x - w / 2.0,
      (Min(c, Y) + h / 2.0) - mean.y - h / 2.0,
      (Min(c, Z) + d / 2.0) - mean.z - d / 2.0,
      w, h, d)
  }

  lemma BoxOfFaces(c: seq<Point>, a: Axis)
    requires HasFinite(c)
    ensures Low(BoxOf(c), a) + Coord(Mean(c), a) == Min(c, a)
    ensures Extent(BoxOf(c), a) == Max(c, a) - Min(c, a)
    ensures Extent(BoxOf(c), a) >= 0.0
    ensures Encloses(c, BoxOf(c), Mean(c), a) && Tight(c, BoxOf(c), Mean(c), a)
  {
    var i :| 0 <= i < |c| && c[i].finite;
    assert Min(c, a) <= Coord(c[i], a) <= Max(c, a);
  }

  /** One point of `subtractMean`: a finite point is moved by -m, any other
      point is kept as it is. */
  function Shift(p: Point, m: Point): (q: Point)
    ensures q.finite == p.finite
    ensures !p.finite ==> q == p
    ensures p.finite ==> forall a: Axis :: Coord(q, a) == Coord(p, a) - Coord(m, a)
  {
    if p.finite then FinitePoint(p.x - m.x, p.y - m.y, p.z - m.z) else p
  }

  /** `subtractMean`: every point of the cloud goes through `Shift`, in place. */
  function SubtractMean(c: seq<Point>, m: Point): (r: seq<Point>)
    ensures |r| == |c|
    ensures forall i | 0 <= i < |c| :: r[i] == Shift(c[i], m)
  {
    seq(|c|, i requires 0 <= i < |c| => Shift(c[i], m))
  }

  /** n * v as a repeated sum, so that the induction below stays linear. */
  function Times(n: nat, v: real): real {
    if n == 0 then 0.0 else Times(n - 1, v) + v
  }

  lemma {:induction false} TimesIsProduct(n: nat, v: real)
    ensures Times(n, v) == (n as real) * v
  {
    if n > 0 {
      TimesIsProduct(n - 1, v);
      assert ((n - 1) as real) * v + v == (n as real) * v;
    }
  }

  /** Shifting keeps the number of finite points. */
  lemma {:induction false} FiniteCountAfterShift(c: seq<Point>, m: Point)
    ensures FiniteCount(SubtractMean(c, m)) == FiniteCount(c)
  {
    if |c| > 0 {
      var rest := c[..|c| - 1];
      assert SubtractMean(c, m)[..|c| - 1] == SubtractMean(rest, m);
      FiniteCountAfterShift(rest, m);
    }
  }

  lemma {:induction false} SumAfterShiftTimes(c: seq<Point>, m: Point, a: Axis)
    ensures Sum(SubtractMean(c, m), a) == Sum(c, a) - Times(FiniteCount(c), Coord(m, a))
  {
    if |c| > 0 {
      var rest := c[..|c| - 1];
      assert SubtractMean(c, m)[..|c| - 1] == SubtractMean(rest, m);
      SumAfterShiftTimes(rest, m, a);
    }
  }

  /** Shifting every finite point by -m lowers their coordinate sum by
      count * m. */
  lemma SumAfterShift(c: seq<Point>, m: Point, a: Axis)
    ensures FiniteCount(SubtractMean(c, m)) == FiniteCount(c)
    ensures Sum(SubtractMean(c, m), a) == Sum(c, a) - (FiniteCount(c) as real) * Coord(m, a)
  {
    FiniteCountAfterShift(c, m);
    SumAfterShiftTimes(c, m, a);
    TimesIsProduct(FiniteCount(c), Coord(m, a));
  }

  /** Re-centering a cloud on its own mean leaves its finite points with a
      zero mean along every axis. */
  lemma RecenteredMeanIsZero(c: seq<Point>, a: Axis)
    requires HasFinite(c)
    ensures Sum(SubtractMean(c, Mean(c)), a) == 0.0
  {
    SumAfterShiftTimes(c, Mean(c), a);
  }

  /** n copies of x minus n copies of y are n copies of x - y. */
  lemma {:induction false} TimesSub(n: nat, x: real, y: real)
    ensures Times(n, x) - Times(n, y) == Times(n, x - y)
  {
    if n > 0 {
      TimesSub(n - 1, x, y);
    }
  }

  /** A positive number of copies determines the value copied. */
  lemma TimesInjective(n: nat, x: real, y: real)
    requires n > 0 && Times(n, x) == Times(n, y)
    ensures x == y
  {
    TimesSub(n, x, y);
    TimesIsProduct(n, x - y);
    ProductZero(n as real, x - y);
  }

  lemma ProductZero(n: real, d: real)
    requires n > 0.0 && n * d == 0.0
    ensures d == 0.0
  {
  }

  /** A shift moves the smallest and largest finite coordinate by -m. */
  lemma ExtremaAfterShift(c: seq<Point>, m: Point, a: Axis)
    requires HasFinite(c)
    ensures HasFinite(SubtractMean(c, m))
    ensures Min(SubtractMean(c, m), a) == Min(c, a) - Coord(m, a)
    ensures Max(SubtractMean(c, m), a) == Max(c, a) - Coord(m, a)
  {
    var s := SubtractMean(c, m);
    var i :| 0 <= i < |c| && c[i].finite;
    assert s[i].finite;
    MinAfterShift(c, m, a);
    MaxAfterShift(c, m, a);
  }

  lemma MinAfterShift(c: seq<Point>, m: Point, a: Axis)
    requires HasFinite(c) && HasFinite(SubtractMean(c, m))
    ensures Min(SubtractMean(c, m), a) == Min(c, a) - Coord(m, a)
  {
    var s := SubtractMean(c, m);
    var j :| 0 <= j < |s| && s[j].finite && Min(s, a) == Coord(s[j], a);
    var k :| 0 <= k < |c| && c[k].finite && Min(c, a) == Coord(c[k], a);
    assert Min(s, a) <= Coord(s[k], a);
    assert Min(c, a) <= Coord(c[j], a);
  }

  lemma MaxAfterShift(c: seq<Point>, m: Point, a: Axis)
    requires HasFinite(c) && HasFinite(SubtractMean(c, m))
    ensures Max(SubtractMean(c, m), a) == Max(c, a) - Coord(m, a)
  {
    var s := SubtractMean(c, m);
    var j :| 0 <= j < |s| && s[j].finite && Max(s, a) == Coord(s[j], a);
    var k :| 0 <= k < |c| && c[k].finite && Max(c, a) == Coord(c[k], a);
    assert Coord(s[k], a) <= Max(s, a);
    assert Coord(c[j], a) <= Max(c, a);
  }

  /** A shift moves the mean by -m. */
  lemma MeanAfterShift(c: seq<Point>, m: Point, a: Axis)
    requires HasFinite(c)
    ensures HasFinite(SubtractMean(c, m))
    ensures Coord(Mean(SubtractMean(c, m)), a) == Coord(Mean(c), a) - Coord(m, a)
  {
    var s := SubtractMean(c, m);
    FiniteCountPositive(c);
    FiniteCountAfterShift(c, m);
    FiniteCountPositive(s);
    SumAfterShiftTimes(c, m, a);
    var n := FiniteCount(c);
    var ms, mc, v := Coord(Mean(s), a), Coord(Mean(c), a), Coord(m, a);
    assert Times(n, ms) == Sum(c, a) - Times(n, v);
    assert Times(n, mc) == Sum(c, a);
    TimesSub(n, mc, v);
    TimesInjective(n, ms, mc - v);
  }

  /** Moving every finite point by -m moves the mean by -m and leaves the
      stored box (extents and mean-relative corner) unchanged. */
  lemma AabbTranslationInvariant(c: seq<Point>, m: Point)
    requires HasFinite(c)
    ensures var r := ComputeAabb(SubtractMean(c, m));
            r.Some? && r.value.box == ComputeAabb(c).value.box
            && forall a: Axis :: Coord(r.value.mean, a) == Coord(Mean(c), a) - Coord(m, a)
  {
    forall a: Axis
      ensures HasFinite(SubtractMean(c, m))
      ensures Min(SubtractMean(c, m), a) == Min(c, a) - Coord(m, a)
      ensures Max(SubtractMean(c, m), a) == Max(c, a) - Coord(m, a)
      ensures Coord(Mean(SubtractMean(c, m)), a) == Coord(Mean(c), a) - Coord(m, a)
    {
      ExtremaAfterShift(c, m, a);
      MeanAfterShift(c, m, a);
    }
  }

  /* ---------------------------------------------------------------------- */
  /* Intersection volume                                                      */
  /* ---------------------------------------------------------------------- */

  function MinReal(a: real, b: real): real {
    if b < a then b else a
  }

  function MaxReal(a: real, b: real): real {
    if a < b then b else a
  }

  /** Length of the overlap of the two boxes along axis a (negative when
      they are apart). */
  function Overlap(b1: BoundingBoxXYZ, b2: BoundingBoxXYZ, a: Axis): real {
    MinReal(Low(b1, a) + Extent(b1, a), Low(b2, a) + Extent(b2, a)) - MaxReal(Low(b1, a), Low(b2, a))
  }

  function Volume(b: BoundingBoxXYZ): real {
    b.width * b.height * b.depth
  }

  /** `computeBoundingBoxIntersectionVolume`: zero when the boxes do not
      overlap along some axis, the product of the three overlaps otherwise. */
  function IntersectionVolume(b1: BoundingBoxXYZ, b2: BoundingBoxXYZ): (v: real)
    ensures v >= 0.0
    ensures v == 0.0 <==> Overlap(b1, b2, X) <= 0.0 || Overlap(b1, b2, Y) <= 0.0 || Overlap(b1, b2, Z) <= 0.0
    ensures v > 0.0 ==> v == Overlap(b1, b2, X) * Overlap(b1, b2, Y) * Overlap(b1, b2, Z)
  {
    var w := Overlap(b1, b2, X);
    var h := Overlap(b1, b2, Y);
    var d := Overlap(b1, b2, Z);
    if w <= 0.0 || h <= 0.0 || d <= 0.0 then 0.0
    else
      PositiveProduct(w, h, d);
      w * h * d
  }

  lemma PositiveProduct(a: real, b: real, c: real)
    requires a > 0.0 && b > 0.0 && c > 0.0
    ensures a * b * c > 0.0
  {
    assert a * b > 0.0;
  }

  /** The intersection volume does not depend on the order of the boxes. */
  lemma IntersectionVolumeSymmetric(b1: BoundingBoxXYZ, b2: BoundingBoxXYZ)
    ensures IntersectionVolume(b1, b2) == IntersectionVolume(b2, b1)
  {
    assert forall a: Axis :: Overlap(b1, b2, a) == Overlap(b2, b1, a);
  }

  /** A box with non-negative extents meets no other box in more than its own
      volume. */
  lemma IntersectionVolumeAtMostVolume(b1: BoundingBoxXYZ, b2: BoundingBoxXYZ)
    requires b1.width >= 0.0 && b1.height >= 0.0 && b1.depth >= 0.0
    ensures IntersectionVolume(b1, b2) <= Volume(b1)
  {
    OverlapAtMostExtent(b1, b2, X);
    OverlapAtMostExtent(b1, b2, Y);
    OverlapAtMostExtent(b1, b2, Z);
    VolumeBound(IntersectionVolume(b1, b2), Overlap(b1, b2, X), Overlap(b1, b2, Y), Overlap(b1, b2, Z),
                b1.width, b1.height, b1.depth);
  }

  /** A positive product of three sides, each at most the matching side of a
      box, is at most the box's volume; zero is at most any such volume. */
  lemma VolumeBound(v: real, ox: real, oy: real, oz: real, w: real, h: real, d: real)
    requires w >= 0.0 && h >= 0.0 && d >= 0.0 && v >= 0.0
    requires v > 0.0 ==> 0.0 < ox <= w && 0.0 < oy <= h && 0.0 < oz <= d && v == ox * oy * oz
    ensures v <= w * h * d
  {
    if v > 0.0 {
      ProductMonotone(ox, oy, oz, w, h, d);
    } else {
      NonNegativeProduct(w, h, d);
    }
  }

  /** The overlap of two boxes along an axis is no longer than either box. */
  lemma OverlapAtMostExtent(b1: BoundingBoxXYZ, b2: BoundingBoxXYZ, a: Axis)
    ensures Overlap(b1, b2, a) <= Extent(b1, a)
  {
  }

  lemma NonNegativeProduct(a: real, b: real, c: real)
    requires a >= 0.0 && b >= 0.0 && c >= 0.0
    ensures a * b * c >= 0.0
  {
    assert a * b >= 0.0;
  }

  lemma ProductMonotone(a: real, b: real, c: real, a': real, b': real, c': real)
    requires 0.0 < a <= a' && 0.0 < b <= b' && 0.0 < c <= c'
    ensures a * b * c <= a' * b' * c'
  {
    assert a * b <= a' * b;
    assert a' * b <= a' * b';
    assert (a * b) * c <= (a' * b') * c;
    assert (a' * b') * c <= (a' * b') * c';
  }
}

=== FILE: pipeline.dfy ===
/**
  `detect`: the engine's matches (already filtered and sorted by the
  engine, which is not part of this model) are projected to 3D, refined
  along depth, clustered with the 3D translation threshold without keeping
  templates apart, and sorted by response.
*/
module Pipeline {
  import opened Records
  import opened Recognizer
  import opened Projection
  import opened DepthRefinement
  import opened Clustering
  import opened DetectionSort

  /** The projected and refined detections, one per match. */
  function Refine3D<S>(r: LineRgbd<S>, regionOf: S -> RegionXY, scene: Cloud, matches: seq<LinemodDetection>): (ds: seq<Detection>)
    requires forall m | m in matches :: Projectable(r, regionOf, scene, m)
    requires forall i | 0 <= i < |matches| :: Refinable(scene, Project(r, regionOf, scene, matches[i], i))
    ensures |ds| == |matches|
    ensures forall i | 0 <= i < |ds| :: ds[i] == Refined(scene, Project(r, regionOf, scene, matches[i], i))
    ensures forall i | 0 <= i < |ds| :: ds[i].response == matches[i].score && ds[i].detectionId == i
  {
    seq(|matches|, i requires 0 <= i < |matches| => Refined(scene, Project(r, regionOf, scene, matches[i], i)))
  }

  /** What `detect` assumes: every match can be projected and refined, and
      when clustering is on every score is positive. */
  predicate Detectable<S>(r: LineRgbd<S>, regionOf: S -> RegionXY, scene: Cloud, matches: seq<LinemodDetection>) {
    && (forall m | m in matches :: Projectable(r, regionOf, scene, m))
    && (forall i | 0 <= i < |matches| :: Refinable(scene, Project(r, regionOf, scene, matches[i], i)))
    && (r.translationClusteringThreshold3d > 0 ==> forall i | 0 <= i < |matches| :: matches[i].score > 0.0)
  }

  /** `detect` after the engine: convert, refine, cluster, sort. */
  method Detect<S>(r: LineRgbd<S>, regionOf: S -> RegionXY, scene: Cloud, matches: seq<LinemodDetection>)
    returns (detections: seq<Detection>)
    requires Detectable(r, regionOf, scene, matches)
    ensures NonIncreasing(detections)
    ensures var refined := Refine3D(r, regionOf, scene, matches);
            multiset(detections) == multiset(RemoveOverlapping(refined, r.translationClusteringThreshold3d, false))
    ensures |detections| <= |matches|
    ensures r.translationClusteringThreshold3d == 0 ==> |detections| == |matches|
  {
    var projected := ConvertDetectionsTo3D(r, regionOf, scene, matches);
    var refined := RefineDetectionsAlongDepth(scene, projected);
    assert refined == Refine3D(r, regionOf, scene, matches);
    var clustered := RemoveOverlapping(refined, r.translationClusteringThreshold3d, false);
    detections := Sort(clustered);
    assert |detections| == |multiset(detections)| == |clustered|;
  }

  /** With the constructor's thresholds the 3D clustering is a no-op: the
      result of `detect` is every refined detection, sorted by response,
      and exactly the refined detections when they arrive sorted. */
  lemma FreshRecognizerKeepsEveryDetection<S>(regionOf: S -> RegionXY, scene: Cloud, matches: seq<LinemodDetection>)
    requires Detectable(Fresh<S>(), regionOf, scene, matches)
    ensures var refined := Refine3D(Fresh<S>(), regionOf, scene, matches);
            var out := Sort(RemoveOverlapping(refined, Fresh<S>().translationClusteringThreshold3d, false));
            && multiset(out) == multiset(refined)
            && (NonIncreasing(refined) ==> out == refined)
  {
    var refined := Refine3D(Fresh<S>(), regionOf, scene, matches);
    if NonIncreasing(refined) {
      SortKeepsSorted(refined);
    }
  }
}

=== FILE: projection.dfy ===
/**
  `convertDetectionsTo3D`: every 2D match of the LINEMOD engine becomes a 3D
  detection whose box is the template's box moved to the mean of the finite
  scene points under the match's (scaled) template region.
*/
module Projection {
  import opened RowMajor
  import opened Records
  import opened Geometry
  import opened Recognizer

  /** `LINEMODDetection`: a match of template `templateId` at (x, y). */
  datatype LinemodDetection = LinemodDetection(x: int, y: int, templateId: nat, score: real, scale: real)

  /** The pixel window [x0, x1) x [y0, y1) of the row and column loops; it is
      empty along an axis whose start is not below its end. */
  datatype Window = Window(x0: nat, x1: nat, y0: nat, y1: nat) {
    function Width(): nat {
      if x0 <= x1 then x1 - x0 else 0
    }

    function Height(): nat {
      if y0 <= y1 then y1 - y0 else 0
    }

    predicate Contains(x: nat, y: nat) {
      x0 <= x < x1 && y0 <= y < y1
    }

    predicate FitsIn(scene: Cloud) {
      x1 <= scene.width && y1 <= scene.height
    }
  }

  /** The points of row y of the window, left to right. */
  function RowPoints(scene: Cloud, w: Window, y: nat): (r: seq<Point>)
    requires scene.Organized() && w.FitsIn(scene) && y < scene.height
    ensures |r| == w.Width()
    ensures forall x: nat | w.x0 <= x < w.x1 :: r[x - w.x0] == scene.At(x, y)
  {
    seq(w.Width(), j requires 0 <= j < w.Width() => scene.At(w.x0 + j, y))
  }

  /** The points of the rows y0 .. yEnd-1 of the window in the order the
      loops visit them: row by row, left to right. */
  function RowsPoints(scene: Cloud, w: Window, yEnd: nat): (r: seq<Point>)
    requires scene.Organized() && w.FitsIn(scene) && yEnd <= scene.height
    decreases yEnd
  {
    if yEnd <= w.y0 then [] else RowsPoints(scene, w, yEnd - 1) + RowPoints(scene, w, yEnd - 1)
  }

  /** The points of the window: every row from y0 up to y1. */
  function WindowPoints(scene: Cloud, w: Window): (r: seq<Point>)
    requires scene.Organized() && w.FitsIn(scene)
  {
    RowsPoints(scene, w, w.y1)
  }

  /** A window with one finite point has that point as its mean. */
  lemma {:induction false} SingleFiniteRows(scene: Cloud, w: Window, yEnd: nat, px: nat, py: nat)
    requires scene.Organized() && w.FitsIn(scene) && yEnd <= w.y1
    requires w.Contains(px, py) && scene.At(px, py).finite
    requires forall y: nat, x: nat | w.Contains(x, y) && (x != px || y != py) :: !scene.At(x, y).finite
    ensures FiniteCount(RowsPoints(scene, w, yEnd)) == (if py < yEnd then 1 else 0)
    ensures forall a: Axis :: Sum(RowsPoints(scene, w, yEnd), a) == (if py < yEnd then Coord(scene.At(px, py), a) else 0.0)
  {
    if yEnd > w.y0 {
      var y := yEnd - 1;
      SingleFiniteRows(scene, w, y, px, py);
      RowsStep(scene, w, yEnd);
      SingleFiniteRow(scene, w, y, px, py);
    }
  }

  /** Row y of the window holds the one finite point when it is row py and
      none otherwise. */
  lemma SingleFiniteRow(scene: Cloud, w: Window, y: nat, px: nat, py: nat)
    requires scene.Organized() && w.FitsIn(scene) && w.y0 <= y < w.y1
    requires w.Contains(px, py) && scene.At(px, py).finite
    requires forall y: nat, x: nat | w.Contains(x, y) && (x != px || y != py) :: !scene.At(x, y).finite
    ensures FiniteCount(RowPoints(scene, w, y)) == (if y == py then 1 else 0)
    ensures forall a: Axis :: Sum(RowPoints(scene, w, y), a) == (if y == py then Coord(scene.At(px, py), a) else 0.0)
  {
    if y == py {
      PointRow(scene, w, y, px);
    } else {
      EmptyRow(scene, w, y);
    }
  }

  /** A window row whose only finite point is at column px. */
  lemma PointRow(scene: Cloud, w: Window, y: nat, px: nat)
    requires scene.Organized() && w.FitsIn(scene) && y < scene.height
    requires w.x0 <= px < w.x1 && scene.At(px, y).finite
    requires forall x: nat | w.x0 <= x < w.x1 && x != px :: !scene.At(x, y).finite
    ensures FiniteCount(RowPoints(scene, w, y)) == 1
    ensures forall a: Axis :: Sum(RowPoints(scene, w, y), a) == Coord(scene.At(px, y), a)
  {
    var row := RowPoints(scene, w, y);
    forall j | 0 <= j < |row| && j != px - w.x0
      ensures !row[j].finite
    {
      assert row[j] == scene.At(w.x0 + j, y);
    }
    assert row[px - w.x0] == scene.At(px, y);
    SingleFiniteSums(row, px - w.x0);
  }

  /** A window row without a finite point. */
  lemma EmptyRow(scene: Cloud, w: Window, y: nat)
    requires scene.Organized() && w.FitsIn(scene) && y < scene.height
    requires forall x: nat | w.x0 <= x < w.x1 :: !scene.At(x, y).finite
    ensures FiniteCount(RowPoints(scene, w, y)) == 0
    ensures forall a: Axis :: Sum(RowPoints(scene, w, y), a) == 0.0
  {
    var row := RowPoints(scene, w, y);
    forall j | 0 <= j < |row|
      ensures !row[j].finite
    {
      assert row[j] == scene.At(w.x0 + j, y);
    }
    NoFinitePoints(row);
  }

  /** Counts and sums over the rows up to yEnd add up row by row. */
  lemma RowsStep(scene: Cloud, w: Window, yEnd: nat)
    requires scene.Organized() && w.FitsIn(scene) && w.y0 < yEnd <= scene.height
    ensures FiniteCount(RowsPoints(scene, w, yEnd))
            == FiniteCount(RowsPoints(scene, w, yEnd - 1)) + FiniteCount(RowPoints(scene, w, yEnd - 1))
    ensures forall a: Axis ::
              Sum(RowsPoints(scene, w, yEnd), a) == Sum(RowsPoints(scene, w, yEnd - 1), a) + Sum(RowPoints(scene, w, yEnd - 1), a)
  {
    ConcatCounts(RowsPoints(scene, w, yEnd - 1), RowPoints(scene, w, yEnd - 1));
  }

  /** A template size scaled by a match's scale and truncated to pixels. */
  function Scaled(size: int, scale: real): (n: int)
    requires size >= 0 && scale >= 0.0
    ensures n >= 0
    ensures n as real <= size as real * scale < n as real + 1.0
  {
    var v := size as real * scale;
    assert v >= 0.0 by { ProductNonNegative(size as real, scale); }
    Trunc(v)
  }

  /** The end of the source's loop: start plus scaled size, truncated as a
      whole. */
  function End(start: nat, size: int, scale: real): (e: int)
    requires size >= 0 && scale >= 0.0
    ensures e == start + Scaled(size, scale)
  {
    var v := size as real * scale;
    assert v >= 0.0 by { ProductNonNegative(size as real, scale); }
    TruncShift(start, v);
    Trunc(start as real + v)
  }

  /** Truncating after a whole shift is shifting after truncating. */
  lemma TruncShift(k: nat, v: real)
    requires v >= 0.0
    ensures Trunc(k as real + v) == k + Trunc(v)
  {
  }

  lemma ProductNonNegative(a: real, b: real)
    requires a >= 0.0 && b >= 0.0
    ensures a * b >= 0.0
  {
  }

  /** The window of the projection: from the clamped corner, the template
      region scaled by the match's scale, cut at the scene's border. */
  function ProjectionWindow(scene: Cloud, m: LinemodDetection, region: RegionXY): (w: Window)
    requires m.scale >= 0.0 && region.width >= 0 && region.height >= 0
    ensures w.FitsIn(scene)
    ensures w.x0 == (if m.x < 0 then 0 else m.x) && w.y0 == (if m.y < 0 then 0 else m.y)
    ensures w.x1 <= w.x0 + Scaled(region.width, m.scale) && w.y1 <= w.y0 + Scaled(region.height, m.scale)
    ensures w.x1 == w.x0 + Scaled(region.width, m.scale) || w.x1 == scene.width
    ensures w.y1 == w.y0 + Scaled(region.height, m.scale) || w.y1 == scene.height
  {
    var x0: nat := if m.x < 0 then 0 else m.x;
    var y0: nat := if m.y < 0 then 0 else m.y;
    var xEnd := End(x0, region.width, m.scale);
    var yEnd := End(y0, region.height, m.scale);
    Window(x0, if xEnd < scene.width then xEnd else scene.width,
           y0, if yEnd < scene.height then yEnd else scene.height)
  }

  /** What the source assumes of a match: its template exists in every
      collection, the scale and the template region are not negative, and
      the window holds a finite scene point (the source divides by their
      number). */
  predicate Projectable<S>(r: LineRgbd<S>, regionOf: S -> RegionXY, scene: Cloud, m: LinemodDetection) {
    && scene.Organized()
    && m.templateId < |r.objectIds| && m.templateId < |r.boundingBoxes| && m.templateId < |r.signatures|
    && m.scale >= 0.0
    && regionOf(r.signatures[m.templateId]).width >= 0 && regionOf(r.signatures[m.templateId]).height >= 0
    && HasFinite(WindowPoints(scene, ProjectionWindow(scene, m, regionOf(r.signatures[m.templateId]))))
  }

  /** The detection made of the i-th match: its template, object and score;
      its region is the match position with the scaled template size; its
      box is the template box moved by the mean of the window's finite
      points. */
  function Project<S>(r: LineRgbd<S>, regionOf: S -> RegionXY, scene: Cloud, m: LinemodDetection, i: nat): (d: Detection)
    requires Projectable(r, regionOf, scene, m)
    ensures d.templateId == m.templateId && d.detectionId == i && d.response == m.score
    ensures d.objectId == r.TemplateObjectId(m.templateId)
    ensures var region := regionOf(r.signatures[m.templateId]);
            d.region == RegionXY(m.x, m.y, Scaled(region.width, m.scale), Scaled(region.height, m.scale))
    ensures var mean := Mean(WindowPoints(scene, ProjectionWindow(scene, m, regionOf(r.signatures[m.templateId]))));
            forall a: Axis ::
              && Extent(d.boundingBox, a) == Extent(r.TemplateBBox(m.templateId), a)
              && Low(d.boundingBox, a) == Low(r.TemplateBBox(m.templateId), a) + Coord(mean, a)
  {
    var region := regionOf(r.signatures[m.templateId]);
    var center := Mean(WindowPoints(scene, ProjectionWindow(scene, m, region)));
    var box := r.boundingBoxes[m.templateId];
    Detection(
      m.templateId,
      r.objectIds[m.templateId],
      i,
      m.score,
      box.(x := box.x + center.x, y := box.y + center.y, z := box.z + center.z),
      RegionXY(m.x, m.y, Scaled(region.width, m.scale), Scaled(region.height, m.scale)))
  }

  /** `convertDetectionsTo3D`: one detection per match, in order, numbered by
      position. */
  function ConvertDetectionsTo3D<S>(r: LineRgbd<S>, regionOf: S -> RegionXY, scene: Cloud,
                                    matches: seq<LinemodDetection>): (ds: seq<Detection>)
    requires forall m | m in matches :: Projectable(r, regionOf, scene, m)
    ensures |ds| == |matches|
    ensures forall i | 0 <= i < |ds| :: ds[i] == Project(r, regionOf, scene, matches[i], i)
    ensures forall i | 0 <= i < |ds| :: ds[i].detectionId == i && ds[i].templateId == matches[i].templateId
  {
    seq(|matches|, i requires 0 <= i < |matches| => Project(r, regionOf, scene, matches[i], i))
  }

  /** When a single finite scene point lies in the window, the mean of the
      window's finite points is that point. */
  lemma SinglePointMean(scene: Cloud, w: Window, px: nat, py: nat)
    requires scene.Organized() && w.FitsIn(scene)
    requires w.Contains(px, py) && scene.At(px, py).finite
    requires forall y: nat, x: nat | w.Contains(x, y) && (x != px || y != py) :: !scene.At(x, y).finite
    ensures HasFinite(WindowPoints(scene, w))
    ensures var p := scene.At(px, py); Mean(WindowPoints(scene, w)) == FinitePoint(p.x, p.y, p.z)
  {
    var pts := WindowPoints(scene, w);
    SingleFiniteRows(scene, w, w.y1, px, py);
    FiniteCountPositive(pts);
    MeanFromSums(pts, scene.At(px, py));
  }

  /** When a single finite scene point lies in the window, the detection's
      box is the template box with its corner moved by that point. */
  lemma SinglePointPlacesTemplateBox<S>(r: LineRgbd<S>, regionOf: S -> RegionXY, scene: Cloud,
                                        m: LinemodDetection, i: nat, px: nat, py: nat)
    requires scene.Organized()
    requires m.templateId < |r.objectIds| && m.templateId < |r.boundingBoxes| && m.templateId < |r.signatures|
    requires m.scale >= 0.0
    requires regionOf(r.signatures[m.templateId]).width >= 0 && regionOf(r.signatures[m.templateId]).height >= 0
    requires var w := ProjectionWindow(scene, m, regionOf(r.signatures[m.templateId]));
             && w.Contains(px, py) && scene.At(px, py).finite
             && forall y: nat, x: nat | w.Contains(x, y) && (x != px || y != py) :: !scene.At(x, y).finite
    ensures Projectable(r, regionOf, scene, m)
    ensures var d := Project(r, regionOf, scene, m, i);
            var p := scene.At(px, py);
            var t := r.TemplateBBox(m.templateId);
            d.boundingBox == BoundingBoxXYZ(t.x + p.x, t.y + p.y, t.z + p.z, t.width, t.height, t.depth)
  {
    var w := ProjectionWindow(scene, m, regionOf(r.signatures[m.templateId]));
    SinglePointMean(scene, w, px, py);
    var d := Project(r, regionOf, scene, m, i);
    var t := r.TemplateBBox(m.templateId);
    var p := scene.At(px, py);
    assert Low(d.boundingBox, X) == t.x + p.x;
    assert Low(d.boundingBox, Y) == t.y + p.y;
    assert Low(d.boundingBox, Z) == t.z + p.z;
    assert Extent(d.boundingBox, X) == t.width && Extent(d.boundingBox, Y) == t.height && Extent(d.boundingBox, Z) == t.depth;
  }
}

=== FILE: quantized_map.dfy ===
/**
  The quantized label map of the recognition module: a width x height grid of
  byte-sized bit fields, stored row-major in one flat sequence, so that cell
  (x, y) lives at index y * width + x.  Clients speak only of `At`, `Set`, `LoadRun` and `StoreRun`; the index
  arithmetic behind them is in `RowMajor`.
*/
module QuantizedMaps {
  import opened RowMajor

  datatype QuantizedMap = QuantizedMap(data: seq<bv8>, width: nat, height: nat) {

    /** The backing storage holds exactly one byte per cell. */
    predicate Valid() {
      |data| == width * height
    }

    /** The byte at column x of row y. */
    function At(x: nat, y: nat): bv8
      requires Valid() && x < width && y < height
    {
      IndexInRange(x, y, width, height);
      data[y * width + x]
    }

    /** Writes v into cell (x, y); every other cell keeps its byte. */
    function Set(x: nat, y: nat, v: bv8): (r: QuantizedMap)
      requires Valid() && x < width && y < height
      ensures r.Valid() && r.width == width && r.height == height
      ensures r.At(x, y) == v
      ensures forall yy: nat, xx: nat | yy < height && xx < width && (xx != x || yy != y) ::
                r.At(xx, yy) == At(xx, yy)
    {
      IndexInRange(x, y, width, height);
      var r := QuantizedMap(data[y * width + x := v], width, height);
      forall yy: nat, xx: nat | yy < height && xx < width && (xx != x || yy != y)
        ensures r.At(xx, yy) == At(xx, yy)
      {
        IndexInRange(xx, yy, width, height);
        if yy * width + xx == y * width + x {
          IndexInjective(xx, yy, x, y, width);
        }
      }
      r
    }

    /** The n bytes that start at cell (x, y) and stay inside row y, read
        through the flat storage as an unaligned wide load does. */
    function LoadRun(x: nat, y: nat, n: nat): (r: seq<bv8>)
      requires Valid() && x + n <= width && y < height
      ensures |r| == n
      ensures forall j | 0 <= j < n :: r[j] == At(x + j, y)
    {
      RunInRange(x, y, n, width, height);
      data[y * width + x .. y * width + x + n]
    }

    /** Overwrites the |block| bytes that start at cell (x, y) inside row y,
        as an unaligned wide store does; every other cell keeps its byte. */
    function StoreRun(x: nat, y: nat, block: seq<bv8>): (r: QuantizedMap)
      requires Valid() && x + |block| <= width && y < height
      ensures r.Valid() && r.width == width && r.height == height
      ensures forall yy: nat, xx: nat | yy < height && xx < width ::
                r.At(xx, yy) == if yy == y && x <= xx < x + |block| then block[xx - x] else At(xx, yy)
    {
      RunInRange(x, y, |block|, width, height);
      var p := y * width + x;
      var r := QuantizedMap(data[..p] + block + data[p + |block|..], width, height);
      forall yy: nat, xx: nat | yy < height && xx < width
        ensures r.At(xx, yy) == if yy == y && x <= xx < x + |block| then block[xx - x] else At(xx, yy)
      {
        IndexInRange(xx, yy, width, height);
        var q := yy * width + xx;
        SpliceAt(data, block, p, q);
        if yy == y && x <= xx < x + |block| {
          assert q == p + (xx - x);
        } else if p <= q < p + |block| {
          IndexInjective(xx, yy, x + (q - p), y, width);
        }
      }
      r
    }
  }

  /** A byte of a spliced sequence comes from the block inside the block's
      span and from the old sequence elsewhere. */
  lemma SpliceAt(data: seq<bv8>, block: seq<bv8>, p: nat, q: nat)
    requires p + |block| <= |data| && q < |data|
    ensures |data[..p] + block + data[p + |block|..]| == |data|
    ensures (data[..p] + block + data[p + |block|..])[q] == if p <= q < p + |block| then block[q - p] else data[q]
  {
  }

  /** The default-constructed map: 0 x 0 with no storage. */
  function Empty(): (m: QuantizedMap)
    ensures m.Valid() && m.width == 0 && m.height == 0 && |m.data| == 0
  {
    QuantizedMap([], 0, 0)
  }

  /** The sized constructor: w * h zero bytes. */
  function Sized(w: nat, h: nat): (m: QuantizedMap)
    ensures m.Valid() && m.width == w && m.height == h
    ensures forall y: nat, x: nat | y < h && x < w :: m.At(x, y) == 0
  {
    var m := QuantizedMap(seq(w * h, _ => 0), w, h);
    forall y: nat, x: nat | y < h && x < w
      ensures m.At(x, y) == 0
    {
      IndexInRange(x, y, w, h);
    }
    m
  }

  /** The copy constructor: inserts the source's bytes into empty storage and
      takes its dimensions. */
  function CopyOf(m: QuantizedMap): (r: QuantizedMap)
    ensures r == m
  {
    QuantizedMap([] + m.data, m.width, m.height)
  }

  /** `resize`: the storage is resized to w * h the way a vector is (a prefix of
      the old bytes survives, new bytes are zero), then the dimensions are set. */
  function Resize(m: QuantizedMap, w: nat, h: nat): (r: QuantizedMap)
    ensures r.Valid() && r.width == w && r.height == h
    ensures forall i | 0 <= i < |r.data| && i < |m.data| :: r.data[i] == m.data[i]
    ensures forall i | |m.data| <= i < |r.data| :: r.data[i] == 0
  {
    if w * h <= |m.data| then QuantizedMap(m.data[..w * h], w, h)
    else QuantizedMap(m.data + seq(w * h - |m.data|, _ => 0), w, h)
  }

  /** A map built cell by cell from f; the reference definitions of the
      spreading kernel are written with it. */
  function Build(w: nat, h: nat, f: (nat, nat) -> bv8): (m: QuantizedMap)
    ensures m.Valid() && m.width == w && m.height == h
    ensures forall y: nat, x: nat | y < h && x < w :: m.At(x, y) == f(x, y)
  {
    if w == 0 then QuantizedMap([], w, h)
    else
      var m := QuantizedMap(seq(w * h, i requires 0 <= i => f(i % w, i / w)), w, h);
      forall y: nat, x: nat | y < h && x < w
        ensures m.At(x, y) == f(x, y)
      {
        IndexInRange(x, y, w, h);
        IndexDivMod(x, y, w);
      }
      m
  }

  /** Two valid maps of the same size that agree on every cell are equal. */
  lemma {:induction false} CellwiseEqual(a: QuantizedMap, b: QuantizedMap)
    requires a.Valid() && b.Valid() && a.width == b.width && a.height == b.height
    requires forall y: nat, x: nat | y < a.height && x < a.width :: a.At(x, y) == b.At(x, y)
    ensures a == b
  {
    var w := a.width;
    forall i | 0 <= i < |a.data|
      ensures a.data[i] == b.data[i]
    {
      var x, y := i % w, i / w;
      assert i == y * w + x;
      if y >= a.height {
        MulLeMono(a.height, y, w);
        assert false;
      }
      assert a.At(x, y) == b.At(x, y);
    }
  }
}

=== FILE: recognizer.dfy ===
/**
  The state of `LineRGBD` that the recognition steps read and write: the
  four tuning thresholds and the template collections.  The LINEMOD
  engine's own template list is kept as `signatures`, a sequence of an
  opaque signature type S; the engine itself is not part of this model.
*/
module Recognizer {
  import opened Records
  import opened Geometry
  import opened Wrappers

  datatype LineRgbd<S> = LineRgbd(
    intersectionVolumeThreshold: real,
    translationClusteringThreshold2d: nat,
    translationClusteringThreshold3d: nat,
    rotationClusteringThreshold: real,
    templateClouds: seq<Cloud>,
    boundingBoxes: seq<BoundingBoxXYZ>,
    objectIds: seq<nat>,
    signatures: seq<S>)
  {
    /** Every template cloud has its box. */
    predicate BoxesAligned() {
      |boundingBoxes| == |templateClouds|
    }

    /** All four template collections are index-aligned. */
    predicate Aligned() {
      |boundingBoxes| == |templateClouds| == |objectIds| == |signatures|
    }

    /** `getTemplateCloud`. */
    function TemplateCloud(templateId: int): (c: Cloud)
      requires 0 <= templateId < |templateClouds|
      ensures c == templateClouds[templateId]
    {
      templateClouds[templateId]
    }

    /** `getTemplateBBox`. */
    function TemplateBBox(templateId: int): (b: BoundingBoxXYZ)
      requires 0 <= templateId < |boundingBoxes|
      ensures b == boundingBoxes[templateId]
    {
      boundingBoxes[templateId]
    }

    /** `getTemplateObjectID`. */
    function TemplateObjectId(templateId: int): (id: nat)
      requires 0 <= templateId < |objectIds|
      ensures id == objectIds[templateId]
    {
      objectIds[templateId]
    }
  }

  /** The constructor: intersection threshold 1, every clustering threshold 0,
      no templates. */
  function Fresh<S>(): (r: LineRgbd<S>)
    ensures r.intersectionVolumeThreshold == 1.0
    ensures r.translationClusteringThreshold2d == 0 && r.translationClusteringThreshold3d == 0
    ensures r.rotationClusteringThreshold == 0.0
    ensures r.Aligned() && |r.templateClouds| == 0
  {
    LineRgbd(1.0, 0, 0, 0.0, [], [], [], [])
  }

  /** `setIntersectionVolumeThreshold`: only that threshold changes. */
  function SetIntersectionVolumeThreshold<S>(r: LineRgbd<S>, threshold: real): (r': LineRgbd<S>)
    ensures r'.intersectionVolumeThreshold == threshold
    ensures r'.translationClusteringThreshold2d == r.translationClusteringThreshold2d
    ensures r'.translationClusteringThreshold3d == r.translationClusteringThreshold3d
    ensures r'.rotationClusteringThreshold == r.rotationClusteringThreshold
    ensures r'.templateClouds == r.templateClouds && r'.boundingBoxes == r.boundingBoxes
    ensures r'.objectIds == r.objectIds && r'.signatures == r.signatures
  {
    r.(intersectionVolumeThreshold := threshold)
  }

  /** `setClusteringThresholds`: stores its three arguments and nothing else. */
  function SetClusteringThresholds<S>(r: LineRgbd<S>, translation2d: nat, translation3d: nat, rotation: real): (r': LineRgbd<S>)
    ensures r'.translationClusteringThreshold2d == translation2d
    ensures r'.translationClusteringThreshold3d == translation3d
    ensures r'.rotationClusteringThreshold == rotation
    ensures r'.intersectionVolumeThreshold == r.intersectionVolumeThreshold
    ensures r'.templateClouds == r.templateClouds && r'.boundingBoxes == r.boundingBoxes
    ensures r'.objectIds == r.objectIds && r'.signatures == r.signatures
  {
    r.(translationClusteringThreshold2d := translation2d,
       translationClusteringThreshold3d := translation3d,
       rotationClusteringThreshold := rotation)
  }

  /** `std::vector::resize`: a prefix of the old elements survives and the
      new ones are copies of the default value d. */
  function ResizeSeq<T>(s: seq<T>, n: nat, d: T): (r: seq<T>)
    ensures |r| == n
    ensures forall i | 0 <= i < n && i < |s| :: r[i] == s[i]
    ensures forall i | |s| <= i < n :: r[i] == d
  {
    if n <= |s| then s[..n] else s + seq(n - |s|, _ => d)
  }

  /** `resizeTemplates`: all four collections get length n, so they are
      index-aligned afterwards.  `blank` is the engine's default template. */
  function ResizeTemplates<S>(r: LineRgbd<S>, n: nat, blank: S): (r': LineRgbd<S>)
    ensures r'.Aligned() && |r'.templateClouds| == n
    ensures forall i | 0 <= i < n && i < |r.templateClouds| :: r'.templateClouds[i] == r.templateClouds[i]
    ensures forall i | 0 <= i < n && i < |r.boundingBoxes| :: r'.boundingBoxes[i] == r.boundingBoxes[i]
    ensures forall i | 0 <= i < n && i < |r.objectIds| :: r'.objectIds[i] == r.objectIds[i]
    ensures forall i | 0 <= i < n && i < |r.signatures| :: r'.signatures[i] == r.signatures[i]
    ensures forall i | |r.templateClouds| <= i < n :: r'.templateClouds[i] == EmptyCloud()
    ensures forall i | |r.boundingBoxes| <= i < n :: r'.boundingBoxes[i] == DefaultBoundingBox()
    ensures forall i | |r.objectIds| <= i < n :: r'.objectIds[i] == 0
    ensures forall i | |r.signatures| <= i < n :: r'.signatures[i] == blank
    ensures r'.intersectionVolumeThreshold == r.intersectionVolumeThreshold
    ensures r'.translationClusteringThreshold2d == r.translationClusteringThreshold2d
    ensures r'.translationClusteringThreshold3d == r.translationClusteringThreshold3d
    ensures r'.rotationClusteringThreshold == r.rotationClusteringThreshold
  {
    r.(objectIds := ResizeSeq(r.objectIds, n, 0),
       boundingBoxes := ResizeSeq(r.boundingBoxes, n, DefaultBoundingBox()),
       templateClouds := ResizeSeq(r.templateClouds, n, EmptyCloud()),
       signatures := ResizeSeq(r.signatures, n, blank))
  }

  /** A template cloud after its box has been computed: the box and the
      cloud moved so that the mean of its finite points is the origin. */
  datatype Centered = Centered(box: BoundingBoxXYZ, cloud: Cloud)

  /** The box computation and mean subtraction that `addTemplate` and
      `loadTemplates` run on a template cloud.  A cloud without finite
      points keeps its points and gets the all-zero box (the source divides
      zero by zero there). */
  function Recenter(c: Cloud): (r: Centered)
    ensures r.cloud.width == c.width && r.cloud.height == c.height
    ensures HasFinite(c.points) ==>
              r.box == ComputeAabb(c.points).value.box
              && r.cloud.points == SubtractMean(c.points, Mean(c.points))
              && forall a: Axis :: Sum(r.cloud.points, a) == 0.0
    ensures !HasFinite(c.points) ==> r == Centered(DefaultBoundingBox(), c)
  {
    match ComputeAabb(c.points)
    case None => Centered(DefaultBoundingBox(), c)
    case Some(aabb) =>
      forall a: Axis
        ensures Sum(SubtractMean(c.points, aabb.mean), a) == 0.0
      {
        RecenteredMeanIsZero(c.points, a);
      }
      Centered(aabb.box, c.(points := SubtractMean(c.points, aabb.mean)))
  }

  /** Recentering a recentered cloud changes nothing: its mean is already the
      origin and its box does not move with the points.  This is why
      recomputing every box at the end of `loadTemplates` keeps templates
      that were added earlier. */
  lemma RecenterIdempotent(c: Cloud)
    ensures Recenter(Recenter(c).cloud) == Recenter(c)
  {
    if HasFinite(c.points) {
      var p := c.points;
      var s := SubtractMean(p, Mean(p));
      AabbTranslationInvariant(p, Mean(p));
      RecenteredMeanIsOrigin(p);
      ShiftByOriginIsIdentity(s);
      assert ComputeAabb(s).value.mean == Mean(s);
    }
  }

  /** After a recentering the mean of the finite points is the origin. */
  lemma RecenteredMeanIsOrigin(p: seq<Point>)
    requires HasFinite(p)
    ensures HasFinite(SubtractMean(p, Mean(p)))
    ensures Mean(SubtractMean(p, Mean(p))) == FinitePoint(0.0, 0.0, 0.0)
  {
    var z := Mean(SubtractMean(p, Mean(p)));
    forall a: Axis
      ensures Coord(z, a) == 0.0
    {
      MeanAfterShift(p, Mean(p), a);
    }
    assert Coord(z, X) == 0.0 && Coord(z, Y) == 0.0 && Coord(z, Z) == 0.0;
  }

  lemma ShiftByOriginIsIdentity(s: seq<Point>)
    ensures SubtractMean(s, FinitePoint(0.0, 0.0, 0.0)) == s
  {
    var r := SubtractMean(s, FinitePoint(0.0, 0.0, 0.0));
    forall i | 0 <= i < |s|
      ensures r[i] == s[i]
    {
      if s[i].finite {
        assert Coord(r[i], X) == s[i].x && Coord(r[i], Y) == s[i].y && Coord(r[i], Z) == s[i].z;
      }
    }
  }

  /** `addTemplate`: appends the cloud, the signature and the object id,
      resizes the boxes to the number of clouds and fills in the box of the
      new (last) cloud, which is recentered. */
  function AddTemplate<S>(r: LineRgbd<S>, signature: S, cloud: Cloud, objectId: nat): (r': LineRgbd<S>)
    ensures r'.BoxesAligned() && |r'.templateClouds| == |r.templateClouds| + 1
    ensures r'.objectIds == r.objectIds + [objectId]
    ensures r'.signatures == r.signatures + [signature]
    ensures r'.templateClouds[..|r.templateClouds|] == r.templateClouds
    ensures r'.templateClouds[|r.templateClouds|] == Recenter(cloud).cloud
    ensures r'.boundingBoxes[|r.templateClouds|] == Recenter(cloud).box
    ensures forall i | 0 <= i < |r.templateClouds| && i < |r.boundingBoxes| :: r'.boundingBoxes[i] == r.boundingBoxes[i]
    ensures r.Aligned() ==> r'.Aligned()
  {
    var n := |r.templateClouds|;
    var centered := Recenter(cloud);
    var boxes := ResizeSeq(r.boundingBoxes, n + 1, DefaultBoundingBox());
    r.(templateClouds := r.templateClouds + [centered.cloud],
       signatures := r.signatures + [signature],
       objectIds := r.objectIds + [objectId],
       boundingBoxes := boxes[n := centered.box])
  }

  /** After `resizeTemplates` grows the collections, a template id past the
      old length reads an empty cloud, a box with its corner at the origin
      and no extent, and object id 0; ids below the old length read what
      they read before. */
  lemma ResizedTemplatesAreBlank<S>(r: LineRgbd<S>, n: nat, blank: S, id: nat)
    requires r.Aligned() && id < n
    ensures var r' := ResizeTemplates(r, n, blank);
            if id < |r.templateClouds| then
              && r'.TemplateCloud(id) == r.TemplateCloud(id)
              && r'.TemplateBBox(id) == r.TemplateBBox(id)
              && r'.TemplateObjectId(id) == r.TemplateObjectId(id)
            else
              && |r'.TemplateCloud(id).points| == 0
              && (forall a: Axis :: Low(r'.TemplateBBox(id), a) == 0.0 && Extent(r'.TemplateBBox(id), a) == 0.0)
              && r'.TemplateObjectId(id) == 0
  {
  }

  /** On an aligned recognizer the new template gets the next free id: the
      accessors at that id return the recentered cloud, its box and the
      object id, and every earlier id answers as before. */
  lemma AddedTemplateIsLast<S>(r: LineRgbd<S>, signature: S, cloud: Cloud, objectId: nat)
    requires r.Aligned()
    ensures var r' := AddTemplate(r, signature, cloud, objectId);
            var id := |r.templateClouds|;
            && r'.TemplateCloud(id) == Recenter(cloud).cloud
            && r'.TemplateBBox(id) == Recenter(cloud).box
            && r'.TemplateObjectId(id) == objectId
            && forall i | 0 <= i < id ::
                 r'.TemplateCloud(i) == r.TemplateCloud(i)
                 && r'.TemplateBBox(i) == r.TemplateBBox(i)
                 && r'.TemplateObjectId(i) == r.TemplateObjectId(i)
  {
    var r' := AddTemplate(r, signature, cloud, objectId);
    var id := |r.templateClouds|;
    forall i | 0 <= i < id
      ensures r'.TemplateCloud(i) == r.TemplateCloud(i)
    {
      assert r'.templateClouds[..id][i] == r.templateClouds[i];
    }
  }

  /** The box/cloud recomputation at the end of `loadTemplates`, over every
      template cloud. */
  function RecenterAll(clouds: seq<Cloud>): (r: seq<Centered>)
    ensures |r| == |clouds|
    ensures forall i | 0 <= i < |clouds| :: r[i] == Recenter(clouds[i])
  {
    seq(|clouds|, i requires 0 <= i < |clouds| => Recenter(clouds[i]))
  }
}

=== FILE: records.dfy ===
/**
  The plain records of `line_rgbd.h`: points with a finiteness flag per
  coordinate (the source tests `pcl_isfinite`), axis-aligned boxes, integer
  image regions, 3D detections and organized clouds.  Floats are modelled
  as `real`.
*/
module Records {
  import opened RowMajor

  /** A 3D point.  A coordinate whose flag is false is NaN or infinite, and
      its value is then meaningless. */
  datatype Point = Point(x: real, y: real, z: real, xFinite: bool, yFinite: bool, zFinite: bool) {
    /** All three coordinates are finite. */
    const finite: bool := xFinite && yFinite && zFinite
  }

  /** A point whose three coordinates are finite. */
  function FinitePoint(x: real, y: real, z: real): (p: Point)
    ensures p.finite && p.x == x && p.y == y && p.z == z
  {
    Point(x, y, z, true, true, true)
  }

  /** `BoundingBoxXYZ`: the corner (x, y, z) and the extents along each axis. */
  datatype BoundingBoxXYZ = BoundingBoxXYZ(x: real, y: real, z: real, width: real, height: real, depth: real)

  /** `RegionXY`: an integer pixel rectangle. */
  datatype RegionXY = RegionXY(x: int, y: int, width: int, height: int)

  /** `LineRGBD::Detection`. */
  datatype Detection = Detection(
    templateId: nat,
    objectId: nat,
    detectionId: nat,
    response: real,
    boundingBox: BoundingBoxXYZ,
    region: RegionXY)

  /** A cloud; an organized one holds width * height points row-major. */
  datatype Cloud = Cloud(points: seq<Point>, width: nat, height: nat) {
    predicate Organized() {
      |points| == width * height
    }

    /** The point at column x of row y, `cloud (x, y)`. */
    function At(x: nat, y: nat): Point
      requires Organized() && x < width && y < height
    {
      IndexInRange(x, y, width, height);
      points[y * width + x]
    }
  }

  datatype Axis = X | Y | Z

  function Coord(p: Point, a: Axis): real {
    match a
    case X => p.x
    case Y => p.y
    case Z => p.z
  }

  /** The corner coordinate of a box along an axis. */
  function Low(b: BoundingBoxXYZ, a: Axis): real {
    match a
    case X => b.x
    case Y => b.y
    case Z => b.z
  }

  /** The extent of a box along an axis. */
  function Extent(b: BoundingBoxXYZ, a: Axis): real {
    match a
    case X => b.width
    case Y => b.height
    case Z => b.depth
  }

  /** The C conversion of a float to an integer: truncation toward zero. */
  function Trunc(v: real): (n: int)
    ensures v >= 0.0 ==> n as real <= v < n as real + 1.0
    ensures v < 0.0 ==> n as real - 1.0 < v <= n as real
  {
    if v >= 0.0 then v.Floor else -((-v).Floor)
  }

  /** The C conversion of a signed integer to `size_t`: reduction modulo 2^64. */
  function ToSize(v: int): (n: nat)
    ensures n < 0x1_0000_0000_0000_0000
    ensures 0 <= v < 0x1_0000_0000_0000_0000 ==> n == v
    ensures -0x1_0000_0000_0000_0000 <= v < 0 ==> n == v + 0x1_0000_0000_0000_0000
  {
    v % 0x1_0000_0000_0000_0000
  }

  /** The default constructor of `BoundingBoxXYZ`: the corner sits at the
      origin and the box has no extent along any axis. */
  function DefaultBoundingBox(): (b: BoundingBoxXYZ)
    ensures forall a: Axis :: Low(b, a) == 0.0 && Extent(b, a) == 0.0
  {
    BoundingBoxXYZ(0.0, 0.0, 0.0, 0.0, 0.0, 0.0)
  }

  /** The default constructor of `Detection`: every id and the response are
      zero, the box is the default box and the region is the default
      `RegionXY`, all zero. */
  function DefaultDetection(): (d: Detection)
    ensures d.templateId == 0 && d.objectId == 0 && d.detectionId == 0 && d.response == 0.0
    ensures forall a: Axis :: Low(d.boundingBox, a) == 0.0 && Extent(d.boundingBox, a) == 0.0
    ensures d.region.x == 0 && d.region.y == 0 && d.region.width == 0 && d.region.height == 0
  {
    Detection(0, 0, 0, 0.0, DefaultBoundingBox(), RegionXY(0, 0, 0, 0))
  }

  /** The default-constructed cloud of a resized cloud vector. */
  function EmptyCloud(): Cloud {
    Cloud([], 0, 0)
  }
}

=== FILE: row_major.dfy ===
/**
  Row-major indexing of a width x height grid: cell (x, y) lives at index
  y * width + x.  The quantized maps and the organized point clouds share
  this layout; these lemmas are the only place its arithmetic is argued.
*/
module RowMajor {

  lemma MulLeMono(a: nat, b: nat, w: nat)
    requires a <= b
    ensures a * w <= b * w
  {
  }

  lemma IndexInRange(x: nat, y: nat, w: nat, h: nat)
    requires x < w && y < h
    ensures y * w + x < w * h
  {
    MulLeMono(y + 1, h, w);
  }

  lemma RunInRange(x: nat, y: nat, n: nat, w: nat, h: nat)
    requires x + n <= w && y < h
    ensures y * w + x + n <= w * h
  {
    MulLeMono(y + 1, h, w);
  }

  lemma IndexDivMod(x: nat, y: nat, w: nat)
    requires x < w
    ensures (y * w + x) % w == x && (y * w + x) / w == y
  {
    var i := y * w + x;
    assert i == (i / w) * w + i % w;
    IndexInjective(x, y, i % w, i / w, w);
  }

  lemma IndexInjective(x: nat, y: nat, x': nat, y': nat, w: nat)
    requires x < w && x' < w && y * w + x == y' * w + x'
    ensures x == x' && y == y'
  {
    if y < y' {
      MulLeMono(y + 1, y', w);
    } else if y' < y {
      MulLeMono(y' + 1, y, w);
    }
  }
}

=== FILE: spreading.dfy ===
/**
  `QuantizedMap::spreadQuantizedMap`: a separable sliding-window OR.  A
  horizontal pass ORs s adjacent bytes of each row into a zeroed scratch map,
  shifted right by s / 2; a vertical pass ORs s scratch rows into the output,
  shifted down by s / 2.  Both passes run over the columns c < W - s - 1 and
  rows r < H - s - 1 only (the source's `col_index_max` and `row_index_max`).

  The reference definitions (`ScratchReference`, `SpreadReference`) say which
  byte every cell ends up with; the scalar methods and the AVX2 methods are
  each proved to produce exactly these maps, so the two paths agree.
*/
module Spreading {
  import opened QuantizedMaps

  /** The number of bytes one AVX2 register holds. */
  const Lanes: nat := 32

  function Half(s: nat): nat {
    s / 2
  }

  /** Exclusive bound of the columns both passes visit. */
  function ColIndexMax(m: QuantizedMap, s: nat): int {
    m.width - s - 1
  }

  /** Exclusive bound of the rows both passes visit. */
  function RowIndexMax(m: QuantizedMap, s: nat): int {
    m.height - s - 1
  }

  /** One bit field includes another when it has every bit the other has. */
  predicate Includes(a: bv8, b: bv8) {
    a | b == a
  }

  /** OR of the n bytes m(c .. c+n-1, r), accumulated left to right. */
  function RowOr(m: QuantizedMap, c: nat, r: nat, n: nat): (v: bv8)
    requires m.Valid() && c + n <= m.width && r < m.height
  {
    if n == 0 then 0 else RowOr(m, c, r, n - 1) | m.At(c + n - 1, r)
  }

  /** OR of the n bytes m(c, r .. r+n-1), accumulated top to bottom. */
  function ColOr(m: QuantizedMap, c: nat, r: nat, n: nat): (v: bv8)
    requires m.Valid() && c < m.width && r + n <= m.height
  {
    if n == 0 then 0 else ColOr(m, c, r, n - 1) | m.At(c, r + n - 1)
  }

  /** RowOr includes every byte of its window, and is included in every bit
      field that includes all of them: it is the window's bitwise OR. */
  lemma {:induction false} RowOrIsLeastCover(m: QuantizedMap, c: nat, r: nat, n: nat, u: bv8)
    requires m.Valid() && c + n <= m.width && r < m.height
    ensures forall x: nat | c <= x < c + n :: Includes(RowOr(m, c, r, n), m.At(x, r))
    ensures (forall x: nat | c <= x < c + n :: Includes(u, m.At(x, r))) ==> Includes(u, RowOr(m, c, r, n))
  {
    if n > 0 {
      RowOrIsLeastCover(m, c, r, n - 1, u);
    }
  }

  lemma {:induction false} ColOrIsLeastCover(m: QuantizedMap, c: nat, r: nat, n: nat, u: bv8)
    requires m.Valid() && c < m.width && r + n <= m.height
    ensures forall y: nat | r <= y < r + n :: Includes(ColOr(m, c, r, n), m.At(c, y))
    ensures (forall y: nat | r <= y < r + n :: Includes(u, m.At(c, y))) ==> Includes(u, ColOr(m, c, r, n))
  {
    if n > 0 {
      ColOrIsLeastCover(m, c, r, n - 1, u);
    }
  }

  /* ---------------------------------------------------------------------- */
  /* Reference definitions                                                   */
  /* ---------------------------------------------------------------------- */

  /** The scratch cell (x, y) is written by the horizontal pass. */
  predicate HorizontallyWritten(m: QuantizedMap, s: nat, x: nat, y: nat) {
    y < RowIndexMax(m, s) && Half(s) <= x && x - Half(s) < ColIndexMax(m, s)
  }

  /** The output cell (x, y) is written by the vertical pass. */
  predicate VerticallyWritten(m: QuantizedMap, s: nat, x: nat, y: nat) {
    x < ColIndexMax(m, s) && Half(s) <= y && y - Half(s) < RowIndexMax(m, s)
  }

  /** What the horizontal pass leaves in scratch cell (x, y). */
  function ScratchCell(input: QuantizedMap, s: nat, x: nat, y: nat): bv8 {
    if input.Valid() && HorizontallyWritten(input, s, x, y) then
      RowOr(input, x - Half(s), y, s)
    else
      0
  }

  function ScratchReference(input: QuantizedMap, s: nat): (t: QuantizedMap)
    ensures t.Valid() && t.width == input.width && t.height == input.height
  {
    Build(input.width, input.height, (x: nat, y: nat) => ScratchCell(input, s, x, y))
  }

  /** What the output cell (x, y) holds after both passes: written cells hold
      the OR of s scratch bytes below them, all others keep the byte that
      `resize` left there. */
  function OutputCell(input: QuantizedMap, output: QuantizedMap, s: nat, x: nat, y: nat): bv8 {
    var scratch := ScratchReference(input, s);
    var resized := Resize(output, input.width, input.height);
    if x < input.width && y < input.height then
      if VerticallyWritten(input, s, x, y) then ColOr(scratch, x, y - Half(s), s)
      else resized.At(x, y)
    else
      0
  }

  function SpreadReference(input: QuantizedMap, output: QuantizedMap, s: nat): (t: QuantizedMap)
    ensures t.Valid() && t.width == input.width && t.height == input.height
  {
    Build(input.width, input.height, (x: nat, y: nat) => OutputCell(input, output, s, x, y))
  }

  /* ---------------------------------------------------------------------- */
  /* Properties of the reference                                             */
  /* ---------------------------------------------------------------------- */

  /** Where a full s x s block of input lies above and left of a written cell,
      the output cell (c, r + s/2) is the bitwise OR of the input block whose
      top-left corner is (c - s/2, r): it includes every byte of the block and
      is included in every bit field that includes them all. */
  lemma {:induction false} SpreadIsBlockOr(input: QuantizedMap, output: QuantizedMap, s: nat,
                                           c: nat, r: nat, u: bv8)
    requires input.Valid()
    requires Half(s) <= c < ColIndexMax(input, s)
    requires r < RowIndexMax(input, s) && r + s <= RowIndexMax(input, s)
    ensures forall yy: nat, xx: nat | r <= yy < r + s && c - Half(s) <= xx < c - Half(s) + s ::
              Includes(SpreadReference(input, output, s).At(c, r + Half(s)), input.At(xx, yy))
    ensures (forall yy: nat, xx: nat | r <= yy < r + s && c - Half(s) <= xx < c - Half(s) + s ::
               Includes(u, input.At(xx, yy)))
            ==> Includes(u, SpreadReference(input, output, s).At(c, r + Half(s)))
  {
    var scratch := ScratchReference(input, s);
    var v := SpreadReference(input, output, s).At(c, r + Half(s));
    var c0 := c - Half(s);
    assert v == ColOr(scratch, c, r, s);
    ColOrIsLeastCover(scratch, c, r, s, u);
    forall yy: nat | r <= yy < r + s
      ensures forall xx: nat | c0 <= xx < c0 + s :: Includes(scratch.At(c, yy), input.At(xx, yy))
      ensures (forall xx: nat | c0 <= xx < c0 + s :: Includes(u, input.At(xx, yy))) ==> Includes(u, scratch.At(c, yy))
    {
      assert scratch.At(c, yy) == ScratchCell(input, s, c, yy) == RowOr(input, c0, yy, s);
      RowOrIsLeastCover(input, c0, yy, s, u);
    }
    forall yy: nat, xx: nat | r <= yy < r + s && c0 <= xx < c0 + s
      ensures Includes(v, input.At(xx, yy))
    {
      assert Includes(v, scratch.At(c, yy));
    }
  }

  /** Written output cells left of column s/2 are zero: the horizontal pass
      never writes the scratch columns they read. */
  lemma SpreadLeftBandIsZero(input: QuantizedMap, output: QuantizedMap, s: nat, x: nat, y: nat)
    requires input.Valid() && x < input.width && y < input.height
    requires VerticallyWritten(input, s, x, y) && x < Half(s)
    ensures SpreadReference(input, output, s).At(x, y) == 0
  {
    var scratch := ScratchReference(input, s);
    ColumnOfZerosOrsToZero(scratch, x, y - Half(s), s);
  }

  lemma {:induction false} ColumnOfZerosOrsToZero(m: QuantizedMap, c: nat, r: nat, n: nat)
    requires m.Valid() && c < m.width && r + n <= m.height
    requires forall y: nat | r <= y < r + n :: m.At(c, y) == 0
    ensures ColOr(m, c, r, n) == 0
  {
    if n > 0 {
      ColumnOfZerosOrsToZero(m, c, r, n - 1);
    }
  }

  /** Cells the vertical pass does not write keep the byte `resize` left in
      the output; when W <= s + 1 or H <= s + 1 no cell is written at all. */
  lemma SpreadUnwrittenCellsKeepResizedOutput(input: QuantizedMap, output: QuantizedMap, s: nat)
    requires input.Valid()
    ensures forall y: nat, x: nat | y < input.height && x < input.width && !VerticallyWritten(input, s, x, y) ::
              SpreadReference(input, output, s).At(x, y) == Resize(output, input.width, input.height).At(x, y)
    ensures input.width <= s + 1 || input.height <= s + 1 ==>
              SpreadReference(input, output, s) == Resize(output, input.width, input.height)
  {
    var t := SpreadReference(input, output, s);
    var resized := Resize(output, input.width, input.height);
    if input.width <= s + 1 || input.height <= s + 1 {
      CellwiseEqual(t, resized);
    }
  }

  /** With window size 1 there is no shift and the window is one byte, so
      every written cell is a copy of the input cell. */
  lemma SpreadWindowOneCopiesInput(input: QuantizedMap, output: QuantizedMap, x: nat, y: nat)
    requires input.Valid() && VerticallyWritten(input, 1, x, y)
    ensures x < input.width && y < input.height
    ensures SpreadReference(input, output, 1).At(x, y) == input.At(x, y)
  {
    var scratch := ScratchReference(input, 1);
    assert Half(1) == 0;
    assert SpreadReference(input, output, 1).At(x, y) == ColOr(scratch, x, y, 1);
    assert ColOr(scratch, x, y, 1) == 0 | scratch.At(x, y);
    assert scratch.At(x, y) == RowOr(input, x, y, 1);
    assert RowOr(input, x, y, 1) == 0 | input.At(x, y);
  }

  /* ---------------------------------------------------------------------- */
  /* The scalar kernel                                                        */
  /* ---------------------------------------------------------------------- */

  /** The innermost scalar loop: OR of s bytes walking right along row r. */
  method RowWindowOr(input: QuantizedMap, c: nat, r: nat, s: nat) returns (value: bv8)
    requires input.Valid() && c + s <= input.width && r < input.height
    ensures value == RowOr(input, c, r, s)
  {
    value := 0;
    var k := 0;
    while k < s
      invariant 0 <= k <= s
      invariant value == RowOr(input, c, r, k)
    {
      value := value | input.At(c + k, r);
      k := k + 1;
    }
  }

  /** The innermost scalar loop of the vertical pass: OR of s bytes walking
      down column c, one row stride at a time. */
  method ColWindowOr(m: QuantizedMap, c: nat, r: nat, s: nat) returns (value: bv8)
    requires m.Valid() && c < m.width && r + s <= m.height
    ensures value == ColOr(m, c, r, s)
  {
    value := 0;
    var k := 0;
    while k < s
      invariant 0 <= k <= s
      invariant value == ColOr(m, c, r, k)
    {
      value := value | m.At(c, r + k);
      k := k + 1;
    }
  }

  /** The horizontal pass into a freshly zeroed scratch map. */
  method HorizontalPass(input: QuantizedMap, s: nat) returns (tmp: QuantizedMap)
    requires input.Valid()
    ensures tmp == ScratchReference(input, s)
  {
    var half := Half(s);
    var colMax := ColIndexMax(input, s);
    var rowMax := RowIndexMax(input, s);
    tmp := Sized(input.width, input.height);
    var row := 0;
    while row < rowMax
      invariant 0 <= row && (row == 0 || row <= rowMax)
      invariant tmp.Valid() && tmp.width == input.width && tmp.height == input.height
      invariant forall y: nat, x: nat | y < input.height && x < input.width ::
                  tmp.At(x, y) == if y < row then ScratchCell(input, s, x, y) else 0
    {
      var col := 0;
      while col < colMax
        invariant 0 <= col && (col == 0 || col <= colMax)
        invariant tmp.Valid() && tmp.width == input.width && tmp.height == input.height
        invariant forall y: nat, x: nat | y < input.height && x < input.width ::
                    tmp.At(x, y) == if y < row || (y == row && x < half + col) then ScratchCell(input, s, x, y) else 0
      {
        var value := RowWindowOr(input, col, row, s);
        tmp := tmp.Set(col + half, row, value);
        col := col + 1;
      }
      row := row + 1;
    }
    CellwiseEqual(tmp, ScratchReference(input, s));
  }

  /** The vertical pass from the scratch map into the resized output. */
  method VerticalPass(input: QuantizedMap, tmp: QuantizedMap, resized: QuantizedMap, s: nat)
    returns (out: QuantizedMap)
    requires input.Valid() && tmp.Valid() && resized.Valid()
    requires tmp.width == input.width && tmp.height == input.height
    requires resized.width == input.width && resized.height == input.height
    ensures out.Valid() && out.width == input.width && out.height == input.height
    ensures forall y: nat, x: nat | y < input.height && x < input.width ::
              out.At(x, y) == if VerticallyWritten(input, s, x, y) then ColOr(tmp, x, y - Half(s), s)
                              else resized.At(x, y)
  {
    var half := Half(s);
    var colMax := ColIndexMax(input, s);
    var rowMax := RowIndexMax(input, s);
    out := resized;
    var row := 0;
    while row < rowMax
      invariant 0 <= row && (row == 0 || row <= rowMax)
      invariant out.Valid() && out.width == input.width && out.height == input.height
      invariant forall y: nat, x: nat | y < input.height && x < input.width ::
                  out.At(x, y) == if VerticallyWritten(input, s, x, y) && y < half + row
                                  then ColOr(tmp, x, y - half, s) else resized.At(x, y)
    {
      var col := 0;
      while col < colMax
        invariant 0 <= col && (col == 0 || col <= colMax)
        invariant out.Valid() && out.width == input.width && out.height == input.height
        invariant forall y: nat, x: nat | y < input.height && x < input.width ::
                    out.At(x, y) == if VerticallyWritten(input, s, x, y) && (y < half + row || (y == half + row && x < col))
                                    then ColOr(tmp, x, y - half, s) else resized.At(x, y)
      {
        var value := ColWindowOr(tmp, col, row, s);
        out := out.Set(col, row + half, value);
        col := col + 1;
      }
      row := row + 1;
    }
  }

  /** `spreadQuantizedMap` without the AVX2 path.  `output` is the map the
      caller passes in; it is resized to the input's size first. */
  method Spread(input: QuantizedMap, output: QuantizedMap, s: nat) returns (out: QuantizedMap)
    requires input.Valid()
    ensures out.width == input.width && out.height == input.height
    ensures out == SpreadReference(input, output, s)
  {
    var tmp := HorizontalPass(input, s);
    var resized := Resize(output, input.width, input.height);
    out := VerticalPass(input, tmp, resized, s);
    CellwiseEqual(out, SpreadReference(input, output, s));
  }

  /* ---------------------------------------------------------------------- */
  /* The AVX2 kernel: 32 byte lanes per step, then the scalar remainder      */
  /* ---------------------------------------------------------------------- */

  /** `_mm256_or_si256`: lane-wise OR of two registers. */
  function OrLanes(a: seq<bv8>, b: seq<bv8>): (v: seq<bv8>)
    requires |a| == |b|
  {
    seq(|a|, j requires 0 <= j < |a| => a[j] | b[j])
  }

  /** One AVX2 step of the horizontal pass: s unaligned 32-byte loads starting
      one byte apart, ORed together.  Lane j holds the OR the scalar loop
      computes for column col + j; the block starts at a column no greater
      than W - s - 1 - 32, so all 32 columns are below the scalar bound. */
  method HorizontalBlock(input: QuantizedMap, col: nat, row: nat, s: nat) returns (value: seq<bv8>)
    requires input.Valid() && row < input.height
    requires col <= ColIndexMax(input, s) - Lanes
    ensures |value| == Lanes
    ensures forall j | 0 <= j < Lanes :: col + j < ColIndexMax(input, s) && value[j] == RowOr(input, col + j, row, s)
  {
    value := seq(Lanes, _ => 0);
    var k := 0;
    while k < s
      invariant 0 <= k <= s
      invariant |value| == Lanes
      invariant forall j | 0 <= j < Lanes :: value[j] == RowOr(input, col + j, row, k)
    {
      value := OrLanes(value, input.LoadRun(col + k, row, Lanes));
      k := k + 1;
    }
  }

  /** One AVX2 step of the vertical pass: s 32-byte loads one row stride
      apart, ORed together. */
  method VerticalBlock(input: QuantizedMap, tmp: QuantizedMap, col: nat, row: nat, s: nat) returns (value: seq<bv8>)
    requires input.Valid() && tmp.Valid() && tmp.width == input.width && tmp.height == input.height
    requires row < RowIndexMax(input, s)
    requires col <= ColIndexMax(input, s) - Lanes
    ensures |value| == Lanes
    ensures forall j | 0 <= j < Lanes :: col + j < ColIndexMax(input, s) && value[j] == ColOr(tmp, col + j, row, s)
  {
    value := seq(Lanes, _ => 0);
    var k := 0;
    while k < s
      invariant 0 <= k <= s
      invariant |value| == Lanes
      invariant forall j | 0 <= j < Lanes :: value[j] == ColOr(tmp, col + j, row, k)
    {
      value := OrLanes(value, tmp.LoadRun(col, row + k, Lanes));
      k := k + 1;
    }
  }

  method HorizontalPassAvx2(input: QuantizedMap, s: nat) returns (tmp: QuantizedMap)
    requires input.Valid()
    ensures tmp == ScratchReference(input, s)
  {
    var rowMax := RowIndexMax(input, s);
    tmp := Sized(input.width, input.height);
    var row := 0;
    while row < rowMax
      invariant 0 <= row && (row == 0 || row <= rowMax)
      invariant tmp.Valid() && tmp.width == input.width && tmp.height == input.height
      invariant forall y: nat, x: nat | y < input.height && x < input.width ::
                  tmp.At(x, y) == if y < row then ScratchCell(input, s, x, y) else 0
    {
      tmp := HorizontalRowAvx2(input, s, row, tmp);
      row := row + 1;
    }
    CellwiseEqual(tmp, ScratchReference(input, s));
  }

  /** One row of the horizontal pass: 32-lane steps while a whole register
      fits, then single bytes; columns from s/2 on are written. */
  method HorizontalRowAvx2(input: QuantizedMap, s: nat, row: nat, prev: QuantizedMap) returns (tmp: QuantizedMap)
    requires input.Valid() && row < RowIndexMax(input, s)
    requires prev.Valid() && prev.width == input.width && prev.height == input.height
    requires forall y: nat, x: nat | y < input.height && x < input.width ::
               prev.At(x, y) == if y < row then ScratchCell(input, s, x, y) else 0
    ensures tmp.Valid() && tmp.width == input.width && tmp.height == input.height
    ensures forall y: nat, x: nat | y < input.height && x < input.width ::
              tmp.At(x, y) == if y < row + 1 then ScratchCell(input, s, x, y) else 0
  {
    var half := Half(s);
    var colMax := ColIndexMax(input, s);
    var colMaxAvx2 := colMax - Lanes;
    tmp := prev;
    var col := 0;
    while col <= colMaxAvx2
      invariant 0 <= col && (col == 0 || col <= colMax)
      invariant tmp.Valid() && tmp.width == input.width && tmp.height == input.height
      invariant forall y: nat, x: nat | y < input.height && x < input.width ::
                  tmp.At(x, y) == if y < row || (y == row && x < half + col) then ScratchCell(input, s, x, y) else 0
    {
      var value := HorizontalBlock(input, col, row, s);
      tmp := tmp.StoreRun(col + half, row, value);
      col := col + Lanes;
    }
    while col < colMax
      invariant 0 <= col && (col == 0 || col <= colMax)
      invariant tmp.Valid() && tmp.width == input.width && tmp.height == input.height
      invariant forall y: nat, x: nat | y < input.height && x < input.width ::
                  tmp.At(x, y) == if y < row || (y == row && x < half + col) then ScratchCell(input, s, x, y) else 0
    {
      var value := RowWindowOr(input, col, row, s);
      tmp := tmp.Set(col + half, row, value);
      col := col + 1;
    }
  }

  method VerticalPassAvx2(input: QuantizedMap, tmp: QuantizedMap, resized: QuantizedMap, s: nat)
    returns (out: QuantizedMap)
    requires input.Valid() && tmp.Valid() && resized.Valid()
    requires tmp.width == input.width && tmp.height == input.height
    requires resized.width == input.width && resized.height == input.height
    ensures out.Valid() && out.width == input.width && out.height == input.height
    ensures forall y: nat, x: nat | y < input.height && x < input.width ::
              out.At(x, y) == if VerticallyWritten(input, s, x, y) then ColOr(tmp, x, y - Half(s), s)
                              else resized.At(x, y)
  {
    var half := Half(s);
    var rowMax := RowIndexMax(input, s);
    out := resized;
    var row := 0;
    while row < rowMax
      invariant 0 <= row && (row == 0 || row <= rowMax)
      invariant out.Valid() && out.width == input.width && out.height == input.height
      invariant forall y: nat, x: nat | y < input.height && x < input.width ::
                  out.At(x, y) == if VerticallyWritten(input, s, x, y) && y < half + row
                                  then ColOr(tmp, x, y - half, s) else resized.At(x, y)
    {
      out := VerticalRowAvx2(input, tmp, resized, s, row, out);
      row := row + 1;
    }
  }

  /** One row of the vertical pass: 32-lane steps while a whole register
      fits, then single bytes; output row row + s/2 is written. */
  method VerticalRowAvx2(input: QuantizedMap, tmp: QuantizedMap, resized: QuantizedMap, s: nat, row: nat,
                         prev: QuantizedMap) returns (out: QuantizedMap)
    requires input.Valid() && tmp.Valid() && resized.Valid()
    requires tmp.width == input.width && tmp.height == input.height
    requires resized.width == input.width && resized.height == input.height
    requires row < RowIndexMax(input, s)
    requires prev.Valid() && prev.width == input.width && prev.height == input.height
    requires forall y: nat, x: nat | y < input.height && x < input.width ::
               prev.At(x, y) == if VerticallyWritten(input, s, x, y) && y < Half(s) + row
                                then ColOr(tmp, x, y - Half(s), s) else resized.At(x, y)
    ensures out.Valid() && out.width == input.width && out.height == input.height
    ensures forall y: nat, x: nat | y < input.height && x < input.width ::
              out.At(x, y) == if VerticallyWritten(input, s, x, y) && y < Half(s) + row + 1
                              then ColOr(tmp, x, y - Half(s), s) else resized.At(x, y)
  {
    var half := Half(s);
    var colMax := ColIndexMax(input, s);
    var colMaxAvx2 := colMax - Lanes;
    out := prev;
    var col := 0;
    while col <= colMaxAvx2
      invariant 0 <= col && (col == 0 || col <= colMax)
      invariant out.Valid() && out.width == input.width && out.height == input.height
      invariant forall y: nat, x: nat | y < input.height && x < input.width ::
                  out.At(x, y) == if VerticallyWritten(input, s, x, y) && (y < half + row || (y == half + row && x < col))
                                  then ColOr(tmp, x, y - half, s) else resized.At(x, y)
    {
      var value := VerticalBlock(input, tmp, col, row, s);
      out := out.StoreRun(col, row + half, value);
      col := col + Lanes;
    }
    while col < colMax
      invariant 0 <= col && (col == 0 || col <= colMax)
      invariant out.Valid() && out.width == input.width && out.height == input.height
      invariant forall y: nat, x: nat | y < input.height && x < input.width ::
                  out.At(x, y) == if VerticallyWritten(input, s, x, y) && (y < half + row || (y == half + row && x < col))
                                  then ColOr(tmp, x, y - half, s) else resized.At(x, y)
    {
      var value := ColWindowOr(tmp, col, row, s);
      out := out.Set(col, row + half, value);
      col := col + 1;
    }
  }

  /** `spreadQuantizedMap` as compiled with AVX2: the same map as the scalar
      kernel, since both equal `SpreadReference`. */
  method SpreadAvx2(input: QuantizedMap, output: QuantizedMap, s: nat) returns (out: QuantizedMap)
    requires input.Valid()
    ensures out.width == input.width && out.height == input.height
    ensures out == SpreadReference(input, output, s)
  {
    var tmp := HorizontalPassAvx2(input, s);
    var resized := Resize(output, input.width, input.height);
    out := VerticalPassAvx2(input, tmp, resized, s);
    CellwiseEqual(out, SpreadReference(input, output, s));
  }
}

=== FILE: template_loader.dfy ===
/**
  `loadTemplates`: reading a template container, which is a tar archive in
  the ustar interchange format of POSIX.1 (IEEE Std 1003.1, pax utility).

  The archive is a sequence of 512-byte blocks; each block is seen through
  the layout of a tar header (name, typeflag, magic, size), whether or not
  it is one, because the loader reads headers at whatever offset its cursor
  holds.  A block whose read fails is `IoError`; a read at or past the end
  returns nothing and leaves the header buffer as it was.  The loader is a
  fold of `Step` over a byte cursor; the payload parsers are parameters.
*/
module TemplateLoader {
  import opened Wrappers
  import opened Records
  import opened Recognizer

  /** The size of a tar block and of a tar header. */
  const BlockSize: nat := 512

  /** The largest value of the loader's 32-bit signed cursor.  The model ends
      the load once the unreduced cursor passes it, as the failing `lseek`
      does for every cursor below 2^32; the wrap-around beyond 2^32 is not
      modelled. */
  const MaxOffset: nat := 0x7FFF_FFFF

  /** The fields of a tar header the loader looks at; `name` and `magic` are
      the C strings up to their first NUL, `size` the decoded octal size.  A
      100-character name has no NUL inside its field, so the source's string
      runs on into the next fields; `name` holds the field's characters only. */
  datatype TarHeader = TarHeader(name: string, typeflag: char, magic: string, size: nat)

  datatype Block = Record(header: TarHeader) | IoError

  /** What a 512-byte `read` at an offset returns. */
  datatype ReadResult = Failed | Eof | Got(header: TarHeader)

  function ReadBlock(file: seq<Block>, offset: nat): (r: ReadResult)
    ensures r.Failed? <==> offset / BlockSize < |file| && file[offset / BlockSize].IoError?
    ensures r.Eof? <==> |file| <= offset / BlockSize
    ensures r.Got? ==> file[offset / BlockSize] == Record(r.header)
  {
    var i := offset / BlockSize;
    if |file| <= i then Eof
    else match file[i]
      case IoError => Failed
      case Record(h) => Got(h)
  }

  /** Header acceptance: a regular file (typeflag '0' or NUL), the magic
      "ustar" and a nonzero size. */
  predicate Accepts(h: TarHeader) {
    && (h.typeflag == '0' || h.typeflag == '\0')
    && |h.magic| >= 5 && h.magic[..5] == "ustar"
    && h.size != 0
  }

  datatype HeaderRead = HeaderRead(accepted: bool, buffer: TarHeader)

  /** `readLTMHeader`: reads into the buffer, then checks it.  A failed read
      rejects; a read at the end leaves the buffer's old contents, which are
      then checked again. */
  function ReadLtmHeader(file: seq<Block>, offset: nat, buffer: TarHeader): (r: HeaderRead)
    ensures r.buffer == (if ReadBlock(file, offset).Got? then ReadBlock(file, offset).header else buffer)
    ensures r.accepted <==> !ReadBlock(file, offset).Failed? && Accepts(r.buffer)
  {
    match ReadBlock(file, offset)
    case Failed => HeaderRead(false, buffer)
    case Eof => HeaderRead(Accepts(buffer), buffer)
    case Got(h) => HeaderRead(Accepts(h), h)
  }

  /** The cursor step over an entry body of n bytes: n rounded up to the
      next multiple of 512, plus a whole block when n already is one. */
  function Padded(n: nat): (r: nat)
    ensures r % BlockSize == 0
    ensures n < r <= n + BlockSize
    ensures n % BlockSize == 0 ==> r == n + BlockSize
  {
    n + (BlockSize - n % BlockSize)
  }

  /* ---------------------------------------------------------------------- */
  /* Entry classification                                                    */
  /* ---------------------------------------------------------------------- */

  /** `::tolower` on one character in the C locale. */
  function LowerChar(c: char): char {
    if 'A' <= c <= 'Z' then (c as int + 32) as char else c
  }

  function Lower(s: string): (r: string)
    ensures |r| == |s|
    ensures forall i | 0 <= i < |s| :: r[i] == LowerChar(s[i])
  {
    seq(|s|, i requires 0 <= i < |s| => LowerChar(s[i]))
  }

  predicate OccursAt(s: string, pat: string, i: nat) {
    i + |pat| <= |s| && s[i..i + |pat|] == pat
  }

  /** `std::string::find` from position i on. */
  function FindFrom(s: string, pat: string, i: nat): (r: Option<nat>)
    ensures r.Some? ==> i <= r.value && OccursAt(s, pat, r.value)
    ensures r.Some? ==> forall j | i <= j < r.value :: !OccursAt(s, pat, j)
    ensures r.None? ==> forall j | i <= j :: !OccursAt(s, pat, j)
    decreases |s| - i
  {
    if |s| < i + |pat| then None
    else if s[i..i + |pat|] == pat then Some(i)
    else FindFrom(s, pat, i + 1)
  }

  /** `std::string::find`: the first occurrence of pat in s. */
  function Find(s: string, pat: string): (r: Option<nat>)
    ensures r.Some? ==> OccursAt(s, pat, r.value) && forall j | 0 <= j < r.value :: !OccursAt(s, pat, j)
    ensures r.None? ==> forall j: nat :: !OccursAt(s, pat, j)
  {
    FindFrom(s, pat, 0)
  }

  /** The suffix test of the loader: the first occurrence of the extension
      exists and ends the name.  The source writes the second half as
      `ext.size() - (name.size() - it) == 0` in unsigned arithmetic, which
      holds exactly when the two lengths agree. */
  predicate HasExtension(name: string, ext: string) {
    var it := Find(name, ext);
    it.Some? && |name| - it.value == |ext|
  }

  /** The same test stated without `find`: the extension ends the name and
      occurs nowhere earlier. */
  predicate EndsWithFirstOccurrence(name: string, ext: string) {
    && |ext| <= |name|
    && OccursAt(name, ext, |name| - |ext|)
    && forall j | 0 <= j < |name| - |ext| :: !OccursAt(name, ext, j)
  }

  lemma HasExtensionIsFirstOccurrenceAtEnd(name: string, ext: string)
    ensures HasExtension(name, ext) <==> EndsWithFirstOccurrence(name, ext)
  {
    var it := Find(name, ext);
    if EndsWithFirstOccurrence(name, ext) {
      var e := |name| - |ext|;
      assert it.Some? && it.value <= e;
      assert it.value == e;
    }
  }

  datatype Kind = GeometryEntry | SignatureEntry | OtherEntry

  const PcdExtension: string := ".pcd"
  const SqmmtExtension: string := ".sqmmt"

  /** The entry kind of a header name: the lower-cased name is tested for
      ".pcd" first, then for ".sqmmt". */
  function Classify(name: string): (k: Kind)
    ensures k == GeometryEntry <==> EndsWithFirstOccurrence(Lower(name), PcdExtension)
    ensures k == SignatureEntry <==>
              !EndsWithFirstOccurrence(Lower(name), PcdExtension) && EndsWithFirstOccurrence(Lower(name), SqmmtExtension)
  {
    var lower := Lower(name);
    HasExtensionIsFirstOccurrenceAtEnd(lower, PcdExtension);
    HasExtensionIsFirstOccurrenceAtEnd(lower, SqmmtExtension);
    if HasExtension(lower, PcdExtension) then GeometryEntry
    else if HasExtension(lower, SqmmtExtension) then SignatureEntry
    else OtherEntry
  }

  /** Only the first occurrence of the extension counts: a name holding
      ".pcd" twice is not a geometry entry, and is skipped. */
  lemma RepeatedExtensionIsSkipped()
    ensures Classify("chair.pcd.pcd") == OtherEntry
  {
    var n := "chair.pcd.pcd";
    assert Lower(n) == n;
    assert OccursAt(n, PcdExtension, 5);
    assert n[7..13] != SqmmtExtension by { assert n[7..13][0] != SqmmtExtension[0]; }
  }

  /** Names are compared after lower-casing. */
  lemma UpperCaseExtensionIsGeometry()
    ensures Classify("Chair.PCD") == GeometryEntry
  {
    var n := "chair.pcd";
    assert Lower("Chair.PCD") == n;
    assert OccursAt(n, PcdExtension, 5);
    forall j | 0 <= j < 5
      ensures !OccursAt(n, PcdExtension, j)
    {
      assert n[j..j + 4][0] != '.';
    }
  }

  /** A ".sqmmt" name is a signature entry. */
  lemma SqmmtNameIsSignature()
    ensures Classify("chair.sqmmt") == SignatureEntry
  {
    var n := "chair.sqmmt";
    assert Lower(n) == n;
    assert OccursAt(n, SqmmtExtension, 5);
    assert n[7..11] != PcdExtension by { assert n[7..11][0] != PcdExtension[0]; }
    forall j | 0 <= j < 5
      ensures !OccursAt(n, SqmmtExtension, j)
    {
      assert n[j..j + 6][0] != '.';
    }
  }

  /* ---------------------------------------------------------------------- */
  /* The cursor fold                                                         */
  /* ---------------------------------------------------------------------- */

  /** The loop state: the cursor, the header buffer and the three collections
      the loop appends to. */
  datatype LoadState<S> = LoadState(
    offset: nat,
    buffer: TarHeader,
    clouds: seq<Cloud>,
    signatures: seq<S>,
    objectIds: seq<nat>)

  datatype Outcome<S> = Next(state: LoadState<S>) | Done(state: LoadState<S>)

  /** st' only appended to the collections of st: every signature came with
      exactly one object id, and every new object id is objectId. */
  ghost predicate Extends<S>(st: LoadState<S>, st': LoadState<S>, objectId: nat) {
    && |st.clouds| <= |st'.clouds| && st'.clouds[..|st.clouds|] == st.clouds
    && |st.signatures| <= |st'.signatures| && st'.signatures[..|st.signatures|] == st.signatures
    && |st.objectIds| <= |st'.objectIds| && st'.objectIds[..|st.objectIds|] == st.objectIds
    && |st'.objectIds| - |st.objectIds| == |st'.signatures| - |st.signatures|
    && forall i | |st.objectIds| <= i < |st'.objectIds| :: st'.objectIds[i] == objectId
  }

  lemma ExtendsTransitive<S>(a: LoadState<S>, b: LoadState<S>, c: LoadState<S>, objectId: nat)
    requires Extends(a, b, objectId) && Extends(b, c, objectId)
    ensures Extends(a, c, objectId)
  {
    assert c.clouds[..|a.clouds|] == c.clouds[..|b.clouds|][..|a.clouds|];
    assert c.signatures[..|a.signatures|] == c.signatures[..|b.signatures|][..|a.signatures|];
    assert c.objectIds[..|a.objectIds|] == c.objectIds[..|b.objectIds|][..|a.objectIds|];
    forall i | |a.objectIds| <= i < |c.objectIds|
      ensures c.objectIds[i] == objectId
    {
      if i < |b.objectIds| {
        assert c.objectIds[..|b.objectIds|][i] == c.objectIds[i];
      }
    }
  }

  /** The closing `lseek` of an iteration: it fails once the cursor has left
      the range of a 32-bit signed offset. */
  function Seek<S>(st: LoadState<S>): (o: Outcome<S>)
    ensures o.state == st
    ensures o.Next? <==> st.offset <= MaxOffset
  {
    if st.offset <= MaxOffset then Next(st) else Done(st)
  }

  /** One iteration of the loop of `loadTemplates`.  `parsePcd(o)` is the
      cloud the PCD reader yields at byte offset o and `deserialize(o, n)` the
      signature decoded from the n bytes read at o. */
  function Step<S>(file: seq<Block>, st: LoadState<S>, objectId: nat,
                   parsePcd: nat -> Cloud, deserialize: (nat, nat) -> S): (o: Outcome<S>)
    requires st.offset <= MaxOffset
    ensures o.Next? ==> st.offset < o.state.offset <= MaxOffset
    ensures Extends(st, o.state, objectId)
  {
    var hr := ReadLtmHeader(file, st.offset, st.buffer);
    if !hr.accepted then Done(Moved(st, st.offset, hr.buffer, objectId))
    else
      var h := hr.buffer;
      var body := st.offset + BlockSize;
      match Classify(h.name)
      case GeometryEntry =>
        Seek(WithCloud(st, body + Padded(h.size), h, parsePcd(body), objectId))
      case SignatureEntry =>
        if ReadBlock(file, body).Failed? then Done(Moved(st, body, h, objectId))
        else Seek(WithSignature(st, body + Padded(h.size), h, deserialize(body, h.size), objectId))
      case OtherEntry =>
        Seek(Moved(st, body, h, objectId))
  }

  /** The cursor and the buffer change, the collections do not. */
  function Moved<S>(st: LoadState<S>, offset: nat, h: TarHeader, objectId: nat): (r: LoadState<S>)
    ensures r.offset == offset && r.buffer == h
    ensures r.clouds == st.clouds && r.signatures == st.signatures && r.objectIds == st.objectIds
    ensures Extends(st, r, objectId)
  {
    st.(offset := offset, buffer := h)
  }

  /** A geometry entry: one cloud appended. */
  function WithCloud<S>(st: LoadState<S>, offset: nat, h: TarHeader, c: Cloud, objectId: nat): (r: LoadState<S>)
    ensures r.offset == offset && r.buffer == h
    ensures r.clouds == st.clouds + [c] && r.signatures == st.signatures && r.objectIds == st.objectIds
    ensures Extends(st, r, objectId)
  {
    st.(offset := offset, buffer := h, clouds := st.clouds + [c])
  }

  /** A signature entry: one signature and the object id appended. */
  function WithSignature<S>(st: LoadState<S>, offset: nat, h: TarHeader, sig: S, objectId: nat): (r: LoadState<S>)
    ensures r.offset == offset && r.buffer == h
    ensures r.clouds == st.clouds && r.signatures == st.signatures + [sig] && r.objectIds == st.objectIds + [objectId]
    ensures Extends(st, r, objectId)
  {
    st.(offset := offset, buffer := h, signatures := st.signatures + [sig], objectIds := st.objectIds + [objectId])
  }

  /** The loop of `loadTemplates`, run until `Step` is done.  Whatever it
      reads, the collections only grow: every signature comes with exactly
      one object id, and every appended object id is the argument. */
  function Scan<S>(file: seq<Block>, st: LoadState<S>, objectId: nat,
                   parsePcd: nat -> Cloud, deserialize: (nat, nat) -> S): (r: LoadState<S>)
    requires st.offset <= MaxOffset
    ensures Extends(st, r, objectId)
    decreases MaxOffset - st.offset
  {
    match Step(file, st, objectId, parsePcd, deserialize)
    case Done(s) => s
    case Next(s) =>
      var r := Scan(file, s, objectId, parsePcd, deserialize);
      ExtendsTransitive(st, s, r, objectId);
      r
  }

  /** What one accepted entry appends: a geometry entry one cloud parsed
      after its header, a signature entry whose body can be read one
      signature and one object id equal to the argument, any other entry
      nothing. */
  lemma StepAppends<S>(file: seq<Block>, st: LoadState<S>, objectId: nat,
                       parsePcd: nat -> Cloud, deserialize: (nat, nat) -> S)
    requires st.offset <= MaxOffset
    requires ReadLtmHeader(file, st.offset, st.buffer).accepted
    ensures var h := ReadLtmHeader(file, st.offset, st.buffer).buffer;
            var body := st.offset + BlockSize;
            var s := Step(file, st, objectId, parsePcd, deserialize).state;
            && s.buffer == h
            && (Classify(h.name) == GeometryEntry ==>
                  s.clouds == st.clouds + [parsePcd(body)] && s.signatures == st.signatures && s.objectIds == st.objectIds)
            && (Classify(h.name) == SignatureEntry && !ReadBlock(file, body).Failed? ==>
                  && s.clouds == st.clouds
                  && s.signatures == st.signatures + [deserialize(body, h.size)]
                  && s.objectIds == st.objectIds + [objectId])
            && (Classify(h.name) == SignatureEntry && ReadBlock(file, body).Failed? ==>
                  Step(file, st, objectId, parsePcd, deserialize).Done? && s == st.(offset := body, buffer := h))
            && (Classify(h.name) == OtherEntry ==>
                  s.clouds == st.clouds && s.signatures == st.signatures && s.objectIds == st.objectIds)
  {
  }

  /** The cursor arithmetic of one iteration that goes on: 512 for the
      header, then the padded body for a geometry or signature entry and
      nothing for any other entry, whose body is read as the next header. */
  lemma StepCursor<S>(file: seq<Block>, st: LoadState<S>, objectId: nat,
                      parsePcd: nat -> Cloud, deserialize: (nat, nat) -> S)
    requires st.offset <= MaxOffset
    requires Step(file, st, objectId, parsePcd, deserialize).Next?
    ensures var h := Step(file, st, objectId, parsePcd, deserialize).state.buffer;
            Step(file, st, objectId, parsePcd, deserialize).state.offset ==
              st.offset + BlockSize + (if Classify(h.name) == OtherEntry then 0 else Padded(h.size))
  {
  }

  /** The cursor stays on a block boundary: every step is a whole number of
      blocks. */
  lemma StepKeepsBlockAlignment<S>(file: seq<Block>, st: LoadState<S>, objectId: nat,
                                   parsePcd: nat -> Cloud, deserialize: (nat, nat) -> S)
    requires st.offset <= MaxOffset && st.offset % BlockSize == 0
    requires Step(file, st, objectId, parsePcd, deserialize).Next?
    ensures Step(file, st, objectId, parsePcd, deserialize).state.offset % BlockSize == 0
  {
    StepCursor(file, st, objectId, parsePcd, deserialize);
    var s := Step(file, st, objectId, parsePcd, deserialize).state;
    MultipleSum(st.offset, s.buffer.size, Classify(s.buffer.name) == OtherEntry, s.offset);
  }

  lemma MultipleSum(a: nat, size: nat, other: bool, b: nat)
    requires a % BlockSize == 0
    requires b == a + BlockSize + (if other then 0 else Padded(size))
    ensures b % BlockSize == 0
  {
  }

  /** The first rejected header ends the loop, with nothing appended. */
  lemma RejectedHeaderEndsLoad<S>(file: seq<Block>, st: LoadState<S>, objectId: nat,
                                  parsePcd: nat -> Cloud, deserialize: (nat, nat) -> S)
    requires st.offset <= MaxOffset
    requires !ReadLtmHeader(file, st.offset, st.buffer).accepted
    ensures Scan(file, st, objectId, parsePcd, deserialize)
            == st.(buffer := ReadLtmHeader(file, st.offset, st.buffer).buffer)
  {
  }

  /** A read at the end of the archive does not stop the loop: the stale
      header in the buffer is accepted again when it was acceptable, and
      its entry is processed once more at the new offset. */
  lemma EndOfFileReusesStaleHeader<S>(file: seq<Block>, st: LoadState<S>, objectId: nat,
                                      parsePcd: nat -> Cloud, deserialize: (nat, nat) -> S)
    requires st.offset <= MaxOffset && |file| <= st.offset / BlockSize
    requires Accepts(st.buffer) && Classify(st.buffer.name) == GeometryEntry
    requires st.offset + BlockSize + Padded(st.buffer.size) <= MaxOffset
    ensures var o := Step(file, st, objectId, parsePcd, deserialize);
            && o.Next?
            && o.state.clouds == st.clouds + [parsePcd(st.offset + BlockSize)]
            && o.state.buffer == st.buffer
  {
  }

  /** An entry with an unknown suffix moves the cursor past its header only,
      so the first block of its body is read as the next header. */
  lemma UnknownEntryBodyIsReadAsHeader<S>(file: seq<Block>, st: LoadState<S>, objectId: nat,
                                          parsePcd: nat -> Cloud, deserialize: (nat, nat) -> S)
    requires st.offset + BlockSize <= MaxOffset
    requires ReadLtmHeader(file, st.offset, st.buffer).accepted
    requires Classify(ReadLtmHeader(file, st.offset, st.buffer).buffer.name) == OtherEntry
    ensures var o := Step(file, st, objectId, parsePcd, deserialize);
            && o.Next? && o.state.offset == st.offset + BlockSize
            && o.state.clouds == st.clouds && o.state.signatures == st.signatures
            && o.state.objectIds == st.objectIds
  {
  }

  datatype LoadResult<S> = LoadResult(ok: bool, recognizer: LineRgbd<S>)

  /** The state the loop of `loadTemplates` starts from: offset 0, the
      header buffer as it was, and the collections already present. */
  function Start<S>(r: LineRgbd<S>, buffer: TarHeader): (st: LoadState<S>)
    ensures st.offset == 0 && st.buffer == buffer
    ensures st.clouds == r.templateClouds && st.signatures == r.signatures && st.objectIds == r.objectIds
  {
    LoadState(0, buffer, r.templateClouds, r.signatures, r.objectIds)
  }

  /** The code after the loop: every collected cloud is recentered and gets
      its box; the signatures and object ids are the collected ones. */
  function Installed<S>(r: LineRgbd<S>, s: LoadState<S>): (r': LineRgbd<S>)
    ensures r'.BoxesAligned() && |r'.templateClouds| == |s.clouds|
    ensures forall i | 0 <= i < |s.clouds| :: Centered(r'.boundingBoxes[i], r'.templateClouds[i]) == Recenter(s.clouds[i])
    ensures r'.signatures == s.signatures && r'.objectIds == s.objectIds
    ensures r'.intersectionVolumeThreshold == r.intersectionVolumeThreshold
    ensures r'.translationClusteringThreshold2d == r.translationClusteringThreshold2d
    ensures r'.translationClusteringThreshold3d == r.translationClusteringThreshold3d
    ensures r'.rotationClusteringThreshold == r.rotationClusteringThreshold
  {
    var centered := RecenterAll(s.clouds);
    r.(templateClouds := CloudsOf(centered), boundingBoxes := BoxesOf(centered),
       signatures := s.signatures, objectIds := s.objectIds)
  }

  /** `loadTemplates`.  `file` is None when the archive cannot be opened;
      `buffer` is the header buffer's contents before the first read.  The
      loaded entries are appended to the templates already present, then
      every template's box is recomputed and its cloud recentered. */
  function LoadTemplates<S>(r: LineRgbd<S>, file: Option<seq<Block>>, objectId: nat, buffer: TarHeader,
                            parsePcd: nat -> Cloud, deserialize: (nat, nat) -> S): (res: LoadResult<S>)
    ensures res.ok <==> file.Some?
    ensures !res.ok ==> res.recognizer == r
    ensures res.ok ==> res.recognizer.BoxesAligned()
    ensures res.ok ==> res.recognizer.intersectionVolumeThreshold == r.intersectionVolumeThreshold
    ensures res.ok ==> res.recognizer.translationClusteringThreshold2d == r.translationClusteringThreshold2d
    ensures res.ok ==> res.recognizer.translationClusteringThreshold3d == r.translationClusteringThreshold3d
    ensures res.ok ==> res.recognizer.rotationClusteringThreshold == r.rotationClusteringThreshold
  {
    match file
    case None => LoadResult(false, r)
    case Some(blocks) =>
      LoadResult(true, Installed(r, Scan(blocks, Start(r, buffer), objectId, parsePcd, deserialize)))
  }

  /** A successful load appends: the result holds every collected cloud
      recentered, beginning with the templates already present (recentered
      once more); the old signatures are a prefix of the new ones, and one
      object id equal to the argument comes with every new signature. */
  lemma LoadAppends<S>(r: LineRgbd<S>, blocks: seq<Block>, objectId: nat, buffer: TarHeader,
                       parsePcd: nat -> Cloud, deserialize: (nat, nat) -> S)
    ensures var s := Scan(blocks, Start(r, buffer), objectId, parsePcd, deserialize);
            var r' := LoadTemplates(r, Some(blocks), objectId, buffer, parsePcd, deserialize).recognizer;
            && |r'.templateClouds| == |s.clouds| >= |r.templateClouds|
            && (forall i | 0 <= i < |s.clouds| :: Centered(r'.boundingBoxes[i], r'.templateClouds[i]) == Recenter(s.clouds[i]))
            && (forall i | 0 <= i < |r.templateClouds| :: r'.templateClouds[i] == Recenter(r.templateClouds[i]).cloud)
            && |r.signatures| <= |r'.signatures| && r'.signatures[..|r.signatures|] == r.signatures
            && r'.objectIds == r.objectIds + seq(|r'.signatures| - |r.signatures|, _ => objectId)
  {
    var s := Scan(blocks, Start(r, buffer), objectId, parsePcd, deserialize);
    var r' := Installed(r, s);
    forall i | 0 <= i < |r.templateClouds|
      ensures r'.templateClouds[i] == Recenter(r.templateClouds[i]).cloud
    {
      assert s.clouds[..|r.templateClouds|][i] == s.clouds[i];
    }
    assert r'.objectIds == r.objectIds + seq(|r'.signatures| - |r.signatures|, _ => objectId);
  }

  function CloudsOf(cs: seq<Centered>): (r: seq<Cloud>)
    ensures |r| == |cs| && forall i | 0 <= i < |cs| :: r[i] == cs[i].cloud
  {
    seq(|cs|, i requires 0 <= i < |cs| => cs[i].cloud)
  }

  function BoxesOf(cs: seq<Centered>): (r: seq<BoundingBoxXYZ>)
    ensures |r| == |cs| && forall i | 0 <= i < |cs| :: r[i] == cs[i].box
  {
    seq(|cs|, i requires 0 <= i < |cs| => cs[i].box)
  }

  /** Loading appends: templates already present whose box and cloud came out
      of a recentering keep both through a load, whatever the archive holds. */
  lemma LoadKeepsCenteredTemplates<S>(r: LineRgbd<S>, blocks: seq<Block>, objectId: nat, buffer: TarHeader,
                                      parsePcd: nat -> Cloud, deserialize: (nat, nat) -> S)
    requires r.BoxesAligned()
    requires forall i | 0 <= i < |r.templateClouds| :: Recenter(r.templateClouds[i]) == Centered(r.boundingBoxes[i], r.templateClouds[i])
    ensures var r' := LoadTemplates(r, Some(blocks), objectId, buffer, parsePcd, deserialize).recognizer;
            forall i | 0 <= i < |r.templateClouds| ::
              r'.templateClouds[i] == r.templateClouds[i] && r'.boundingBoxes[i] == r.boundingBoxes[i]
  {
    var s := Scan(blocks, Start(r, buffer), objectId, parsePcd, deserialize);
    var r' := LoadTemplates(r, Some(blocks), objectId, buffer, parsePcd, deserialize).recognizer;
    forall i | 0 <= i < |r.templateClouds|
      ensures r'.templateClouds[i] == r.templateClouds[i] && r'.boundingBoxes[i] == r.boundingBoxes[i]
    {
      assert s.clouds[..|r.templateClouds|][i] == s.clouds[i];
    }
  }
}

=== FILE: wrappers.dfy ===
/** An optional value: a result that may be absent, such as the box of a
    cloud without a finite point, a substring search that finds nothing or
    a file that cannot be opened. */
module Wrappers {

  datatype Option<+T> = None | Some(value: T)
}
